=== FILE: README.md ===
# api-gateway in Dafny

A model of the in-memory core of the `api-gateway` service. The service is a
video-ingest front end that has two stacks side by side:

- **Controller stack.** A stream service keeps a stream registry and per-stream
  statistics. It asks an external user service for users and streaming
  targets, and it auto-creates a stream when the first frame arrives. Next to it,
  a client-info service keeps a keyed client store with paginated listing.
  Finally, an HTTP handler fills in request defaults and reads typed values out
  of loosely typed JSON maps.
- **Gateway stack.** A session registry gives each session a bounded send
  queue and a set of channel subscriptions. A service registry holds per-role
  endpoints with health flags and latency statistics. The gateway itself
  has a bounded inbound frame queue, fans frames out to subscribers, and
  dispatches control messages. Its HTTP and WebSocket handlers validate requests
  and route subscription commands.
- **Command line.** It picks a command and parses the server flags.

Every operation is a pure function, or a small method with loop invariants,
over immutable state records. The following are parameters instead of being
read:

- clock readings (`unix`, `nanos`, `now`);
- the outcomes of remote calls (user-service replies, HTTP dispatch outcomes,
  health-probe answers);
- Go's map iteration order. Operations that range over a map take an `order`
  that lists every key exactly once (`Enumeration.Enumerates`), and sums are
  proved independent of it.

The user service is an oracle (`UserClient.UserService`). The stub client
the source falls back to is one such oracle (`UserClient.Stub`). Runtime
panics that a slice expression or a nil dereference would raise are modelled
as explicit outcomes (`ListOutcome.SlicePanic`, `StartResult.StartPanicked`).

Modules and files:

| module | file | source component |
|---|---|---|
| `Wrappers`, `Text`, `Enumeration` | wrappers.dfy, text.dfy, enumeration.dfy | Go helpers used throughout: results, decimal formatting, `strings.Split`/`Contains`, map iteration |
| `Json` | json_value.dfy | typed lookups in decoded JSON maps, int32 conversion |
| `StreamRepository`, `ClientRepository` | stream_repository.dfy, client_repository.dfy | internal/controller/repository.go |
| `UserClient` | user_client.dfy | internal/grpc_client/user_client.go, real_user_client.go |
| `StreamService` | stream_service.dfy | internal/controller/video_stream_service.go |
| `ClientInfoService` | client_info_service.dfy | internal/controller/client_info_service.go |
| `StreamHandler` | stream_handler.dfy | internal/handler/video_stream_handler.go |
| `GatewayTypes`, `ClientManager` | gateway_types.dfy, client_manager.dfy | internal/gateway/client_manager.go, internal/types |
| `ServiceRegistry` | service_registry.dfy | internal/gateway/service_discovery.go |
| `Gateway` | gateway.dfy | internal/gateway/gateway.go |
| `GatewayHandler` | gateway_handler.dfy | internal/gateway/handler.go |
| `Commands` | commands.dfy | cmd/api-gateway/commands.go |

## Model

| member | source | states |
|---|---|---|
| StreamRepository.SaveStream | internal/controller/repository.go:87-110 | The stream is always overwritten. A stats row is created only when none exists, so an existing row's counters survive a repeated save. Other entries are untouched, and the equal-key-sets invariant is kept. |
| StreamRepository.Empty | internal/controller/repository.go:79-84 | No streams and no stats rows, satisfying the invariant. |
| StreamRepository.FreshRow | internal/controller/repository.go:95-108 | A new row has 0 frames and 0 bytes, 1920x1080, codec "H.264", and the stream's recording and streaming flags. |
| StreamRepository.Advance | internal/controller/repository.go:122-145 | Frames go up by exactly 1, even for a nil frame. Bytes go up by the payload length. Width and height change only for positive values. Duration becomes now minus the start time. The FPS is recomputed only for positive elapsed time. |
| StreamRepository.UpdateStats | internal/controller/repository.go:113-148 | An unknown id returns nil and changes nothing. Otherwise exactly that row advances, and the streams map and the key sets stay the same. |
| StreamRepository.GetStream | internal/controller/repository.go:171-177 | A value is found iff the id is stored, and it is the stored stream. |
| StreamRepository.GetStats | internal/controller/repository.go:150-156 | A value is found iff a row is stored, and it is that row. |
| StreamRepository.RemoveStream | internal/controller/repository.go:192-199 | Deletes both entries. An absent id is a no-op. The invariant is kept. |
| StreamRepository.GetAllActiveStreams | internal/controller/repository.go:201-213 | Returns exactly the streams with recording or streaming set, each once, paired with its key. |
| StreamRepository.StatsInOrder | internal/controller/repository.go:158-169 | All rows, in the map's iteration order. |
| StreamRepository.TotalOfStatsInOrder | internal/controller/repository.go:158-169 | Summing the listed rows equals summing the map over the same order. |
| StreamRepository.TotalsIndependentOfOrder | internal/controller/repository.go:158-169 | Sums over the row list do not depend on the iteration order. |
| StreamRepository.CountersAfterFrames | internal/controller/repository.go:113-148 | After n updates, frames have grown by n and bytes by the total payload of the non-nil frames. |
| StreamRepository.UpdateAllKeepsValid | internal/controller/repository.go:113-148 | Any sequence of updates keeps the streams and stats key sets equal. |
| StreamRepository.SaveGetRemove | internal/controller/repository.go:87-199 | A saved stream and its row can be read back. After removal neither is found. |
| StreamRepository.RemoveIdempotent | internal/controller/repository.go:192-199 | Removing twice is the same as removing once. |
| ClientRepository.SaveClient | internal/controller/repository.go:25-42 | Nil is ignored. Otherwise the stamped record replaces the entry under its ClientId, and nothing else changes. |
| ClientRepository.Stamp | internal/controller/repository.go:33-37 | A missing stats block is created. LastActivity is set to now. Identity and other counters are kept. |
| ClientRepository.GetClient | internal/controller/repository.go:43-50 | A record is found iff the id is stored. |
| ClientRepository.RemoveClient | internal/controller/repository.go:51-57 | Deletes only the id. An absent id changes nothing. |
| ClientRepository.SaveGetRemove | internal/controller/repository.go:25-57 | Save then get returns the stamped record. Remove makes it absent. Remove is idempotent. |
| UserClient.GetUserInfoWithRetry | internal/grpc_client/user_client.go:147-168 | At most max(MaxRetries,0) attempts, and the first success is returned at once. Attempts-1 sleeps, never one after the last attempt. On exhaustion the error carries MaxRetries and the last error, or nil when no attempt ran. Any success within the budget is found. The real client repeats this loop verbatim (internal/grpc_client/real_user_client.go, lines 110-131). |
| UserClient.HealthCheck | internal/grpc_client/user_client.go:129-145 | Healthy iff the probe succeeded or failed with exactly the NotFound text. Any other error is wrapped. The real client applies the same rule (internal/grpc_client/real_user_client.go, lines 92-107). |
| UserClient.HealthProbeRequest | internal/grpc_client/real_user_client.go:97-99 | The probe asks for user "health_check". |
| UserClient.GetUserByClientIdRequest | internal/grpc_client/real_user_client.go:68-77 | The client id is sent as the user id. |
| UserClient.GetStreamingConfigRequestFor | internal/grpc_client/real_user_client.go:80-89 | The user id is passed through, and the client id is "api-gateway". |
| UserClient.LoginRequestFor | internal/grpc_client/real_user_client.go:134-143 | The user name and password are passed through, with ClientInfo "api-gateway". |
| UserClient.NewUserServiceClient | internal/grpc_client/user_client.go:35-50 | Never returns an error. The result is the real client iff the dial succeeded, otherwise the stub. |
| UserClient.StubUser | internal/grpc_client/user_client.go:203-222 | Id = clientID, Username "user_"+clientID, and a config whose ApiKey is "video_api_key_"+clientID. |
| UserClient.StubConfig | internal/grpc_client/user_client.go:224-236 | ApiKey "video_api_key_"+userID and the fixed server address and endpoint. |
| UserClient.Stub | internal/grpc_client/user_client.go:203-236 | As an oracle, every lookup succeeds with the stub user or config. |
| UserClient.StubLogin | internal/grpc_client/user_client.go:247-256 | Always succeeds with token "stub_token_"+username. |
| UserClient.StubValidateToken | internal/grpc_client/user_client.go:257-268 | Always valid, for user "stub_user". |
| UserClient.StubHealthCheck | internal/grpc_client/user_client.go:238-241 | Never fails. |
| UserClient.StubGetUserInfoWithRetry | internal/grpc_client/user_client.go:243-245 | A single stub lookup, which succeeds with the stub user. |
| StreamService.GetVideoTarget | internal/controller/video_stream_service.go:47-79 | A cached target is returned with no remote call. A failed user or config lookup caches nothing. Success caches the target built from the config. |
| StreamService.NewService | internal/controller/video_stream_service.go:34-44 | An empty stream store with no stats rows and no cached targets, satisfying the repository invariant. |
| StreamService.SecondLookupIsCached | internal/controller/video_stream_service.go:47-79 | After a successful lookup, the next one for the client makes no call and returns the same target. |
| StreamService.StartStream | internal/controller/video_stream_service.go:86-149 | The user is looked up first. A failed user or target lookup is an error and stores nothing. A user without a streaming block panics (nil dereference) and stores nothing. It succeeds iff all three are present. Success stores the stream under `stream_<client>_<nanos>` with both flags set, `video_server` = "url:port", and status "started". Every other stream and every existing stats row is unchanged. A new id gets a fresh stats row. |
| StreamService.StartCollisionOverwrites | internal/controller/video_stream_service.go:108-129 | A second start for the same client in the same nanosecond overwrites the first stream, keeps its stats row, and adds no stream. |
| StreamService.SendFrameInternal | internal/controller/video_stream_service.go:151-257 | A nil frame is an error with no effect. A known stream makes no remote call. For an unknown stream, a failed user lookup gives status "error" with no stream created; success creates exactly one stream, with camera "auto_created" and both flags set. Missing `video_server` is an error before any stats change. Otherwise the answer is "ok" and the stream's row is advanced once: frames +1 and bytes + the payload length. Every other stats row and every other stream is unchanged. The invariant is kept. |
| StreamService.RouteFrame | internal/controller/video_stream_service.go:219-256 | A stream without `video_server` metadata gives "error" and no change. Otherwise the answer is "ok", only the stream's stats row advances, and the reply carries the stream's video server, its id, and the new frame count ("0" when the stream has no stats row). |
| StreamService.AutoCreateThenReuse | internal/controller/video_stream_service.go:168-216 | A second frame for an auto-created stream reuses it without calling the user service, and the frame counter reaches 2. |
| StreamService.StopStream | internal/controller/video_stream_service.go:272-311 | Removes the stream, its stats and the client's cached target, and answers "ok" even for an unknown id. |
| StreamService.StopStreamIdempotent | internal/controller/video_stream_service.go:272-311 | Stopping twice leaves the same state as stopping once. |
| StreamService.GetStreamStats | internal/controller/video_stream_service.go:313-323 | The row iff it exists, otherwise the error "stream X not found". |
| StreamService.GetStreamsByClient | internal/controller/video_stream_service.go:335-347 | Exactly the streams whose ClientId matches, each once. |
| StreamService.GetActiveStreamsCount | internal/controller/video_stream_service.go:349-352 | The number of streams with recording or streaming set. |
| StreamService.GetTotalStats | internal/controller/video_stream_service.go:354-372 | active_streams is the number of rows. The totals are the sums of frames and bytes over all rows. |
| ClientInfoService.ClientConnected | internal/controller/client_info_service.go:28-42 | Saves the event's record (nil ignored) and answers ok. |
| Api.Acknowledge | internal/controller/client_info_service.go:36-40 | Status "ok", the given message, timestamp now, and no metadata. |
| ClientInfoService.ClientDisconnected | internal/controller/client_info_service.go:44-57 | Deletes by ClientId only, and answers ok. |
| ClientInfoService.UpdateClientInfo | internal/controller/client_info_service.go:59-73 | Saves only a non-nil record, exactly as SaveClient does, so every other entry is unchanged. Answers ok with "Client info updated" either way. |
| ClientInfoService.GetClientInfo | internal/controller/client_info_service.go:75-86 | Never an error. The record is present iff the id is stored. |
| ClientInfoService.ClientsInOrder | internal/controller/repository.go:59-69 | One record per enumerated key, in the map's order: the record stored under that key. |
| ClientInfoService.ListActiveClients | internal/controller/client_info_service.go:88-117 | Pages the store in map order. It panics iff start = (page-1)·limit is below the store size and the start or the limit is negative. A listed page reports the store size as total, holds only stored records, and holds at most `limit` of them. |
| ClientInfoService.ConnectDisconnectAsymmetry | internal/controller/client_info_service.go:28-57 | Connect keys by the record's own ClientId and disconnect by the event's, so a mismatched event leaves the record behind. |
| ClientInfoService.Paginate | internal/controller/client_info_service.go:98-116 | Total is the store size. A start at or past the end gives an empty page. Otherwise the page is the slice [start, min(start+limit,total)). It panics iff the start is below the total and either the start or the limit is negative. |
| ClientInfoService.PageBounded | internal/controller/client_info_service.go:98-116 | A listed page holds at most `limit` records, in store order from the start index. |
| ClientInfoService.TotalIsStoreSize | internal/controller/client_info_service.go:88-117 | The reported total is the number of stored clients, whatever page was asked for. |
| ClientInfoService.PageZeroPanics | internal/controller/client_info_service.go:93-115 | Page 0 with a positive limit panics, even on an empty store. |
| ClientInfoService.PaginateClamped | internal/controller/client_info_service.go:98-116 | Never panics. It agrees with the source whenever page ≥ 1 and limit ≥ 0. |
| ClientInfoService.PagesCoverStore | internal/controller/client_info_service.go:98-116 | Under clamped paging, record i appears on page i/limit+1 at offset i mod limit. |
| StreamHandler.StartStreamDefaults | internal/handler/video_stream_handler.go:61-73 | ClientId "client_<unix>" if empty, then UserId from ClientId, CameraName "default_camera", Filename "stream_<client>_<unix>.mp4". |
| StreamHandler.StartStreamDefaultsIdempotent | internal/handler/video_stream_handler.go:61-73 | Defaulting an already defaulted request changes nothing. |
| StreamHandler.HandleStartStream | internal/handler/video_stream_handler.go:50-103 | A bind failure is 400. A service error or panic is 500. It is 200 iff the stream started. |
| StreamHandler.FrameIds | internal/handler/video_stream_handler.go:220-229 | Only an empty stream id triggers defaulting: the client id becomes "<prefix>_<unix>" if empty, and the stream id becomes "stream_<client>_<nanos>". |
| StreamHandler.JsonRouting | internal/handler/video_stream_handler.go:220-233 | The JSON ids use prefix "json", and UserName defaults to the possibly defaulted ClientID. |
| StreamHandler.JsonVideoFrame | internal/handler/video_stream_handler.go:247-257 | Defaults "json_camera", 1920x1080 and "jpeg". The timestamp defaults to unix. Sizes are narrowed to int32. |
| StreamHandler.HandleJsonFrame | internal/handler/video_stream_handler.go:203-279 | A bind failure or a non-string frame_data is 400 with no service call. Otherwise the defaulted frame goes to the service. |
| StreamHandler.MultipartRouting | internal/handler/video_stream_handler.go:151-166 | The multipart ids use prefix "multipart", and the user name defaults to "multipart_client". |
| StreamHandler.HandleMultipartFrame | internal/handler/video_stream_handler.go:117-201 | A missing file is 400 and a read failure is 500, both with no service call. Otherwise the frame, with camera "multipart_stream" and the part's content type, goes to the service. |
| StreamHandler.MultipartWithBoundary | internal/handler/video_stream_handler.go:105-115 | A multipart content type with a boundary parameter still selects the multipart path. |
| StreamHandler.HandleSendFrame | internal/handler/video_stream_handler.go:105-114 | A content type containing "multipart/form-data" goes to the multipart handler. Anything else goes to the JSON handler. |
| StreamHandler.OnlyChosenReadingMatters | internal/handler/video_stream_handler.go:105-114 | Two requests with the same content type that agree on the reading it selects get the same answer and the same state. |
| StreamHandler.HandleStopStream | internal/handler/video_stream_handler.go:281-328 | A bind failure is 400. An EndTime of 0 becomes unix. Otherwise the service's stop is applied and the reply is 200 with the service's status and no top-level stream id. |
| StreamHandler.GetAllStats | internal/handler/video_stream_handler.go:444-476 | total_streams is the row count. The totals are the frame and byte sums over all rows. |
| StreamHandler.TotalsAgree | internal/handler/video_stream_handler.go:444-476 | The handler's totals equal the service's GetTotalStats under any two iteration orders. |
| Json.Lookup | internal/handler/video_stream_handler.go:478-487 | A value is present iff the map is non-nil and has the key. |
| Json.GetString | internal/handler/video_stream_handler.go:478-487 | The string if the value is a string, the default otherwise (nil map, missing key, other type). |
| Json.GetInt | internal/handler/video_stream_handler.go:488-501 | A float64 (truncated) or an int is accepted, anything else gives the default. |
| Json.GetInt64 | internal/handler/video_stream_handler.go:502-516 | Float64, int64 and int are accepted, anything else gives the default. |
| Json.IntLookupsAgreeExceptInt64 | internal/handler/video_stream_handler.go:488-516 | The two lookups agree except on int64 values, which only GetInt64 accepts. |
| Json.WrapInt32 | internal/handler/video_stream_handler.go:175-176 | Go's int32 conversion: the value congruent mod 2^32 in [-2^31, 2^31). |
| ClientManager.NewManager | internal/gateway/client_manager.go:40-45 | Empty, and satisfies the registry invariant. |
| ClientManager.RegisterClient | internal/gateway/client_manager.go:47-76 | Always succeeds. ConnectionID = clientID+"-"+nanos, which is also the SessionID. The session is active, has no channels, is unauthenticated, and gets a fresh open queue. The invariant is kept. |
| ClientManager.CollisionLeaksQueue | internal/gateway/client_manager.go:52-71 | Re-registering in the same nanosecond replaces the session, and the old queue stays open and unreachable. |
| ClientManager.CloseQueue | internal/gateway/client_manager.go:160-173 | Closes only the given (open) queue. |
| ClientManager.Offer | internal/gateway/gateway.go:282-290 | A non-blocking send into a 100-slot queue: appended if there is room, dropped otherwise. Other queues are untouched. |
| ClientManager.GetClientInfo | internal/gateway/client_manager.go:78-85 | Found iff the connection id is registered. |
| ClientManager.GetClientInfoByID | internal/gateway/client_manager.go:87-98 | Succeeds iff some session has that client ID. It returns the first such session in the map's iteration order. |
| ClientManager.SubscribeClient | internal/gateway/client_manager.go:100-115 | An unknown id gives "client not found: <id>" and no change. Otherwise it is a set-add of the channel with LastSeen refreshed, and nothing else changes. |
| ClientManager.UnsubscribeClient | internal/gateway/client_manager.go:117-132 | As subscribe, with a set-delete. |
| ClientManager.SubscriptionIdempotent | internal/gateway/client_manager.go:100-132 | Subscribing or unsubscribing twice gives the same channels as once. |
| ClientManager.SubscribeThenUnsubscribe | internal/gateway/client_manager.go:100-132 | Unsubscribing a fresh subscription restores the channel set. |
| ClientManager.GetClientsByChannel | internal/gateway/client_manager.go:134-146 | Exactly the sessions subscribed to the channel, each once. |
| ClientManager.UpdateClientData | internal/gateway/client_manager.go:191-205 | An unknown id is an error. Otherwise only that session's data and LastSeen change. |
| ClientManager.Touch | internal/gateway/handler.go:411 | A read stamps the LastSeen of the record the session holds. The registry changes only while that record is still the one stored under its id, and then only in that LastSeen. |
| ClientManager.TouchedNotExpired | internal/gateway/handler.go:411 | A session touched through its own record at now is not expired at any time up to now + timeout. |
| ClientManager.DisplacedSessionTouchIsLost | internal/gateway/handler.go:344-411 | After a same-nanosecond re-registration, a read on the first session stamps its displaced record and leaves the registry, including the second session, unchanged. |
| ClientManager.RemoveClient | internal/gateway/client_manager.go:160-174 | An absent id is a no-op. Otherwise it closes that session's queue once and deletes the entry. The invariant is kept. |
| ClientManager.RemoveClientIdempotent | internal/gateway/client_manager.go:160-174 | A removed id stays gone, and removing twice is the same as once. |
| ClientManager.PruneClients | internal/gateway/client_manager.go:176-189 | Pruning over keys keeps exactly the sessions that are not expired, unchanged. |
| ClientManager.PruneQueues | internal/gateway/client_manager.go:176-189 | Exactly the expired sessions' queues are closed. |
| ClientManager.CleanupInactiveClients | internal/gateway/client_manager.go:176-189 | Removes exactly the sessions with now - LastSeen > timeout (strict) and closes their queues. The rest are untouched. |
| ClientManager.CloseEachQueues | internal/gateway/client_manager.go:207-217 | Closing over keys closes exactly those sessions' queues. |
| ClientManager.CloseAll | internal/gateway/client_manager.go:207-217 | The registry is empty afterwards, with every session's queue closed once and other queues untouched. |
| ClientManager.GetActiveClientCount | internal/gateway/client_manager.go:219-230 | Counts the sessions whose IsActive is set. |
| ClientManager.ActiveCountIsSize | internal/gateway/client_manager.go:61-230 | Nothing clears IsActive, so the count equals the registry size. |
| ServiceRegistry.InitRole | internal/gateway/service_discovery.go:58-111 | The i-th URL of a role gets id "<prefix>_i", priority i, healthy, and zero stats. |
| ServiceRegistry.InitializeServices | internal/gateway/service_discovery.go:58-111 | Every role's endpoints come from its URL list, in configured order. |
| ServiceRegistry.EndpointIdsDistinct | internal/gateway/service_discovery.go:58-111 | Different role or position gives a different id. |
| ServiceRegistry.InitializedIdsUnique | internal/gateway/service_discovery.go:58-111 | No two endpoints of a fresh registry share an id. |
| ServiceRegistry.GetHealthyServices | internal/gateway/service_discovery.go:134-143 | Exactly the healthy endpoints of a role, in configured order. |
| ServiceRegistry.GetServicesForFrame | internal/gateway/service_discovery.go:113-132 | Healthy video processing, then healthy analytics only for frames with authenticated client data, then healthy storage. Notification is never selected. |
| ServiceRegistry.UpdateServiceStats | internal/gateway/service_discovery.go:190-211 | Total +1 and exactly one of success or error +1. LastResponse is set. The average is kept while successes are 0, else becomes (avg·(S-1)+rt)/S with Go division, on failures too. The running total wraps as int64, and equals the exact total whenever that fits. |
| ServiceRegistry.UpdateKeepsCounters | internal/gateway/service_discovery.go:190-199 | Total = successes + errors is preserved. |
| ServiceRegistry.FailureMovesAverage | internal/gateway/service_discovery.go:204-207 | A failed call with a large latency moves the success average (10 to 1000). |
| ServiceRegistry.WrapInt64 | internal/gateway/service_discovery.go:205 | Go's int64 (`time.Duration`) arithmetic: the value in [-2^63, 2^63) congruent mod 2^64, and the value itself when it is in range. |
| ServiceRegistry.AverageWrapsNegative | internal/gateway/service_discovery.go:204-207 | With a 10 s average and 10^9 successes, one more 10 s success wraps the running total, and the average becomes -8446744055 ns. |
| ServiceRegistry.Quot | internal/gateway/service_discovery.go:206 | Go's integer division truncates toward zero. |
| ServiceRegistry.Dispatched | internal/gateway/service_discovery.go:145-188 | No error iff a 2xx response. A transport error or non-2xx makes the endpoint unhealthy. 2xx makes it healthy. Marshal or request-build failures record an error and keep the health flag. |
| ServiceRegistry.SendToService | internal/gateway/service_discovery.go:145-188 | Only the dispatched endpoint changes, as `Dispatched` says. |
| ServiceRegistry.CheckHealth | internal/gateway/service_discovery.go:213-247 | Every endpoint's health becomes its probe result (status exactly 200), and its LastCheck is set. |
| ServiceRegistry.HealthRulesDiffer | internal/gateway/service_discovery.go:178-245 | A 204 counts as healthy on dispatch but unhealthy on probe. |
| ServiceRegistry.SelectionAfterProbe | internal/gateway/service_discovery.go:113-247 | After a probe round, frame selection is exactly the endpoints whose probe answered 200, by role. |
| Gateway.NewGateway | internal/gateway/gateway.go:58-105 | Zero stats, empty queues, no sessions, and endpoints from the configuration. |
| Gateway.HandleVideoFrame | internal/gateway/gateway.go:346-357 | Enqueued below capacity. When full, dropped with ErrorCount +1 and nothing else changed. The queue bound is kept. |
| Gateway.SubmitAllAccounting | internal/gateway/gateway.go:346-357 | Submitting n frames queues exactly the first free-slot many in order and counts the rest as errors, so accepted + dropped = submitted. |
| Gateway.DispatchAll | internal/gateway/gateway.go:248-259 | Dispatching to each selected endpoint keeps the endpoint lists' shapes. |
| Gateway.DispatchAllEffect | internal/gateway/gateway.go:248-259 | Each listed endpoint is dispatched to exactly once, and the others are untouched. |
| Gateway.Broadcast | internal/gateway/gateway.go:269-280 | Fan-out keeps the session registry and its invariant. |
| Gateway.BroadcastEffect | internal/gateway/gateway.go:269-291 | Each target's queue gets the frame if it has room, otherwise that client alone misses it. Non-target queues are untouched. |
| Gateway.ProcessNextFrame | internal/gateway/gateway.go:210-246 | The head of the queue is consumed in FIFO order, TotalFrames +1, BytesProcessed + the payload length. It is dispatched to the selected endpoints and offered to exactly the subscribers of its camera id. The control queue, the buffer size, the sessions and the length of every endpoint list are unchanged. |
| Gateway.SelectionNoDup | internal/gateway/service_discovery.go:113-132 | The endpoints chosen for a frame are pairwise distinct. |
| Gateway.ControlDispatchExact | internal/gateway/gateway.go:293-307 | Exactly the five tags select a handler, each its own. |
| Gateway.ProcessNextControl | internal/gateway/gateway.go:222-307 | Consumes the head control message. "video_info" and other unknown tags do nothing. |
| GatewayHandler.HandleVideoInfo | internal/gateway/handler.go:205-241 | Non-POST is 405 and an undecodable body is 400, both with no change. Otherwise a "video_info" control message with the client id and the camera id as channel is appended to the control queue, and the reply is "received". A full queue makes the request wait, with nothing changed. |
| GatewayHandler.VideoInfoIsDiscarded | internal/gateway/gateway.go:222-307 | A notice enqueued on an empty control queue is consumed by the next control step without selecting any handler, which restores the gateway. |
| GatewayHandler.SplitHostPort | internal/gateway/handler.go:529-536 | With exactly one ':', host+":"+port is the input. Otherwise it returns (input, ""). |
| GatewayHandler.SplitHostPortJoin | internal/gateway/handler.go:529-536 | Splitting host+":"+port of colon-free parts gives them back. |
| GatewayHandler.IPv6NotSplit | internal/gateway/handler.go:529-536 | "[::1]:8080" is not split at all. |
| GatewayHandler.GetIPAddress | internal/gateway/handler.go:518-527 | X-Forwarded-For, then X-Real-IP, then the host of RemoteAddr. |
| GatewayHandler.HandleVideoStream | internal/gateway/handler.go:145-202 | Non-POST is 405, oversize is 413, and unreadable, bad JSON or missing ids are 400; each leaves the state untouched. It is accepted iff none of these apply. Acceptance defaults the client id to the caller's IP, adds 1 to TotalRequests and offers the frame to the queue, replying success even if the frame is dropped. |
| GatewayHandler.AcceptedFrameHasClient | internal/gateway/handler.go:178-189 | An accepted frame queued with a known caller address carries a non-empty client id. |
| GatewayHandler.HealthStatus | internal/gateway/handler.go:311-328 | "degraded" iff the queue length > BufferSize·90/100, otherwise "healthy". |
| GatewayHandler.DegradedExactly | internal/gateway/handler.go:321-324 | With integer division, degraded iff 10·length > 9·BufferSize. |
| GatewayHandler.FullIsDegraded | internal/gateway/handler.go:321-324 | A full non-zero queue is degraded, and an empty one is healthy. |
| GatewayHandler.HandleWebSocketCommand | internal/gateway/handler.go:457-498 | Nothing happens without a string action. Subscribe and unsubscribe act only with a string channel and only on that session's channel set. Subscribe replies even when the session is unknown. Ping replies pong. Other actions are ignored. |
| GatewayHandler.ReadWebSocketMessage | internal/gateway/handler.go:398-416 | Every read stamps the LastSeen of the session's own record before anything else. This reaches the registry only while that record is still registered under the id. Only text messages are then handled as commands, looked up by id. Other sessions, the queues and the statistics are unchanged. |
| GatewayHandler.PingKeepsSessionAlive | internal/gateway/handler.go:398-416 | A session that only sends "ping" gets "pong" and survives a cleanup at the same time with any non-negative timeout. |
| GatewayHandler.SubscribeCommandRegisters | internal/gateway/handler.go:470-482 | A subscribe command from a registered session replies "subscribed" and adds the channel. |
| Commands.HandleCommand | cmd/api-gateway/commands.go:109-166 | No args runs the server with debug false, "./config/config.yaml" and "9090". "server" parses flags. The six other known words select their commands. Anything else is Unknown. |
| Commands.ExitStatus | cmd/api-gateway/commands.go:160-164 | 1 exactly for an unknown word. |
| Commands.ParseFlags | cmd/api-gateway/commands.go:119-138 | Debug, once set, stays set. Each value is the default or one of the tokens. A lone `--config` or `--grpc-port` with no value after it changes nothing. |
| Commands.ParseServerFlags | cmd/api-gateway/commands.go:119-138 | The indexed loop as written computes the same settings as the recursive reading. |
| Commands.UnknownTokensIgnored | cmd/api-gateway/commands.go:123-137 | Tokens that are not flag names change nothing. |
| Commands.TrailingFlagIgnored | cmd/api-gateway/commands.go:126-135 | A `--config` or `--grpc-port` in the last position is dropped, on its own or after any fully consumed rendering of settings. |
| Commands.RenderThenParse | cmd/api-gateway/commands.go:123-137 | Each valued flag consumes the next token, and debug accumulates. |
| Commands.FlagsRoundTrip | cmd/api-gateway/commands.go:119-138 | Parsing the canonical rendering of any settings gives them back. |
| Commands.LaterFlagsWin | cmd/api-gateway/commands.go:123-137 | Later values override earlier ones. |
| Commands.CommandRoundTrip | cmd/api-gateway/commands.go:109-166 | Every command is selected by its own arguments. |
| Commands.EqualsFormIgnored | cmd/api-gateway/commands.go:103-136 | The usage text's `--grpc-port=9091` leaves the port at 9090. |
| Commands.ParseFlagsWithEquals | cmd/api-gateway/commands.go:123-137 | The flag loop with the `--name=value` spelling accepted too. |
| Commands.EqualsFormAgrees | cmd/api-gateway/commands.go:96-103 | In the corrected loop, both spellings of a valued flag give the same settings. |
| Commands.WithEqualsExtends | cmd/api-gateway/commands.go:123-137 | Without `=` tokens, the corrected loop is the loop as written. |
| Commands.EqualsFormHonoured | cmd/api-gateway/commands.go:103 | With the corrected loop, the usage example runs on port 9091. |

## Left out

- Goroutines, mutexes, wait groups and shutdown ordering. Each operation is one atomic step, and the data races on `Healthy` are not modelled.
- HTTP, WebSocket and gin plumbing, and JSON and multipart decoding. Requests arrive as decoded values, and an unreadable or undecodable body is an explicit case. The embedded HTML page, CORS and the routing tables are left out too.
- Real network and gRPC calls. Dispatch and probe outcomes and user-service replies are inputs. Request building for `SendToService` and `checkEndpointHealth` becomes the outcome datatypes.
- Floating point: AverageFps is kept as an exact ratio (frames, seconds). `FrameRate`, `calculateAverageFPS` and the `average_fps` field of the totals are left out, as is the magnitude of float64 to int truncation beyond "rounds toward zero".
- Clocks and sleeping. Timestamps are parameters, and several clock reads inside one request are taken as one reading. Retry sleeps are counted, not performed.
- Configuration loading, the urfave/cli commands, `main.go`, and running the selected command. The gateway's BufferSize, MaxFrameSize and per-role URL lists are plain parameters.
- `GetHealthStatus`, `GetAllClients`, `handleClients`, `handleStats`, `GetStreamInfo`, and the presentation-only handlers `GetActiveStreams`, `GetClientStreams` and `GetStreamStats`. These only format values.
- GatewayHandler.HandleVideoInfo: the blocking send on a full control queue is shown as a waiting reply with no change. The later wake-up, once the control processor frees a slot, is not modelled.
- ClientInfoService.ListActiveClients: `Total` is reported as `int32(len)`. The model does not wrap it, because a store of 2^31 clients is out of reach in memory.
- StreamService.GetTotalStats: the int64 sums are not wrapped at 2^63.
- Gateway.ProcessNextFrame: the gateway's int64 counters are not wrapped at 2^63. These are TotalFrames and BytesProcessed here (internal/gateway/gateway.go, lines 236-237), ErrorCount in Gateway.HandleVideoFrame (line 354), and TotalRequests in GatewayHandler.HandleVideoStream (internal/gateway/handler.go, line 185). Reaching the bound needs 2^63 requests or bytes.
- StreamHandler.GetAllStats: the int64 sums of frames and bytes (internal/handler/video_stream_handler.go, lines 448-453) are not wrapped at 2^63. Reaching that needs more than 2^63 bytes received.
- Gateway.HandleVideoFrame: BufferSize 0 (an unbuffered channel) is treated as always full. A receiver that happens to be waiting would take the frame instead.
- The generated protobuf packages under `pkg/gen` are not part of this model. Their records are mirrored with only the fields the code touches.
- `updateServiceStats` recomputes the latency average on failed calls too (internal/gateway/service_discovery.go, lines 204-207), and the model does the same (`ServiceRegistry.FailureMovesAverage`). A nanosecond-equal re-registration overwrites the earlier session and leaks its queue (`ClientManager.CollisionLeaksQueue`). Dispatch treats every 2xx as healthy, while the probe demands exactly 200 (`ServiceRegistry.HealthRulesDiffer`).

## Findings

| source | as written | input that shows it | evidently intended | confidence | as-written member | corrected member |
|---|---|---|---|---|---|---|
| internal/controller/client_info_service.go:99-115 | `start := (page - 1) * limit` is used to slice with no check that it is non-negative | `ListActiveClients` with page 0 (the unset protobuf default) and limit 10 on a store with one client: start = -10 and the slice panics | a page below 1 means the first page, and every stored client is on some page | high, not executed | ClientInfoService.PageZeroPanics | ClientInfoService.PagesCoverStore |
| cmd/api-gateway/commands.go:103-136 | the flag loop only knows `--grpc-port` followed by a separate value | `api-gateway server --grpc-port=9091`, the usage text's own example, runs on port 9090 | the `--name=value` spelling shown in the usage text sets the value | medium, not executed | Commands.EqualsFormIgnored | Commands.EqualsFormAgrees |

The operations keep the behaviour as written: `ClientInfoService.ListActiveClients` uses `Paginate`, and `Commands.HandleCommand` uses `ParseFlags`. Each corrected definition is proved to agree with the code wherever the code behaves as intended:
- `ClientInfoService.PaginateClamped` equals `Paginate` for page ≥ 1 and limit ≥ 0.
- `Commands.WithEqualsExtends` shows `ParseFlagsWithEquals` equals `ParseFlags` on arguments without the `=` spelling.

=== FILE: api.dfy ===
/** The generic reply record the controller services return (`helpy.ApiResponse`). */
module Api {
  datatype ApiResponse = ApiResponse(status: string, message: string, timestamp: int, metadata: map<string, string>)

  function Acknowledge(message: string, now: int): (r: ApiResponse)
    ensures r.status == "ok" && r.message == message && r.timestamp == now && r.metadata == map[]
  {
    ApiResponse("ok", message, now, map[])
  }
}

=== FILE: client_info_service.dfy ===
/**
 * The controller's client-info service (`ClientInfoServiceImpl`): connection
 * events and updates feed the client repository, and `ListActiveClients`
 * pages through the stored records.
 */
module ClientInfoService {
  import opened Wrappers
  import opened Enumeration
  import opened Api
  import opened ClientRepository

  datatype ConnectionEvent = ConnectionEvent(clientId: string, ipAddress: string, clientInfo: Option<ClientInfo>)

  datatype UpdateClientRequest = UpdateClientRequest(clientId: string, clientInfo: Option<ClientInfo>)

  /**
   * `ClientConnected` stores the record the event carries, under the record's
   * own id; the event's `clientId` is only logged.
   */
  function ClientConnected(r: Repository, ev: ConnectionEvent, now: int): (o: (ApiResponse, Repository))
    ensures o.0.status == "ok"
    ensures o.1 == SaveClient(r, ev.clientInfo, now)
  {
    (Acknowledge("Client connected successfully", now), SaveClient(r, ev.clientInfo, now))
  }

  /** `ClientDisconnected` deletes by the event's `clientId`, whatever record the event carries. */
  function ClientDisconnected(r: Repository, ev: ConnectionEvent, now: int): (o: (ApiResponse, Repository))
    ensures o.0.status == "ok"
    ensures o.1.clients.Keys == r.clients.Keys - {ev.clientId}
    ensures forall k :: k in o.1.clients ==> o.1.clients[k] == r.clients[k]
  {
    (Acknowledge("Client disconnected", now), RemoveClient(r, ev.clientId))
  }

  /** `UpdateClientInfo`: a present record is saved under its own id; a nil one changes nothing. */
  function UpdateClientInfo(r: Repository, req: UpdateClientRequest, now: int): (o: (ApiResponse, Repository))
    ensures o.0.status == "ok"
    ensures req.clientInfo.None? ==> o.1 == r
    ensures o.0 == Acknowledge("Client info updated", now)
    ensures req.clientInfo.Some? ==> o.1 == SaveClient(r, req.clientInfo, now)
    ensures req.clientInfo.Some? ==>
              o.1.clients.Keys == r.clients.Keys + {req.clientInfo.value.clientId}
              && o.1.clients[req.clientInfo.value.clientId] == Stamp(req.clientInfo.value, now)
              && forall k :: k in r.clients && k != req.clientInfo.value.clientId ==> o.1.clients[k] == r.clients[k]
  {
    var r' := if req.clientInfo.Some? then SaveClient(r, req.clientInfo, now) else r;
    (Acknowledge("Client info updated", now), r')
  }

  /** The reply of `GetClientInfo`: an unknown id yields no record and no error. */
  datatype ClientInfoReply = ClientInfoReply(client: Option<ClientInfo>, error: Option<string>)

  function GetClientInfo(r: Repository, clientId: string): (reply: ClientInfoReply)
    ensures reply.error.None?
    ensures reply.client.Some? <==> clientId in r.clients
    ensures reply.client.Some? ==> reply.client.value == r.clients[clientId]
  {
    ClientInfoReply(GetClient(r, clientId), None)
  }

  /**
   * A connect followed by a disconnect with the same event removes the stored
   * record only when the record's id is the event's id: an event whose record
   * carries another id leaves that record behind.
   */
  lemma ConnectDisconnectAsymmetry(r: Repository, ev: ConnectionEvent, t1: int, t2: int)
    requires ev.clientInfo.Some?
    ensures var after := ClientDisconnected(ClientConnected(r, ev, t1).1, ev, t2).1;
            ev.clientInfo.value.clientId in after.clients <==> ev.clientInfo.value.clientId != ev.clientId
  {
  }

  // ---------------------------------------------------------------------------
  // Pagination

  /** `GetAllClients`: the stored records in the map order `order`. */
  function ClientsInOrder(r: Repository, order: seq<string>): (all: seq<ClientInfo>)
    requires forall k :: k in order ==> k in r.clients
    ensures |all| == |order|
    ensures forall i :: 0 <= i < |order| ==> all[i] == r.clients[order[i]]
  {
    seq(|order|, i requires 0 <= i < |order| => r.clients[order[i]])
  }

  /** A page of records with the total count, or the runtime panic of an out-of-range slice. */
  datatype ListOutcome = Listed(clients: seq<ClientInfo>, total: int) | SlicePanic

  /**
   * The page arithmetic of `ListActiveClients` on the record list `all`:
   * start = (page - 1) * limit; a start at or past the end gives an empty
   * page; otherwise the slice `all[start:min(start + limit, total)]`, which
   * panics when start is negative or the end falls before the start.
   */
  function Paginate(all: seq<ClientInfo>, page: int, limit: int): (o: ListOutcome)
    ensures o.Listed? ==> o.total == |all|
    ensures o.SlicePanic? <==> (page - 1) * limit < |all| && ((page - 1) * limit < 0 || limit < 0)
    ensures (page - 1) * limit >= |all| ==> o == Listed([], |all|)
    ensures o.Listed? && 0 <= (page - 1) * limit < |all| ==>
              var start := (page - 1) * limit;
              var end := if start + limit > |all| then |all| else start + limit;
              o.clients == all[start..end]
  {
    var total := |all|;
    var start := (page - 1) * limit;
    var end := start + limit;
    if start >= total then Listed([], total)
    else
      var end' := if end > total then total else end;
      if start < 0 || end' < start then SlicePanic
      else Listed(all[start..end'], total)
  }

  /** A listed page never holds more than `limit` records, and each comes from the store, in order. */
  lemma PageBounded(all: seq<ClientInfo>, page: int, limit: int)
    requires Paginate(all, page, limit).Listed?
    ensures |Paginate(all, page, limit).clients| <= limit || |Paginate(all, page, limit).clients| == 0
    ensures forall i :: 0 <= i < |Paginate(all, page, limit).clients| ==>
              Paginate(all, page, limit).clients[i] == all[(page - 1) * limit + i]
  {
  }

  /** `ListActiveClients` over the repository walked in the map order `order`. */
  function ListActiveClients(r: Repository, order: seq<string>, page: int, limit: int): (o: ListOutcome)
    requires Enumerates(order, r.clients.Keys)
    ensures o == Paginate(ClientsInOrder(r, order), page, limit)
    ensures o.SlicePanic? <==> (page - 1) * limit < |r.clients| && ((page - 1) * limit < 0 || limit < 0)
    ensures o.Listed? ==> o.total == |r.clients|
    ensures o.Listed? ==> forall i :: 0 <= i < |o.clients| ==> o.clients[i] in r.clients.Values
    ensures o.Listed? && limit >= 0 ==> |o.clients| <= limit
  {
    EnumerationLength(order, r.clients.Keys);
    Paginate(ClientsInOrder(r, order), page, limit)
  }

  /** The reported total is the number of stored records, whatever page was asked for. */
  lemma TotalIsStoreSize(r: Repository, order: seq<string>, page: int, limit: int)
    requires Enumerates(order, r.clients.Keys)
    requires ListActiveClients(r, order, page, limit).Listed?
    ensures ListActiveClients(r, order, page, limit).total == |r.clients|
  {
    EnumerationLength(order, r.clients.Keys);
  }

  /**
   * Page 0 is what a request that leaves the page unset carries; with any
   * positive limit the start index is negative and the slice panics, even
   * on an empty store.
   */
  lemma PageZeroPanics(all: seq<ClientInfo>, limit: int)
    requires limit > 0
    ensures Paginate(all, 0, limit).SlicePanic?
  {
  }

  /**
   * The intended pagination: a page below 1 is read as the first page and a
   * negative limit as 0, after which the arithmetic is the source's.
   */
  function PaginateClamped(all: seq<ClientInfo>, page: int, limit: int): (o: ListOutcome)
    ensures o.Listed? && o.total == |all|
    ensures |o.clients| <= (if limit > 0 then limit else 0)
    ensures page >= 1 && limit >= 0 ==> o == Paginate(all, page, limit)
  {
    Paginate(all, if page < 1 then 1 else page, if limit < 0 then 0 else limit)
  }

  /** Under the clamped pagination, record i is on page i/limit+1 at offset i mod limit. */
  lemma PagesCoverStore(all: seq<ClientInfo>, limit: int, i: int)
    requires limit > 0 && 0 <= i < |all|
    ensures var page := i / limit + 1;
            var p := PaginateClamped(all, page, limit).clients;
            0 <= i - (page - 1) * limit < |p| && p[i - (page - 1) * limit] == all[i]
  {
    var page := i / limit + 1;
    var start := (page - 1) * limit;
    DivisionBounds(i, limit);
    assert start == (i / limit) * limit;
    var o := Paginate(all, page, limit);
    assert PaginateClamped(all, page, limit) == o;
    var end := if start + limit > |all| then |all| else start + limit;
    assert o.clients == all[start..end];
  }

  /** The block of `limit` records that index `i` falls in. */
  lemma DivisionBounds(i: int, limit: int)
    requires limit > 0 && 0 <= i
    ensures 0 <= (i / limit) * limit <= i < (i / limit) * limit + limit
  {
  }
}

=== FILE: client_manager.dfy ===
/**
 * The gateway's session registry (`ClientManager`). Each session owns a
 * buffered send channel of capacity 100; channels are modelled as a growing
 * sequence of queues, a session naming its queue by index. Closing a closed
 * channel panics in Go, so closing is only defined on an open queue and the
 * registry invariant `Inv` is what makes every close legal.
 */
module ClientManager {
  import opened Wrappers
  import opened Enumeration
  import Text
  import opened GatewayTypes

  /** A buffered channel: its pending frames and whether it was closed. */
  datatype Channel = Channel(buffer: seq<Frame>, closed: bool)

  const SendCapacity := 100

  datatype Session = Session(
    id: string,
    connectionId: string,
    ipAddress: string,
    userAgent: string,
    connectedAt: int,
    lastSeen: int,
    isActive: bool,
    queue: nat,
    channels: set<string>,
    clientData: Option<ClientData>)

  datatype Manager = Manager(clients: map<string, Session>, queues: seq<Channel>)

  function NewManager(): (m: Manager)
    ensures Inv(m) && |m.clients| == 0
  {
    Manager(map[], [])
  }

  // ---------------------------------------------------------------------------
  // Invariant

  /** Every session's queue exists and is open. */
  predicate QueuesOpen(m: Manager) {
    forall k :: k in m.clients ==> m.clients[k].queue < |m.queues| && !m.queues[m.clients[k].queue].closed
  }

  /** No two sessions share a queue. */
  predicate QueuesDistinct(m: Manager) {
    forall k1, k2 :: k1 in m.clients && k2 in m.clients && k1 != k2 ==> m.clients[k1].queue != m.clients[k2].queue
  }

  /** Every session is stored under its own connection id. */
  predicate Keyed(m: Manager) {
    forall k :: k in m.clients ==> m.clients[k].connectionId == k
  }

  /** No queue holds more than its capacity. */
  predicate Bounded(m: Manager) {
    forall q :: 0 <= q < |m.queues| ==> |m.queues[q].buffer| <= SendCapacity
  }

  /** Nothing ever clears `IsActive`. */
  predicate AllActive(m: Manager) {
    forall k :: k in m.clients ==> m.clients[k].isActive
  }

  predicate Inv(m: Manager) {
    QueuesOpen(m) && QueuesDistinct(m) && Keyed(m) && Bounded(m) && AllActive(m)
  }

  // ---------------------------------------------------------------------------
  // Channels

  /** `close(ch)` on an open channel; its pending frames stay readable. */
  function CloseQueue(qs: seq<Channel>, q: nat): (qs': seq<Channel>)
    requires q < |qs| && !qs[q].closed
    ensures |qs'| == |qs| && qs'[q] == qs[q].(closed := true)
    ensures forall p :: 0 <= p < |qs| && p != q ==> qs'[p] == qs[p]
  {
    qs[q := qs[q].(closed := true)]
  }

  /** A non-blocking send: the frame is queued unless the buffer is full. */
  function Offer(qs: seq<Channel>, q: nat, f: Frame): (qs': seq<Channel>)
    requires q < |qs| && !qs[q].closed
    ensures |qs'| == |qs|
    ensures |qs[q].buffer| < SendCapacity ==> qs'[q] == qs[q].(buffer := qs[q].buffer + [f])
    ensures |qs[q].buffer| >= SendCapacity ==> qs' == qs
    ensures forall p :: 0 <= p < |qs| && p != q ==> qs'[p] == qs[p]
  {
    if |qs[q].buffer| < SendCapacity then qs[q := qs[q].(buffer := qs[q].buffer + [f])] else qs
  }

  // ---------------------------------------------------------------------------
  // Registration and lookup

  /** `<clientID>-<nanos>`: the connection id of a registration at `nanos`. */
  function ConnectionId(clientId: string, nanos: int): string {
    clientId + "-" + Text.IntToDecimal(nanos)
  }

  /**
   * `RegisterClient`: always succeeds. The session gets a fresh queue, no
   * channels, and unauthenticated client data whose session id is the
   * connection id. A session already stored under the same connection id is
   * replaced, and its queue is never closed.
   */
  function RegisterClient(m: Manager, clientId: string, ip: string, userAgent: string, nanos: int, now: int): (r: (Session, Manager))
    requires Inv(m)
    ensures var (s, m') := r;
            && s.connectionId == ConnectionId(clientId, nanos)
            && s.id == clientId && s.ipAddress == ip && s.userAgent == userAgent
            && s.isActive && s.channels == {}
            && s.connectedAt == now && s.lastSeen == now
            && s.clientData.Some? && s.clientData.value.sessionId == s.connectionId
            && !s.clientData.value.authenticated
            && m'.clients == m.clients[s.connectionId := s]
            && |m'.queues| == |m.queues| + 1 && m'.queues[..|m.queues|] == m.queues
            && s.queue == |m.queues| && m'.queues[s.queue] == Channel([], false)
    ensures Inv(r.1)
  {
    var connId := ConnectionId(clientId, nanos);
    var data := ClientData("", connId, "", "", false, [], map[]);
    var s := Session(clientId, connId, ip, userAgent, now, now, true, |m.queues|, {}, Some(data));
    var m' := Manager(m.clients[connId := s], m.queues + [Channel([], false)]);
    assert Inv(m') by {
      forall k | k in m'.clients && k != connId
        ensures m'.clients[k].queue < |m.queues|
      {
        assert m'.clients[k] == m.clients[k];
      }
    }
    (s, m')
  }

  /**
   * Registering twice under the same connection id leaves the first
   * session's queue open but owned by no session: nobody will ever close it.
   */
  lemma CollisionLeaksQueue(m: Manager, clientId: string, ip: string, userAgent: string, nanos: int, t1: int, t2: int)
    requires Inv(m)
    ensures var (s1, m1) := RegisterClient(m, clientId, ip, userAgent, nanos, t1);
            var (s2, m2) := RegisterClient(m1, clientId, ip, userAgent, nanos, t2);
            && |m2.clients| == |m1.clients|
            && m2.clients[s1.connectionId] == s2
            && s1.queue < |m2.queues| && !m2.queues[s1.queue].closed
            && (forall k :: k in m2.clients ==> m2.clients[k].queue != s1.queue)
  {
    var (s1, m1) := RegisterClient(m, clientId, ip, userAgent, nanos, t1);
    var (s2, m2) := RegisterClient(m1, clientId, ip, userAgent, nanos, t2);
    forall k | k in m2.clients
      ensures m2.clients[k].queue != s1.queue
    {
      if k != s1.connectionId {
        assert m2.clients[k] == m.clients[k];
      }
    }
  }

  /** `GetClientInfo`: the session stored under a connection id. */
  function GetClientInfo(m: Manager, connId: string): (s: Option<Session>)
    ensures s.Some? <==> connId in m.clients
    ensures s.Some? ==> s.value == m.clients[connId]
  {
    if connId in m.clients then Some(m.clients[connId]) else None
  }

  /**
   * `GetClientInfoByID`: the first session, in the map order `order`, whose
   * client id is `clientId`.
   */
  method GetClientInfoByID(m: Manager, clientId: string, order: seq<string>) returns (s: Option<Session>)
    requires Enumerates(order, m.clients.Keys)
    ensures s.Some? <==> exists k :: k in m.clients && m.clients[k].id == clientId
    ensures s.Some? ==> s.value.id == clientId && s.value in m.clients.Values
    ensures s.Some? ==>
              exists j :: 0 <= j < |order| && s.value == m.clients[order[j]]
                          && forall i :: 0 <= i < j ==> m.clients[order[i]].id != clientId
  {
    for i := 0 to |order|
      invariant forall j :: 0 <= j < i ==> m.clients[order[j]].id != clientId
    {
      var c := m.clients[order[i]];
      if c.id == clientId {
        return Some(c);
      }
    }
    forall k | k in m.clients
      ensures m.clients[k].id != clientId
    {
      var j :| 0 <= j < |order| && order[j] == k;
    }
    return None;
  }

  /**
   * The `LastSeen` refresh of the WebSocket read loop. The handler stamps the
   * record `RegisterClient` handed it, which the model names by its
   * connection id and its queue (every registration gets a fresh queue). The
   * registry sees the stamp only while that record is still the one stored
   * under the id; a record displaced by a same-nanosecond re-registration is
   * stamped where no one looks, and the registry does not change.
   */
  function Touch(m: Manager, connId: string, queue: nat, now: int): (m': Manager)
    requires Inv(m)
    ensures Inv(m')
    ensures m'.queues == m.queues && m'.clients.Keys == m.clients.Keys
    ensures connId in m.clients && m.clients[connId].queue == queue ==>
              m'.clients[connId] == m.clients[connId].(lastSeen := now)
    ensures forall k :: k in m.clients && k != connId ==> m'.clients[k] == m.clients[k]
    ensures connId !in m.clients || m.clients[connId].queue != queue ==> m' == m
  {
    if connId in m.clients && m.clients[connId].queue == queue then
      m.(clients := m.clients[connId := m.clients[connId].(lastSeen := now)])
    else m
  }

  /** A session touched through its own record at `now` is not expired at any time up to `now + timeout`. */
  lemma TouchedNotExpired(m: Manager, connId: string, now: int, later: int, timeout: int)
    requires Inv(m) && connId in m.clients
    requires later - now <= timeout
    ensures connId in Touch(m, connId, m.clients[connId].queue, now).clients
    ensures !Expired(Touch(m, connId, m.clients[connId].queue, now).clients[connId], later, timeout)
  {
  }

  /**
   * After a same-nanosecond re-registration, a read on the first session
   * stamps its displaced record: the registry, including the second session
   * stored under the shared id, is left as it was.
   */
  lemma DisplacedSessionTouchIsLost(m: Manager, clientId: string, ip: string, userAgent: string, nanos: int,
                                    t1: int, t2: int, now: int)
    requires Inv(m)
    ensures var (s1, m1) := RegisterClient(m, clientId, ip, userAgent, nanos, t1);
            var (s2, m2) := RegisterClient(m1, clientId, ip, userAgent, nanos, t2);
            && s1.connectionId == s2.connectionId
            && Touch(m2, s1.connectionId, s1.queue, now) == m2
  {
    var (s1, m1) := RegisterClient(m, clientId, ip, userAgent, nanos, t1);
    var (s2, m2) := RegisterClient(m1, clientId, ip, userAgent, nanos, t2);
    assert m2.clients[s1.connectionId].queue == |m1.queues| != s1.queue;
  }

  // ---------------------------------------------------------------------------
  // Channels a session follows

  /** `SubscribeClient`: adds the channel and refreshes `LastSeen`; an unknown id is an error. */
  function SubscribeClient(m: Manager, connId: string, channel: string, now: int): (r: Result<Manager, string>)
    requires Inv(m)
    ensures r.Err? <==> connId !in m.clients
    ensures r.Err? ==> r.error == "client not found: " + connId
    ensures r.Ok? ==> r.value.queues == m.queues && r.value.clients.Keys == m.clients.Keys
    ensures r.Ok? ==> r.value.clients[connId] == m.clients[connId].(channels := m.clients[connId].channels + {channel}, lastSeen := now)
    ensures r.Ok? ==> forall k :: k in m.clients && k != connId ==> r.value.clients[k] == m.clients[k]
    ensures r.Ok? ==> Inv(r.value)
  {
    if connId !in m.clients then Err("client not found: " + connId)
    else
      var s := m.clients[connId];
      Ok(m.(clients := m.clients[connId := s.(channels := s.channels + {channel}, lastSeen := now)]))
  }

  /** `UnsubscribeClient`: removes the channel and refreshes `LastSeen`; an unknown id is an error. */
  function UnsubscribeClient(m: Manager, connId: string, channel: string, now: int): (r: Result<Manager, string>)
    requires Inv(m)
    ensures r.Err? <==> connId !in m.clients
    ensures r.Err? ==> r.error == "client not found: " + connId
    ensures r.Ok? ==> r.value.queues == m.queues && r.value.clients.Keys == m.clients.Keys
    ensures r.Ok? ==> r.value.clients[connId] == m.clients[connId].(channels := m.clients[connId].channels - {channel}, lastSeen := now)
    ensures r.Ok? ==> forall k :: k in m.clients && k != connId ==> r.value.clients[k] == m.clients[k]
    ensures r.Ok? ==> Inv(r.value)
  {
    if connId !in m.clients then Err("client not found: " + connId)
    else
      var s := m.clients[connId];
      Ok(m.(clients := m.clients[connId := s.(channels := s.channels - {channel}, lastSeen := now)]))
  }

  /** Subscribing again, or unsubscribing again, only refreshes `LastSeen`. */
  lemma SubscriptionIdempotent(m: Manager, connId: string, channel: string, t1: int, t2: int)
    requires Inv(m) && connId in m.clients
    ensures var once := SubscribeClient(m, connId, channel, t1).value;
            SubscribeClient(once, connId, channel, t2) == SubscribeClient(m, connId, channel, t2)
    ensures var once := UnsubscribeClient(m, connId, channel, t1).value;
            UnsubscribeClient(once, connId, channel, t2) == UnsubscribeClient(m, connId, channel, t2)
  {
    var s := m.clients[connId];
    assert s.channels + {channel} + {channel} == s.channels + {channel};
    assert s.channels - {channel} - {channel} == s.channels - {channel};
    var s1 := s.(channels := s.channels + {channel}, lastSeen := t1);
    assert m.clients[connId := s1][connId := s1.(channels := s1.channels + {channel}, lastSeen := t2)]
        == m.clients[connId := s.(channels := s.channels + {channel}, lastSeen := t2)];
    var s2 := s.(channels := s.channels - {channel}, lastSeen := t1);
    assert m.clients[connId := s2][connId := s2.(channels := s2.channels - {channel}, lastSeen := t2)]
        == m.clients[connId := s.(channels := s.channels - {channel}, lastSeen := t2)];
  }

  /** Subscribing then unsubscribing a channel the session did not follow restores its channels. */
  lemma SubscribeThenUnsubscribe(m: Manager, connId: string, channel: string, t1: int, t2: int)
    requires Inv(m) && connId in m.clients && channel !in m.clients[connId].channels
    ensures var m1 := SubscribeClient(m, connId, channel, t1).value;
            var m2 := UnsubscribeClient(m1, connId, channel, t2).value;
            m2.clients[connId].channels == m.clients[connId].channels
  {
    assert m.clients[connId].channels + {channel} - {channel} == m.clients[connId].channels;
  }

  /** `GetClientsByChannel`: the connection ids of the sessions following `channel`, in the map order `order`. */
  method GetClientsByChannel(m: Manager, channel: string, order: seq<string>) returns (ids: seq<string>)
    requires Enumerates(order, m.clients.Keys)
    ensures forall k :: k in ids <==> k in m.clients && channel in m.clients[k].channels
    ensures NoDup(ids)
  {
    ids := [];
    for i := 0 to |order|
      invariant forall k :: k in ids <==> k in order[..i] && channel in m.clients[k].channels
      invariant NoDup(ids)
    {
      var k := order[i];
      assert k !in order[..i];
      if channel in m.clients[k].channels {
        ids := ids + [k];
      }
      assert order[..i + 1] == order[..i] + [k];
    }
    assert order[..|order|] == order;
  }

  /** `UpdateClientData`: replaces the client data and refreshes `LastSeen`; an unknown id is an error. */
  function UpdateClientData(m: Manager, connId: string, data: Option<ClientData>, now: int): (r: Result<Manager, string>)
    requires Inv(m)
    ensures r.Err? <==> connId !in m.clients
    ensures r.Err? ==> r.error == "client not found: " + connId
    ensures r.Ok? ==> r.value.clients == m.clients[connId := m.clients[connId].(clientData := data, lastSeen := now)]
    ensures r.Ok? ==> r.value.queues == m.queues && Inv(r.value)
  {
    if connId !in m.clients then Err("client not found: " + connId)
    else Ok(m.(clients := m.clients[connId := m.clients[connId].(clientData := data, lastSeen := now)]))
  }

  // ---------------------------------------------------------------------------
  // Removal

  /**
   * `RemoveClient`: an unknown id changes nothing; otherwise the session's
   * queue, open until now, is closed and the session deleted.
   */
  function RemoveClient(m: Manager, connId: string): (m': Manager)
    requires Inv(m)
    ensures connId !in m.clients ==> m' == m
    ensures connId !in m'.clients
    ensures m'.clients.Keys == m.clients.Keys - {connId}
    ensures forall k :: k in m'.clients ==> m'.clients[k] == m.clients[k]
    ensures |m'.queues| == |m.queues|
    ensures connId in m.clients ==> m'.queues == CloseQueue(m.queues, m.clients[connId].queue)
    ensures Inv(m')
  {
    if connId !in m.clients then m
    else Manager(m.clients - {connId}, CloseQueue(m.queues, m.clients[connId].queue))
  }

  /** Removing twice is removing once, and the removed id stays gone after later removals. */
  lemma RemoveClientIdempotent(m: Manager, connId: string, other: string)
    requires Inv(m)
    ensures RemoveClient(RemoveClient(m, connId), connId) == RemoveClient(m, connId)
    ensures connId !in RemoveClient(RemoveClient(m, connId), other).clients
  {
  }

  /** A session idle for strictly longer than `timeout`. */
  predicate Expired(s: Session, now: int, timeout: int) {
    now - s.lastSeen > timeout
  }

  function Members(s: seq<string>): set<string> {
    set x | x in s
  }

  /** The queues of the sessions among `keys` that have expired. */
  function ExpiredQueues(m: Manager, keys: set<string>, now: int, timeout: int): set<nat> {
    set k | k in m.clients && k in keys && Expired(m.clients[k], now, timeout) :: m.clients[k].queue
  }

  /** One iteration of the cleanup loop: the session under `k` is removed if it has expired. */
  function PruneStep(m: Manager, k: string, now: int, timeout: int): (m': Manager)
    requires Inv(m)
    ensures Inv(m')
  {
    if k in m.clients && Expired(m.clients[k], now, timeout) then RemoveClient(m, k) else m
  }

  /** The cleanup loop after visiting the keys `s`, in order. */
  function Prune(m: Manager, s: seq<string>, now: int, timeout: int): (m': Manager)
    requires Inv(m)
    ensures Inv(m')
    ensures |m'.queues| == |m.queues|
    decreases |s|
  {
    if |s| == 0 then m else PruneStep(Prune(m, s[..|s| - 1], now, timeout), s[|s| - 1], now, timeout)
  }

  /** After visiting `s`, exactly the visited expired sessions are gone, the rest as they were. */
  lemma {:induction false} PruneClients(m: Manager, s: seq<string>, now: int, timeout: int)
    requires Inv(m) && NoDup(s)
    ensures forall k :: k in Prune(m, s, now, timeout).clients <==>
              k in m.clients && !(k in s && Expired(m.clients[k], now, timeout))
    ensures forall k :: k in Prune(m, s, now, timeout).clients ==> Prune(m, s, now, timeout).clients[k] == m.clients[k]
    decreases |s|
  {
    if |s| > 0 {
      var s', k := s[..|s| - 1], s[|s| - 1];
      assert NoDup(s');
      PruneClients(m, s', now, timeout);
      assert s == s' + [k];
      assert k !in s';
    }
  }

  /** After visiting `s`, the queues of the visited expired sessions are closed and no other queue changed. */
  lemma {:induction false} PruneQueues(m: Manager, s: seq<string>, now: int, timeout: int)
    requires Inv(m) && NoDup(s)
    ensures forall q :: 0 <= q < |m.queues| ==>
              Prune(m, s, now, timeout).queues[q] ==
                (if q in ExpiredQueues(m, Members(s), now, timeout) then m.queues[q].(closed := true) else m.queues[q])
    decreases |s|
  {
    if |s| > 0 {
      var s', k := s[..|s| - 1], s[|s| - 1];
      assert NoDup(s');
      assert s == s' + [k];
      assert k !in s';
      PruneQueues(m, s', now, timeout);
      PruneClients(m, s', now, timeout);
      var p := Prune(m, s', now, timeout);
      var before := ExpiredQueues(m, Members(s'), now, timeout);
      var after := ExpiredQueues(m, Members(s), now, timeout);
      assert Members(s) == Members(s') + {k};
      if k in p.clients && Expired(p.clients[k], now, timeout) {
        var q := m.clients[k].queue;
        assert after == before + {q};
        assert q !in before by {
          forall x | x in m.clients && x in Members(s')
            ensures m.clients[x].queue != q
          {
            assert x != k;
          }
        }
      } else {
        assert after == before;
      }
    }
  }

  /**
   * `CleanupInactiveClients`: removes exactly the expired sessions, in the
   * map order `order`, closing each one's queue; the rest are untouched.
   */
  method CleanupInactiveClients(m: Manager, order: seq<string>, now: int, timeout: int) returns (m': Manager)
    requires Inv(m) && Enumerates(order, m.clients.Keys)
    ensures Inv(m')
    ensures forall k :: k in m'.clients <==> k in m.clients && !Expired(m.clients[k], now, timeout)
    ensures forall k :: k in m'.clients ==> m'.clients[k] == m.clients[k]
    ensures |m'.queues| == |m.queues|
    ensures forall q :: 0 <= q < |m.queues| ==>
              m'.queues[q] == (if q in ExpiredQueues(m, m.clients.Keys, now, timeout) then m.queues[q].(closed := true) else m.queues[q])
  {
    m' := m;
    for i := 0 to |order|
      invariant Inv(m')
      invariant m' == Prune(m, order[..i], now, timeout)
    {
      assert order[..i + 1][..i] == order[..i];
      m' := PruneStep(m', order[i], now, timeout);
    }
    assert order[..|order|] == order;
    PruneClients(m, order, now, timeout);
    PruneQueues(m, order, now, timeout);
    assert Members(order) == m.clients.Keys;
  }

  /** The queues of the sessions among `keys`. */
  function QueuesOf(m: Manager, keys: set<string>): set<nat> {
    set k | k in m.clients && k in keys :: m.clients[k].queue
  }

  /** The shutdown loop after visiting the keys `s`, in order. */
  function CloseEach(m: Manager, s: seq<string>): (m': Manager)
    requires Inv(m)
    ensures Inv(m')
    ensures |m'.queues| == |m.queues|
    ensures forall k :: k in m'.clients <==> k in m.clients && k !in s
    ensures forall k :: k in m'.clients ==> m'.clients[k] == m.clients[k]
    decreases |s|
  {
    if |s| == 0 then m else RemoveClient(CloseEach(m, s[..|s| - 1]), s[|s| - 1])
  }

  /** After visiting `s`, the queues of the visited sessions are closed and no other queue changed. */
  lemma {:induction false} CloseEachQueues(m: Manager, s: seq<string>)
    requires Inv(m) && NoDup(s)
    ensures forall q :: 0 <= q < |m.queues| ==>
              CloseEach(m, s).queues[q] ==
                (if q in QueuesOf(m, Members(s)) then m.queues[q].(closed := true) else m.queues[q])
    decreases |s|
  {
    if |s| > 0 {
      var s', k := s[..|s| - 1], s[|s| - 1];
      assert NoDup(s');
      assert s == s' + [k];
      assert k !in s';
      CloseEachQueues(m, s');
      var before := QueuesOf(m, Members(s'));
      var after := QueuesOf(m, Members(s));
      assert Members(s) == Members(s') + {k};
      if k in m.clients {
        var q := m.clients[k].queue;
        assert after == before + {q};
        assert q !in before by {
          forall x | x in m.clients && x in Members(s')
            ensures m.clients[x].queue != q
          {
            assert x != k;
          }
        }
      } else {
        assert after == before;
      }
    }
  }


  /**
   * `CloseAll`: every session is removed and its queue closed, in the map
   * order `order`; queues owned by no session keep their state.
   */
  method CloseAll(m: Manager, order: seq<string>) returns (m': Manager)
    requires Inv(m) && Enumerates(order, m.clients.Keys)
    ensures m'.clients == map[] && Inv(m')
    ensures |m'.queues| == |m.queues|
    ensures forall q :: 0 <= q < |m.queues| ==>
              m'.queues[q] == (if q in QueuesOf(m, m.clients.Keys) then m.queues[q].(closed := true) else m.queues[q])
  {
    m' := m;
    for i := 0 to |order|
      invariant Inv(m')
      invariant m' == CloseEach(m, order[..i])
    {
      assert order[..i + 1][..i] == order[..i];
      m' := RemoveClient(m', order[i]);
    }
    assert order[..|order|] == order;
    CloseEachQueues(m, order);
    assert Members(order) == m.clients.Keys;
  }

  // ---------------------------------------------------------------------------
  // Counting

  function ActiveKeys(m: Manager): set<string> {
    set k | k in m.clients && m.clients[k].isActive
  }

  /** `GetActiveClientCount`: the number of sessions whose `IsActive` is set. */
  method GetActiveClientCount(m: Manager, order: seq<string>) returns (count: nat)
    requires Enumerates(order, m.clients.Keys)
    ensures count == |ActiveKeys(m)|
  {
    count := 0;
    ghost var seen: seq<string> := [];
    for i := 0 to |order|
      invariant count == |seen|
      invariant forall k :: k in seen <==> k in order[..i] && m.clients[k].isActive
      invariant NoDup(seen)
    {
      var k := order[i];
      assert k !in order[..i];
      assert order[..i + 1] == order[..i] + [k];
      if m.clients[k].isActive {
        seen := seen + [k];
        count := count + 1;
      }
    }
    assert order[..|order|] == order;
    EnumerationLength(seen, ActiveKeys(m));
  }

  /** Since every stored session is active, the active count is the registry size. */
  lemma ActiveCountIsSize(m: Manager)
    requires Inv(m)
    ensures |ActiveKeys(m)| == |m.clients|
  {
    assert ActiveKeys(m) == m.clients.Keys;
  }
}

=== FILE: client_repository.dfy ===
/**
 * The controller's in-memory client registry (`ClientRepository`), keyed by
 * the `ClientId` carried inside each record. The generated protobuf record
 * is not part of this model: `ClientInfo` keeps the fields the code touches
 * and an opaque `profile` for the rest.
 */
module ClientRepository {
  import opened Wrappers

  /** The statistics block of a client; only `lastActivity` is written here. */
  datatype ClientStats = ClientStats(lastActivity: int, counters: map<string, int>)

  datatype ClientInfo = ClientInfo(clientId: string, profile: map<string, string>, stats: Option<ClientStats>)

  datatype Repository = Repository(clients: map<string, ClientInfo>)

  function Empty(): Repository {
    Repository(map[])
  }

  /** The record as stored: a missing stats block is created, then its last activity stamped. */
  function Stamp(c: ClientInfo, now: int): (c': ClientInfo)
    ensures c'.clientId == c.clientId && c'.profile == c.profile
    ensures c'.stats.Some? && c'.stats.value.lastActivity == now
    ensures c.stats.Some? ==> c'.stats.value.counters == c.stats.value.counters
    ensures c.stats.None? ==> c'.stats.value.counters == map[]
  {
    var s := c.stats.GetOr(ClientStats(0, map[]));
    c.(stats := Some(s.(lastActivity := now)))
  }

  /**
   * `SaveClient`: a nil record is ignored; otherwise the stamped record
   * replaces whatever was stored under its `ClientId`, and nothing else changes.
   */
  function SaveClient(r: Repository, client: Option<ClientInfo>, now: int): (r': Repository)
    ensures client.None? ==> r' == r
    ensures client.Some? ==> r'.clients.Keys == r.clients.Keys + {client.value.clientId}
    ensures client.Some? ==> r'.clients[client.value.clientId] == Stamp(client.value, now)
    ensures client.Some? ==> forall k :: k in r.clients && k != client.value.clientId ==> r'.clients[k] == r.clients[k]
  {
    match client
    case None => r
    case Some(c) => Repository(r.clients[c.clientId := Stamp(c, now)])
  }

  function GetClient(r: Repository, id: string): (c: Option<ClientInfo>)
    ensures c.Some? <==> id in r.clients
    ensures c.Some? ==> c.value == r.clients[id]
  {
    if id in r.clients then Some(r.clients[id]) else None
  }

  /** Deletes the entry for `id`; an absent id changes nothing. */
  function RemoveClient(r: Repository, id: string): (r': Repository)
    ensures r'.clients.Keys == r.clients.Keys - {id}
    ensures forall k :: k in r'.clients ==> r'.clients[k] == r.clients[k]
    ensures id !in r.clients ==> r' == r
  {
    Repository(r.clients - {id})
  }

  /** A saved record can be read back under its own id, stamped; removal forgets it, twice as once. */
  lemma SaveGetRemove(r: Repository, c: ClientInfo, now: int)
    ensures GetClient(SaveClient(r, Some(c), now), c.clientId) == Some(Stamp(c, now))
    ensures GetClient(RemoveClient(SaveClient(r, Some(c), now), c.clientId), c.clientId) == None
    ensures RemoveClient(RemoveClient(r, c.clientId), c.clientId) == RemoveClient(r, c.clientId)
  {
  }
}

=== FILE: commands.dfy ===
/**
 * The command line of the gateway binary (`handleCommand`): the first
 * argument picks a command, and `server` reads three flags. Running the
 * chosen command is not modelled; its choice and settings are.
 */
module Commands {
  import Text

  /** The settings `server` runs with. */
  datatype ServerFlags = ServerFlags(debug: bool, configPath: string, grpcPort: string)

  const DefaultConfigPath := "./config/config.yaml"
  const DefaultGrpcPort := "9090"

  function DefaultFlags(): ServerFlags {
    ServerFlags(false, DefaultConfigPath, DefaultGrpcPort)
  }

  /** The command chosen; `Unknown` prints the help text and exits with status 1. */
  datatype Command =
    | Server(flags: ServerFlags)
    | Migrate
    | Worker
    | Version
    | HealthCheck
    | GenerateDocs
    | Help
    | Unknown(word: string)

  /** The tokens the flag loop reacts to; every other token is skipped. */
  predicate IsFlagName(t: string) {
    t == "--debug" || t == "--config" || t == "--grpc-port"
  }

  /**
   * The flag loop of `server`, from settings `f` over the remaining tokens:
   * `--debug` sets debug; `--config` and `--grpc-port` take the next token
   * as their value, whatever it is, and a trailing one without a value is
   * dropped; anything else is skipped. A later value overrides an earlier one.
   */
  function ParseFlags(f: ServerFlags, rest: seq<string>): (r: ServerFlags)
    ensures f.debug ==> r.debug
    ensures r.configPath == f.configPath || r.configPath in rest
    ensures r.grpcPort == f.grpcPort || r.grpcPort in rest
    ensures r.debug && !f.debug ==> "--debug" in rest
    ensures |rest| == 1 && (rest[0] == "--config" || rest[0] == "--grpc-port") ==> r == f
    decreases |rest|
  {
    if |rest| == 0 then f
    else if rest[0] == "--debug" then ParseFlags(f.(debug := true), rest[1..])
    else if rest[0] == "--config" && |rest| >= 2 then ParseFlags(f.(configPath := rest[1]), rest[2..])
    else if rest[0] == "--grpc-port" && |rest| >= 2 then ParseFlags(f.(grpcPort := rest[1]), rest[2..])
    else ParseFlags(f, rest[1..])
  }

  /** The loop as written, with an index that a flag with a value advances twice. */
  method ParseServerFlags(args: seq<string>) returns (f: ServerFlags)
    requires 1 <= |args|
    ensures f == ParseFlags(DefaultFlags(), args[1..])
  {
    f := DefaultFlags();
    var i := 1;
    while i < |args|
      invariant 1 <= i <= |args|
      invariant ParseFlags(f, args[i..]) == ParseFlags(DefaultFlags(), args[1..])
    {
      assert args[i..][1..] == args[i + 1..];
      if args[i] == "--debug" {
        f := f.(debug := true);
      } else if args[i] == "--config" {
        if i + 1 < |args| {
          assert args[i..][2..] == args[i + 2..];
          f := f.(configPath := args[i + 1]);
          i := i + 1;
        }
      } else if args[i] == "--grpc-port" {
        if i + 1 < |args| {
          assert args[i..][2..] == args[i + 2..];
          f := f.(grpcPort := args[i + 1]);
          i := i + 1;
        }
      }
      i := i + 1;
    }
  }

  /** Tokens that are not flag names change nothing. */
  lemma {:induction false} UnknownTokensIgnored(f: ServerFlags, rest: seq<string>)
    requires forall i :: 0 <= i < |rest| ==> !IsFlagName(rest[i])
    ensures ParseFlags(f, rest) == f
    decreases |rest|
  {
    if |rest| > 0 {
      UnknownTokensIgnored(f, rest[1..]);
    }
  }

  /** The canonical spelling of some settings: both valued flags, then `--debug` if set. */
  function RenderFlags(f: ServerFlags): seq<string> {
    ["--config", f.configPath, "--grpc-port", f.grpcPort] + (if f.debug then ["--debug"] else [])
  }

  /** Rendered settings are read back over any starting settings, except that debug, once set, stays set. */
  lemma RenderThenParse(start: ServerFlags, f: ServerFlags, rest: seq<string>)
    ensures ParseFlags(start, RenderFlags(f) + rest) == ParseFlags(f.(debug := f.debug || start.debug), rest)
  {
    var s := RenderFlags(f) + rest;
    var tail := (if f.debug then ["--debug"] else []) + rest;
    var s1 := ["--grpc-port", f.grpcPort] + tail;
    assert s == ["--config", f.configPath] + s1;
    assert s[0] == "--config" && s[1] == f.configPath && s[2..] == s1;
    var g1 := start.(configPath := f.configPath);
    assert ParseFlags(start, s) == ParseFlags(g1, s1);
    assert s1[0] == "--grpc-port" && s1[1] == f.grpcPort && s1[2..] == tail;
    var g2 := g1.(grpcPort := f.grpcPort);
    assert ParseFlags(g1, s1) == ParseFlags(g2, tail);
    if f.debug {
      assert tail[0] == "--debug" && tail[1..] == rest;
      assert ParseFlags(g2, tail) == ParseFlags(g2.(debug := true), rest);
    } else {
      assert tail == rest;
    }
  }

  /**
   * A `--config` or `--grpc-port` in the last position has no value to take
   * and is dropped, on its own or after any fully consumed rendering.
   */
  lemma TrailingFlagIgnored(start: ServerFlags, g: ServerFlags, n: string)
    requires n == "--config" || n == "--grpc-port"
    ensures ParseFlags(start, [n]) == start
    ensures ParseFlags(start, RenderFlags(g) + [n]) == ParseFlags(start, RenderFlags(g))
  {
    RenderThenParse(start, g, [n]);
    RenderThenParse(start, g, []);
    assert RenderFlags(g) + [] == RenderFlags(g);
  }

  /** Parsing the rendering from the defaults gives the settings back. */
  lemma FlagsRoundTrip(f: ServerFlags)
    ensures ParseFlags(DefaultFlags(), RenderFlags(f)) == f
  {
    RenderThenParse(DefaultFlags(), f, []);
    assert RenderFlags(f) + [] == RenderFlags(f);
  }

  /** Two renderings in a row: the second one's values win, and debug is set if either set it. */
  lemma LaterFlagsWin(a: ServerFlags, b: ServerFlags)
    ensures ParseFlags(DefaultFlags(), RenderFlags(a) + RenderFlags(b)) == b.(debug := a.debug || b.debug)
  {
    RenderThenParse(DefaultFlags(), a, RenderFlags(b));
    RenderThenParse(a, b, []);
    assert RenderFlags(b) + [] == RenderFlags(b);
  }

  /** The words `handleCommand` knows, with the command each selects. */
  function WordOf(c: Command): string
    requires !c.Unknown?
  {
    match c
    case Server(_) => "server"
    case Migrate => "migrate"
    case Worker => "worker"
    case Version => "version"
    case HealthCheck => "health-check"
    case GenerateDocs => "generate-docs"
    case Help => "help"
  }

  predicate IsCommandWord(w: string) {
    w in {"server", "migrate", "worker", "version", "health-check", "generate-docs", "help"}
  }

  /**
   * `handleCommand`: no arguments runs the server with the defaults; the
   * first argument selects the command, the rest being flags for `server`
   * and ignored otherwise; an unknown word is reported.
   */
  function HandleCommand(args: seq<string>): (c: Command)
    ensures |args| == 0 ==> c == Server(DefaultFlags())
    ensures |args| > 0 && args[0] == "server" ==> c == Server(ParseFlags(DefaultFlags(), args[1..]))
    ensures |args| > 0 ==> (c.Unknown? <==> !IsCommandWord(args[0]))
    ensures |args| > 0 && c.Unknown? ==> c.word == args[0]
    ensures |args| > 0 && !c.Unknown? ==> WordOf(c) == args[0]
  {
    if |args| == 0 then Server(DefaultFlags())
    else match args[0]
      case "server" => Server(ParseFlags(DefaultFlags(), args[1..]))
      case "migrate" => Migrate
      case "worker" => Worker
      case "version" => Version
      case "health-check" => HealthCheck
      case "generate-docs" => GenerateDocs
      case "help" => Help
      case _ => Unknown(args[0])
  }

  /** The exit status of the choice itself: 1 for an unknown word. Failures of the commands run are not modelled. */
  function ExitStatus(c: Command): (s: int)
    ensures s == 1 <==> c.Unknown?
    ensures s == 0 || s == 1
  {
    if c.Unknown? then 1 else 0
  }

  /** The arguments that select `c`. */
  function ArgsOf(c: Command): seq<string> {
    match c
    case Server(f) => ["server"] + RenderFlags(f)
    case Unknown(w) => [w]
    case _ => [WordOf(c)]
  }

  /** Every command is selected by its own arguments; an unknown one only by a word that is not a command. */
  lemma CommandRoundTrip(c: Command)
    requires c.Unknown? ==> !IsCommandWord(c.word)
    ensures HandleCommand(ArgsOf(c)) == c
  {
    if c.Server? {
      assert ArgsOf(c)[1..] == RenderFlags(c.flags);
      FlagsRoundTrip(c.flags);
    }
  }

  // ---------------------------------------------------------------------------
  // The `=` spelling shown in the usage text

  /** The usage text's own example `server --grpc-port=9091` still runs on the default port. */
  lemma EqualsFormIgnored()
    ensures HandleCommand(["server", "--grpc-port=9091"]) == Server(DefaultFlags())
  {
    var args := ["server", "--grpc-port=9091"];
    assert args[1..] == ["--grpc-port=9091"];
    assert !IsFlagName("--grpc-port=9091") by {
      assert |"--grpc-port=9091"| != |"--grpc-port"|;
    }
    UnknownTokensIgnored(DefaultFlags(), args[1..]);
  }

  const ConfigEq := "--config="
  const GrpcPortEq := "--grpc-port="

  /**
   * The flag loop with the `--name=value` spelling also accepted for the
   * two valued flags; the separate spelling behaves as before.
   */
  function ParseFlagsWithEquals(f: ServerFlags, rest: seq<string>): (r: ServerFlags)
    ensures f.debug ==> r.debug
    decreases |rest|
  {
    if |rest| == 0 then f
    else if rest[0] == "--debug" then ParseFlagsWithEquals(f.(debug := true), rest[1..])
    else if rest[0] == "--config" && |rest| >= 2 then ParseFlagsWithEquals(f.(configPath := rest[1]), rest[2..])
    else if rest[0] == "--grpc-port" && |rest| >= 2 then ParseFlagsWithEquals(f.(grpcPort := rest[1]), rest[2..])
    else if Text.IsPrefix(ConfigEq, rest[0]) then ParseFlagsWithEquals(f.(configPath := rest[0][|ConfigEq|..]), rest[1..])
    else if Text.IsPrefix(GrpcPortEq, rest[0]) then ParseFlagsWithEquals(f.(grpcPort := rest[0][|GrpcPortEq|..]), rest[1..])
    else ParseFlagsWithEquals(f, rest[1..])
  }

  /** Both spellings of a valued flag give the same settings. */
  lemma EqualsFormAgrees(f: ServerFlags, config: string, port: string, rest: seq<string>)
    ensures ParseFlagsWithEquals(f, [GrpcPortEq + port] + rest) == ParseFlagsWithEquals(f, ["--grpc-port", port] + rest)
    ensures ParseFlagsWithEquals(f, [ConfigEq + config] + rest) == ParseFlagsWithEquals(f, ["--config", config] + rest)
  {
    var p := GrpcPortEq + port;
    assert p[..|GrpcPortEq|] == GrpcPortEq && p[|GrpcPortEq|..] == port;
    assert p != "--debug" && p != "--config" && p != "--grpc-port" by {
      assert p[11] == '=';
    }
    assert !Text.IsPrefix(ConfigEq, p) by {
      assert p[2] == 'g';
    }
    var c := ConfigEq + config;
    assert c[..|ConfigEq|] == ConfigEq && c[|ConfigEq|..] == config;
    assert c != "--debug" && c != "--config" && c != "--grpc-port" by {
      assert c[8] == '=';
    }
    assert ([p] + rest)[1..] == rest && ([c] + rest)[1..] == rest;
    assert (["--grpc-port", port] + rest)[2..] == rest;
    assert (["--config", config] + rest)[2..] == rest;
  }

  /** On tokens without the `=` spelling the corrected loop is the loop as written. */
  lemma {:induction false} WithEqualsExtends(f: ServerFlags, rest: seq<string>)
    requires forall i :: 0 <= i < |rest| ==> !Text.IsPrefix(ConfigEq, rest[i]) && !Text.IsPrefix(GrpcPortEq, rest[i])
    ensures ParseFlagsWithEquals(f, rest) == ParseFlags(f, rest)
    decreases |rest|
  {
    if |rest| > 0 {
      if rest[0] == "--debug" {
        WithEqualsExtends(f.(debug := true), rest[1..]);
      } else if rest[0] == "--config" && |rest| >= 2 {
        WithEqualsExtends(f.(configPath := rest[1]), rest[2..]);
      } else if rest[0] == "--grpc-port" && |rest| >= 2 {
        WithEqualsExtends(f.(grpcPort := rest[1]), rest[2..]);
      } else {
        WithEqualsExtends(f, rest[1..]);
      }
    }
  }

  /** With the corrected loop the usage text's example runs on port 9091. */
  lemma EqualsFormHonoured()
    ensures ParseFlagsWithEquals(DefaultFlags(), ["--grpc-port=9091"]).grpcPort == "9091"
  {
    EqualsFormAgrees(DefaultFlags(), "", "9091", []);
    assert GrpcPortEq + "9091" == "--grpc-port=9091";
    assert ["--grpc-port=9091"] == [GrpcPortEq + "9091"] + [];
    assert ["--grpc-port", "9091"] + [] == ["--grpc-port", "9091"];
  }
}

=== FILE: enumeration.dfy ===
/**
 * Go's `for k, v := range m` visits the entries of a map in an unspecified
 * order. Operations that range over a map take that order as a parameter:
 * a duplicate-free sequence holding exactly the map's keys. The lemmas here
 * show that sums over such an order do not depend on which order was chosen.
 */
module Enumeration {

  predicate NoDup<T(==)>(s: seq<T>) {
    forall i, j :: 0 <= i < j < |s| ==> s[i] != s[j]
  }

  /** `order` lists every key of `keys` exactly once. */
  predicate Enumerates<K>(order: seq<K>, keys: set<K>) {
    && NoDup(order)
    && (forall k :: k in order ==> k in keys)
    && (forall k :: k in keys ==> k in order)
  }

  /** `order` without its first occurrence of `k`. */
  function RemoveFirst<K(==)>(order: seq<K>, k: K): (r: seq<K>)
    requires k in order
    ensures |r| == |order| - 1
    ensures forall x :: x in r ==> x in order
    ensures forall x :: x in order && x != k ==> x in r
    decreases |order|
  {
    if order[0] == k then order[1..] else [order[0]] + RemoveFirst(order[1..], k)
  }

  lemma {:induction false} RemoveFirstNoDup<K>(order: seq<K>, k: K)
    requires k in order && NoDup(order)
    ensures NoDup(RemoveFirst(order, k))
    ensures k !in RemoveFirst(order, k)
    decreases |order|
  {
    if order[0] != k {
      RemoveFirstNoDup(order[1..], k);
      var r := RemoveFirst(order[1..], k);
      assert forall x :: x in r ==> x != order[0] by {
        forall x | x in r ensures x != order[0] {
          var j :| 0 <= j < |order[1..]| && order[1..][j] == x;
          assert order[j + 1] == x;
        }
      }
      var s := [order[0]] + r;
      assert RemoveFirst(order, k) == s;
      forall i, j | 0 <= i < j < |s|
        ensures s[i] != s[j]
      {
        assert s[j] == r[j - 1] && r[j - 1] in r;
        if i > 0 {
          assert s[i] == r[i - 1];
        }
      }
    } else {
      assert forall j :: 0 < j < |order| ==> order[j] != order[0];
    }
  }

  /** Sum of `f` over the values of `m` visited in `order`. */
  function SumOver<K, V>(m: map<K, V>, order: seq<K>, f: V -> int): int
    requires forall k :: k in order ==> k in m
    decreases |order|
  {
    if |order| == 0 then 0 else f(m[order[0]]) + SumOver(m, order[1..], f)
  }

  lemma {:induction false} SumOverRemove<K, V>(m: map<K, V>, order: seq<K>, f: V -> int, k: K)
    requires forall x :: x in order ==> x in m
    requires k in order
    ensures SumOver(m, order, f) == f(m[k]) + SumOver(m, RemoveFirst(order, k), f)
    decreases |order|
  {
    if order[0] != k {
      SumOverRemove(m, order[1..], f, k);
      var r := RemoveFirst(order[1..], k);
      assert ([order[0]] + r)[1..] == r;
    }
  }

  /** Any two enumerations of the same keys give the same sum. */
  lemma {:induction false} SumOverOrderIndependent<K, V>(m: map<K, V>, o1: seq<K>, o2: seq<K>, f: V -> int)
    requires NoDup(o1) && NoDup(o2)
    requires forall x :: x in o1 ==> x in m
    requires forall x :: x in o1 <==> x in o2
    ensures SumOver(m, o1, f) == SumOver(m, o2, f)
    decreases |o1|
  {
    if |o1| == 0 {
      EmptyWithoutMembers(o2);
    } else {
      var k := o1[0];
      assert k in o2;
      SumOverRemove(m, o2, f, k);
      RemoveFirstNoDup(o2, k);
      var r := RemoveFirst(o2, k);
      assert forall x :: x in o1[1..] ==> x != k by {
        forall x | x in o1[1..] ensures x != k {
          var j :| 0 <= j < |o1[1..]| && o1[1..][j] == x;
          assert o1[j + 1] == x;
        }
      }
      forall x
        ensures x in o1[1..] <==> x in r
      {
        if x in o1[1..] {
          assert x in o1 && x != k;
        }
        if x in r {
          assert x in o2 && x != k;
          assert x in o1;
          assert x != o1[0];
          var j :| 0 <= j < |o1| && o1[j] == x;
          assert o1[1..][j - 1] == x;
        }
      }
      SumOverOrderIndependent(m, o1[1..], r, f);
    }
  }

  lemma EmptyWithoutMembers<T>(s: seq<T>)
    ensures (forall x :: x !in s) ==> |s| == 0
  {
    if |s| > 0 {
      assert s[0] in s;
    }
  }

  /** An enumeration of a key set is as long as the set is large. */
  lemma {:induction false} EnumerationLength<K>(order: seq<K>, keys: set<K>)
    requires Enumerates(order, keys)
    ensures |order| == |keys|
    decreases |order|
  {
    if |order| > 0 {
      var k := order[0];
      assert forall j :: 0 < j < |order| ==> order[j] != k;
      assert Enumerates(order[1..], keys - {k}) by {
        forall x | x in keys - {k} ensures x in order[1..] {
          var j :| 0 <= j < |order| && order[j] == x;
          assert j != 0;
          assert order[1..][j - 1] == x;
        }
      }
      EnumerationLength(order[1..], keys - {k});
    } else {
      assert forall k :: k !in keys;
      assert keys == {};
    }
  }
}

=== FILE: gateway.dfy ===
/**
 * The gateway core (`APIGateway`): a bounded inbound frame queue that drops
 * when full, the per-frame statistics, routing of each frame to the selected
 * downstream endpoints, fan-out to subscribed sessions, and the control
 * message switch. Goroutines are flattened: each step runs to completion.
 */
module Gateway {
  import opened Wrappers
  import opened Enumeration
  import opened GatewayTypes
  import CM = ClientManager
  import SR = ServiceRegistry

  datatype GatewayStats = GatewayStats(
    startTime: int,
    totalRequests: int,
    totalFrames: int,
    activeClients: int,
    bytesProcessed: int,
    errorCount: int)

  datatype ControlMessage = ControlMessage(kind: string, clientId: string, channel: string, timestamp: int)

  datatype Gateway = Gateway(
    bufferSize: nat,
    clients: CM.Manager,
    services: SR.Registry,
    stats: GatewayStats,
    videoQueue: seq<Frame>,
    controlQueue: seq<ControlMessage>)

  const ControlQueueCapacity := 100

  /** `NewAPIGateway`: zeroed statistics, empty queues, no sessions, endpoints from the configuration. */
  function NewGateway(bufferSize: nat, urls: SR.ServiceUrls, now: int): (g: Gateway)
    ensures g.stats == GatewayStats(now, 0, 0, 0, 0, 0)
    ensures g.videoQueue == [] && g.controlQueue == []
    ensures g.bufferSize == bufferSize
    ensures g.clients.clients == map[] && CM.Inv(g.clients)
    ensures forall r :: SR.Endpoints(g.services, r) == SR.InitRole(r, SR.Urls(urls, r), now)
  {
    Gateway(bufferSize, CM.NewManager(), SR.InitializeServices(urls, now),
            GatewayStats(now, 0, 0, 0, 0, 0), [], [])
  }

  /** The queues stay within their capacities and the session registry keeps its invariant. */
  predicate Valid(g: Gateway) {
    |g.videoQueue| <= g.bufferSize && |g.controlQueue| <= ControlQueueCapacity && CM.Inv(g.clients)
  }

  // ---------------------------------------------------------------------------
  // Inbound queue

  /**
   * `HandleVideoFrame`: a non-blocking send on the video queue. Below
   * capacity the frame is queued; otherwise it is dropped and counted as an
   * error. Nothing else changes.
   */
  function HandleVideoFrame(g: Gateway, f: Frame): (g': Gateway)
    ensures |g.videoQueue| < g.bufferSize ==> g' == g.(videoQueue := g.videoQueue + [f])
    ensures |g.videoQueue| >= g.bufferSize ==> g' == g.(stats := g.stats.(errorCount := g.stats.errorCount + 1))
    ensures Valid(g) ==> Valid(g')
  {
    if |g.videoQueue| < g.bufferSize then g.(videoQueue := g.videoQueue + [f])
    else g.(stats := g.stats.(errorCount := g.stats.errorCount + 1))
  }

  function SubmitAll(g: Gateway, fs: seq<Frame>): Gateway
    decreases |fs|
  {
    if |fs| == 0 then g else SubmitAll(HandleVideoFrame(g, fs[0]), fs[1..])
  }

  /**
   * Submitting a run of frames with no consumer running: the first frames,
   * up to the free capacity, are queued in submission order, every other
   * frame adds exactly one error, and nothing else changes.
   */
  lemma {:induction false} SubmitAllAccounting(g: Gateway, fs: seq<Frame>)
    requires |g.videoQueue| <= g.bufferSize
    ensures var free := g.bufferSize - |g.videoQueue|;
            var accepted := if |fs| <= free then |fs| else free;
            var g' := SubmitAll(g, fs);
            && g'.videoQueue == g.videoQueue + fs[..accepted]
            && g'.stats == g.stats.(errorCount := g.stats.errorCount + (|fs| - accepted))
            && |g'.videoQueue| <= g'.bufferSize
            && g'.bufferSize == g.bufferSize && g'.clients == g.clients && g'.services == g.services
            && g'.controlQueue == g.controlQueue
    decreases |fs|
  {
    if |fs| > 0 {
      var g1 := HandleVideoFrame(g, fs[0]);
      SubmitAllAccounting(g1, fs[1..]);
      if |g.videoQueue| < g.bufferSize {
        var free := g.bufferSize - |g.videoQueue|;
        var accepted := if |fs| <= free then |fs| else free;
        assert g.videoQueue + [fs[0]] + fs[1..][..accepted - 1] == g.videoQueue + fs[..accepted];
      }
    }
  }

  // ---------------------------------------------------------------------------
  // Processing one frame

  /** `routeFrameToServices`: one dispatch per selected endpoint, `dispatch` giving each exchange's outcome. */
  function DispatchAll(reg: SR.Registry, refs: seq<SR.EndpointRef>, dispatch: SR.EndpointRef -> SR.DispatchOutcome, now: int): (reg': SR.Registry)
    requires forall e :: e in refs ==> SR.ValidRef(reg, e)
    ensures forall r :: |SR.Endpoints(reg', r)| == |SR.Endpoints(reg, r)|
    decreases |refs|
  {
    if |refs| == 0 then reg
    else
      var prev := DispatchAll(reg, refs[..|refs| - 1], dispatch, now);
      var last := refs[|refs| - 1];
      assert last in refs;
      assert SR.ValidRef(reg, last);
      assert |SR.Endpoints(prev, last.role)| == |SR.Endpoints(reg, last.role)|;
      assert SR.ValidRef(prev, last);
      SR.SendToService(prev, last, dispatch(last), now).0
  }

  /** Each listed endpoint is dispatched to exactly once; the others are untouched. */
  lemma {:induction false} DispatchAllEffect(reg: SR.Registry, refs: seq<SR.EndpointRef>, dispatch: SR.EndpointRef -> SR.DispatchOutcome, now: int)
    requires forall e :: e in refs ==> SR.ValidRef(reg, e)
    requires NoDup(refs)
    ensures forall e :: SR.ValidRef(reg, e) ==>
              && SR.ValidRef(DispatchAll(reg, refs, dispatch, now), e)
              && SR.At(DispatchAll(reg, refs, dispatch, now), e) ==
                   (if e in refs then SR.Dispatched(SR.At(reg, e), dispatch(e), now).0 else SR.At(reg, e))
    decreases |refs|
  {
    if |refs| > 0 {
      var init, last := refs[..|refs| - 1], refs[|refs| - 1];
      assert refs == init + [last];
      assert last !in init;
      assert NoDup(init);
      DispatchAllEffect(reg, init, dispatch, now);
    }
  }

  /** `sendFrameToClient` for every session in `ids`: a non-blocking send on each one's queue. */
  function Broadcast(m: CM.Manager, ids: seq<string>, f: Frame): (m': CM.Manager)
    requires CM.Inv(m)
    requires forall k :: k in ids ==> k in m.clients
    ensures CM.Inv(m') && m'.clients == m.clients && |m'.queues| == |m.queues|
    decreases |ids|
  {
    if |ids| == 0 then m
    else
      var prev := Broadcast(m, ids[..|ids| - 1], f);
      var q := prev.clients[ids[|ids| - 1]].queue;
      prev.(queues := CM.Offer(prev.queues, q, f))
  }

  /** A queue after a non-blocking send: one more frame if there was room, the same otherwise. */
  function Offered(ch: CM.Channel, f: Frame): CM.Channel {
    if |ch.buffer| < CM.SendCapacity then ch.(buffer := ch.buffer + [f]) else ch
  }

  /**
   * The queue of every listed session receives the frame once, unless it is
   * full, in which case that session alone misses it; no other queue changes.
   */
  lemma {:induction false} BroadcastEffect(m: CM.Manager, ids: seq<string>, f: Frame)
    requires CM.Inv(m)
    requires forall k :: k in ids ==> k in m.clients
    requires NoDup(ids)
    ensures forall q :: 0 <= q < |m.queues| ==>
              Broadcast(m, ids, f).queues[q] ==
                (if q in CM.QueuesOf(m, CM.Members(ids)) then Offered(m.queues[q], f) else m.queues[q])
    decreases |ids|
  {
    if |ids| > 0 {
      var init, last := ids[..|ids| - 1], ids[|ids| - 1];
      assert ids == init + [last];
      assert last !in init;
      assert NoDup(init);
      BroadcastEffect(m, init, f);
      var q := m.clients[last].queue;
      var before := CM.QueuesOf(m, CM.Members(init));
      assert CM.Members(ids) == CM.Members(init) + {last};
      assert CM.QueuesOf(m, CM.Members(ids)) == before + {q};
      assert q !in before by {
        forall x | x in m.clients && x in CM.Members(init)
          ensures m.clients[x].queue != q
        {
          assert x != last;
        }
      }
    }
  }

  /**
   * `processVideoFrames` taking the head of the queue and `handleVideoFrame`
   * on it: the frame and its bytes are counted, it is dispatched once to
   * every endpoint selected for it, and offered to every session following
   * its camera id. `order` is the session map's iteration order and
   * `dispatch` gives each endpoint exchange's outcome.
   */
  method ProcessNextFrame(g: Gateway, order: seq<string>, dispatch: SR.EndpointRef -> SR.DispatchOutcome, now: int)
    returns (g': Gateway)
    requires Valid(g) && |g.videoQueue| > 0
    requires Enumerates(order, g.clients.clients.Keys)
    ensures Valid(g')
    ensures g'.videoQueue == g.videoQueue[1..]
    ensures g'.stats == g.stats.(totalFrames := g.stats.totalFrames + 1,
                                 bytesProcessed := g.stats.bytesProcessed + |g.videoQueue[0].frameData|)
    ensures g'.clients.clients == g.clients.clients
    ensures g'.controlQueue == g.controlQueue && g'.bufferSize == g.bufferSize
    ensures forall r :: |SR.Endpoints(g'.services, r)| == |SR.Endpoints(g.services, r)|
    ensures forall e :: SR.ValidRef(g.services, e) ==>
              && SR.ValidRef(g'.services, e)
              && SR.At(g'.services, e) ==
                   (if e in SR.GetServicesForFrame(g.services, g.videoQueue[0])
                    then SR.Dispatched(SR.At(g.services, e), dispatch(e), now).0
                    else SR.At(g.services, e))
    ensures |g'.clients.queues| == |g.clients.queues|
    ensures forall q :: 0 <= q < |g.clients.queues| ==>
              g'.clients.queues[q] ==
                (if exists k :: k in g.clients.clients && g.clients.clients[k].queue == q && g.videoQueue[0].cameraId in g.clients.clients[k].channels
                 then Offered(g.clients.queues[q], g.videoQueue[0])
                 else g.clients.queues[q])
  {
    var f := g.videoQueue[0];
    var stats := g.stats.(totalFrames := g.stats.totalFrames + 1, bytesProcessed := g.stats.bytesProcessed + |f.frameData|);
    var refs := SR.GetServicesForFrame(g.services, f);
    assert NoDup(refs) by {
      SelectionNoDup(g.services, f);
    }
    var services := DispatchAll(g.services, refs, dispatch, now);
    DispatchAllEffect(g.services, refs, dispatch, now);
    var ids := CM.GetClientsByChannel(g.clients, f.cameraId, order);
    var clients := Broadcast(g.clients, ids, f);
    BroadcastEffect(g.clients, ids, f);
    forall q | 0 <= q < |g.clients.queues|
      ensures q in CM.QueuesOf(g.clients, CM.Members(ids)) <==>
              exists k :: k in g.clients.clients && g.clients.clients[k].queue == q && f.cameraId in g.clients.clients[k].channels
    {
      if exists k :: k in g.clients.clients && g.clients.clients[k].queue == q && f.cameraId in g.clients.clients[k].channels {
        var k :| k in g.clients.clients && g.clients.clients[k].queue == q && f.cameraId in g.clients.clients[k].channels;
        assert k in CM.Members(ids);
      }
    }
    g' := Gateway(g.bufferSize, clients, services, stats, g.videoQueue[1..], g.controlQueue);
  }

  lemma NoDupConcat<T>(a: seq<T>, b: seq<T>)
    requires NoDup(a) && NoDup(b)
    requires forall x :: x in a ==> x !in b
    ensures NoDup(a + b)
  {
    forall i, j | 0 <= i < j < |a + b|
      ensures (a + b)[i] != (a + b)[j]
    {
      if j >= |a| && i < |a| {
        assert (a + b)[i] == a[i] && (a + b)[j] == b[j - |a|];
        assert a[i] in a;
      } else if i >= |a| {
        assert (a + b)[i] == b[i - |a|] && (a + b)[j] == b[j - |a|];
      }
    }
  }

  lemma HealthyNoDup(reg: SR.Registry, r: SR.Role)
    ensures NoDup(SR.GetHealthyServices(reg, r))
    ensures forall e :: e in SR.GetHealthyServices(reg, r) ==> e.role == r
  {
  }

  /** The endpoints chosen for a frame are pairwise distinct. */
  lemma SelectionNoDup(reg: SR.Registry, f: Frame)
    ensures NoDup(SR.GetServicesForFrame(reg, f))
  {
    var v := SR.GetHealthyServices(reg, SR.VideoProcessing);
    var a := if Authenticated(f) then SR.GetHealthyServices(reg, SR.Analytics) else [];
    var s := SR.GetHealthyServices(reg, SR.Storage);
    HealthyNoDup(reg, SR.VideoProcessing);
    HealthyNoDup(reg, SR.Analytics);
    HealthyNoDup(reg, SR.Storage);
    NoDupConcat(v, a);
    assert forall x: SR.EndpointRef :: x in v + a ==> x.role != SR.Storage;
    NoDupConcat(v + a, s);
  }

  // ---------------------------------------------------------------------------
  // Control messages

  /** The control message kinds the switch recognises; their handlers only log. */
  datatype ControlAction = ClientConnect | ClientDisconnect | Subscribe | Unsubscribe | ServiceHealth

  function ActionTag(a: ControlAction): string {
    match a
    case ClientConnect => "client_connect"
    case ClientDisconnect => "client_disconnect"
    case Subscribe => "subscribe"
    case Unsubscribe => "unsubscribe"
    case ServiceHealth => "service_health"
  }

  /** `handleControlMessage`: the handler a message kind selects, if any. */
  function ControlDispatch(kind: string): (a: Option<ControlAction>)
    ensures a.Some? ==> ActionTag(a.value) == kind
  {
    match kind
    case "client_connect" => Some(ClientConnect)
    case "client_disconnect" => Some(ClientDisconnect)
    case "subscribe" => Some(Subscribe)
    case "unsubscribe" => Some(Unsubscribe)
    case "service_health" => Some(ServiceHealth)
    case _ => None
  }

  /** Exactly the five tags select a handler, each its own. */
  lemma ControlDispatchExact(a: ControlAction, kind: string)
    ensures ControlDispatch(ActionTag(a)) == Some(a)
    ensures ControlDispatch(kind).Some? <==>
              kind in {"client_connect", "client_disconnect", "subscribe", "unsubscribe", "service_health"}
  {
  }

  /**
   * `processControlMessages` taking the head of the control queue: the
   * message is consumed and, since every handler only logs, nothing else
   * changes; the "video_info" messages the video-info endpoint sends match
   * no case at all.
   */
  function ProcessNextControl(g: Gateway): (r: (Gateway, Option<ControlAction>))
    requires |g.controlQueue| > 0
    ensures r.0 == g.(controlQueue := g.controlQueue[1..])
    ensures r.1 == ControlDispatch(g.controlQueue[0].kind)
    ensures g.controlQueue[0].kind == "video_info" ==> r.1.None?
  {
    (g.(controlQueue := g.controlQueue[1..]), ControlDispatch(g.controlQueue[0].kind))
  }
}

=== FILE: gateway_handler.dfy ===
/**
 * The gateway's own HTTP and WebSocket handlers: frame ingestion over
 * HTTP, the health answer, WebSocket subscription commands, and the
 * client-address helpers they use.
 */
module GatewayHandler {
  import opened Wrappers
  import opened Enumeration
  import Text
  import opened Json
  import opened GatewayTypes
  import CM = ClientManager
  import SR = ServiceRegistry
  import opened Gateway

  // ---------------------------------------------------------------------------
  // Client address

  /**
   * `splitHostPort`: the address is cut at every ':'; exactly two pieces give
   * host and port, anything else gives the whole address as host and an
   * empty port.
   */
  function SplitHostPort(hostport: string): (r: (string, string))
    ensures Text.Occurrences(hostport, ':') == 1 ==> r.0 + ":" + r.1 == hostport && ':' !in r.0 && ':' !in r.1
    ensures Text.Occurrences(hostport, ':') != 1 ==> r == (hostport, "")
  {
    var parts := Text.Split(hostport, ':');
    Text.SplitCount(hostport, ':');
    if |parts| == 2 then
      Text.JoinSplit(hostport, ':');
      assert Text.Join(parts, ':') == parts[0] + [':'] + parts[1];
      (parts[0], parts[1])
    else (hostport, "")
  }

  /** Joining a colon-free host and port and splitting again gives them back. */
  lemma SplitHostPortJoin(host: string, port: string)
    requires ':' !in host && ':' !in port
    ensures SplitHostPort(host + ":" + port) == (host, port)
  {
    var parts := [host, port];
    Text.SplitJoin(parts, ':');
    assert Text.Join(parts, ':') == host + ":" + port;
  }

  /** A bracketed IPv6 address with a port has more than one ':' and is not split at all. */
  lemma IPv6NotSplit()
    ensures SplitHostPort("[::1]:8080") == ("[::1]:8080", "")
  {
    var s := "[::1]:8080";
    assert s == "[" + ":" + (":" + ("1]" + (":" + "8080")));
    Text.OccurrencesAppend("[", ":" + (":" + ("1]" + (":" + "8080"))), ':');
    Text.OccurrencesAppend(":", ":" + ("1]" + (":" + "8080")), ':');
    Text.OccurrencesAppend(":", "1]" + (":" + "8080"), ':');
  }

  /** `getIPAddress`: X-Forwarded-For, else X-Real-IP, else the host part of the remote address. */
  function GetIPAddress(forwardedFor: string, realIp: string, remoteAddr: string): (ip: string)
    ensures forwardedFor != "" ==> ip == forwardedFor
    ensures forwardedFor == "" && realIp != "" ==> ip == realIp
    ensures forwardedFor == "" && realIp == "" ==> ip == SplitHostPort(remoteAddr).0
  {
    if forwardedFor != "" then forwardedFor
    else if realIp != "" then realIp
    else SplitHostPort(remoteAddr).0
  }

  // ---------------------------------------------------------------------------
  // Frame ingestion

  /** What reading and decoding the body gave: a read error, undecodable JSON, or a frame. */
  datatype Body = ReadError | BadJson | Decoded(frame: Frame)

  datatype StreamRequest = StreamRequest(
    httpMethod: string,
    contentLength: int,
    body: Body,
    forwardedFor: string,
    realIp: string,
    remoteAddr: string)

  datatype StreamReply =
    | Rejected(code: int, message: string)
    | Accepted(frameId: string, services: nat)

  /**
   * `handleVideoStream`: the method must be POST (405), the declared length
   * at most `maxFrameSize` (413); a body that cannot be read or decoded, or
   * a frame without frame or camera id, is a 400. A rejected request leaves
   * the gateway as it was. An accepted frame gets the caller's address as
   * client id when it has none, counts as a request and is offered to the
   * video queue; the reply names the frame and the configured
   * video-processing endpoints.
   */
  function HandleVideoStream(g: Gateway, req: StreamRequest, maxFrameSize: int): (r: (StreamReply, Gateway))
    ensures r.0.Rejected? ==> r.1 == g
    ensures req.httpMethod != "POST" ==> r.0 == Rejected(405, "Method not allowed")
    ensures req.httpMethod == "POST" && req.contentLength > maxFrameSize ==> r.0 == Rejected(413, "Frame too large")
    ensures r.0.Accepted? <==>
              && req.httpMethod == "POST" && req.contentLength <= maxFrameSize
              && req.body.Decoded? && req.body.frame.frameId != "" && req.body.frame.cameraId != ""
    ensures r.0.Rejected? ==> r.0.code in {400, 405, 413}
    ensures r.0.Accepted? ==>
              var f := req.body.frame;
              var f' := if f.clientId == "" then f.(clientId := GetIPAddress(req.forwardedFor, req.realIp, req.remoteAddr)) else f;
              && r.0 == Accepted(f.frameId, |SR.Endpoints(g.services, SR.VideoProcessing)|)
              && r.1 == HandleVideoFrame(g.(stats := g.stats.(totalRequests := g.stats.totalRequests + 1)), f')
    ensures Valid(g) ==> Valid(r.1)
  {
    if req.httpMethod != "POST" then (Rejected(405, "Method not allowed"), g)
    else if req.contentLength > maxFrameSize then (Rejected(413, "Frame too large"), g)
    else match req.body
      case ReadError => (Rejected(400, "Failed to read request"), g)
      case BadJson => (Rejected(400, "Invalid JSON"), g)
      case Decoded(f) =>
        if f.frameId == "" || f.cameraId == "" then (Rejected(400, "Missing required fields"), g)
        else
          var f' := if f.clientId == "" then f.(clientId := GetIPAddress(req.forwardedFor, req.realIp, req.remoteAddr)) else f;
          var g1 := g.(stats := g.stats.(totalRequests := g.stats.totalRequests + 1));
          (Accepted(f.frameId, |SR.Endpoints(g.services, SR.VideoProcessing)|), HandleVideoFrame(g1, f'))
  }

  /** An accepted frame always carries a client id into the queue when the caller's address is known. */
  lemma AcceptedFrameHasClient(g: Gateway, req: StreamRequest, maxFrameSize: int)
    requires HandleVideoStream(g, req, maxFrameSize).0.Accepted?
    requires |g.videoQueue| < g.bufferSize
    requires req.forwardedFor != "" || req.realIp != "" || SplitHostPort(req.remoteAddr).0 != ""
    ensures var g' := HandleVideoStream(g, req, maxFrameSize).1;
            |g'.videoQueue| == |g.videoQueue| + 1 && g'.videoQueue[|g.videoQueue|].clientId != ""
  {
  }

  // ---------------------------------------------------------------------------
  // Recording notices

  /** The body of a recording notice; only the client and camera ids reach the control message. */
  datatype VideoInfo = VideoInfo(filename: string, cameraId: string, clientId: string, startTime: int, duration: int, size: int)

  /** What decoding the notice gave: nothing usable, or the notice. */
  datatype InfoBody = InfoBadJson | InfoDecoded(info: VideoInfo)

  /**
   * The reply to a notice. `InfoWaiting` is a request whose blocking send
   * found the control queue full: it waits, and nothing has happened yet.
   */
  datatype InfoReply = InfoRejected(code: int, message: string) | InfoReceived | InfoWaiting

  /**
   * `handleVideoInfo`: the method must be POST (405) and the body must
   * decode (400). The notice then becomes a "video_info" control message,
   * with the camera id as channel, sent on the control queue with a
   * blocking send; the reply is "Video info received".
   */
  function HandleVideoInfo(g: Gateway, httpMethod: string, body: InfoBody, now: int): (r: (InfoReply, Gateway))
    ensures !r.0.InfoReceived? ==> r.1 == g
    ensures httpMethod != "POST" ==> r.0 == InfoRejected(405, "Method not allowed")
    ensures httpMethod == "POST" && body.InfoBadJson? ==> r.0 == InfoRejected(400, "Invalid JSON")
    ensures r.0 == InfoWaiting <==> httpMethod == "POST" && body.InfoDecoded? && |g.controlQueue| >= ControlQueueCapacity
    ensures r.0 == InfoReceived <==> httpMethod == "POST" && body.InfoDecoded? && |g.controlQueue| < ControlQueueCapacity
    ensures r.0 == InfoReceived ==>
              && r.1.videoQueue == g.videoQueue && r.1.clients == g.clients
              && r.1.services == g.services && r.1.stats == g.stats
              && |r.1.controlQueue| == |g.controlQueue| + 1
              && r.1.controlQueue[..|g.controlQueue|] == g.controlQueue
              && r.1.controlQueue[|g.controlQueue|] ==
                 ControlMessage("video_info", body.info.clientId, body.info.cameraId, now)
    ensures Valid(g) ==> Valid(r.1)
  {
    if httpMethod != "POST" then (InfoRejected(405, "Method not allowed"), g)
    else match body
      case InfoBadJson => (InfoRejected(400, "Invalid JSON"), g)
      case InfoDecoded(info) =>
        if |g.controlQueue| >= ControlQueueCapacity then (InfoWaiting, g)
        else
          var m := ControlMessage("video_info", info.clientId, info.cameraId, now);
          (InfoReceived, g.(controlQueue := g.controlQueue + [m]))
  }

  /**
   * A notice is produced only to be dropped: on an empty control queue,
   * accepting a notice and then processing the next control message selects
   * no handler and gives back the gateway as it was.
   */
  lemma VideoInfoIsDiscarded(g: Gateway, info: VideoInfo, now: int)
    requires g.controlQueue == []
    ensures var (reply, g1) := HandleVideoInfo(g, "POST", InfoDecoded(info), now);
            && reply == InfoReceived
            && ProcessNextControl(g1) == (g, None)
  {
    var (reply, g1) := HandleVideoInfo(g, "POST", InfoDecoded(info), now);
    assert g1.controlQueue[1..] == [];
  }

  // ---------------------------------------------------------------------------
  // Health

  /** `handleHealth`: degraded once the video queue holds more than 90% (integer arithmetic) of its capacity. */
  function HealthStatus(g: Gateway): (s: string)
    ensures s == "degraded" <==> |g.videoQueue| > g.bufferSize * 90 / 100
    ensures s == "degraded" || s == "healthy"
  {
    if |g.videoQueue| > g.bufferSize * 90 / 100 then "degraded" else "healthy"
  }

  /** The truncated threshold is exact: degraded iff ten times the queue length exceeds nine times the capacity. */
  lemma DegradedExactly(g: Gateway)
    ensures HealthStatus(g) == "degraded" <==> 10 * |g.videoQueue| > 9 * g.bufferSize
  {
    var q := |g.videoQueue|;
    var b := g.bufferSize;
    var d := b * 90 / 100;
    assert 100 * d <= b * 90 < 100 * d + 100;
    if q > d {
      assert 10 * q >= 10 * d + 10;
    } else {
      assert 10 * q <= 10 * d;
    }
  }

  /** A full queue is degraded whenever it has any capacity; an empty one never is. */
  lemma FullIsDegraded(g: Gateway)
    ensures g.bufferSize > 0 && |g.videoQueue| == g.bufferSize ==> HealthStatus(g) == "degraded"
    ensures |g.videoQueue| == 0 ==> HealthStatus(g) == "healthy"
  {
    DegradedExactly(g);
  }

  // ---------------------------------------------------------------------------
  // WebSocket commands

  /** A text reply written back on the socket. */
  datatype WsReply = Subscribed(channel: string) | Pong

  /**
   * `handleWebSocketCommand` for the session `connId`. `command` is the
   * decoded message (nil when it did not decode). Without a string
   * `action` nothing happens. "subscribe" and "unsubscribe" need a string
   * `channel`; subscribing replies even when the session is unknown (the
   * error is dropped), unsubscribing never replies; "ping" replies "pong";
   * any other action is ignored.
   */
  function HandleWebSocketCommand(g: Gateway, connId: string, command: JsonObject, now: int): (r: (Gateway, Option<WsReply>))
    requires Valid(g)
    ensures Valid(r.0)
    ensures r.0.videoQueue == g.videoQueue && r.0.stats == g.stats && r.0.services == g.services
    ensures r.0.clients.clients.Keys == g.clients.clients.Keys
    ensures r.1.Some? <==>
              && Lookup(command, "action").Some? && Lookup(command, "action").value.JString?
              && (|| Lookup(command, "action").value.s == "ping"
                  || (&& Lookup(command, "action").value.s == "subscribe"
                      && Lookup(command, "channel").Some? && Lookup(command, "channel").value.JString?))
    ensures r.1 == Some(Pong) <==> Lookup(command, "action") == Some(JString("ping"))
    ensures r.1.Some? && r.1.value.Subscribed? ==>
              Lookup(command, "action") == Some(JString("subscribe")) && Lookup(command, "channel") == Some(JString(r.1.value.channel))
    ensures connId !in g.clients.clients ==> r.0 == g
    ensures r.0 != g ==>
              && connId in g.clients.clients
              && Lookup(command, "channel").Some? && Lookup(command, "channel").value.JString?
              && var ch := Lookup(command, "channel").value.s;
                 var s := g.clients.clients[connId];
                 && (Lookup(command, "action") == Some(JString("subscribe")) || Lookup(command, "action") == Some(JString("unsubscribe")))
                 && r.0.clients.clients[connId] ==
                    s.(channels := if Lookup(command, "action") == Some(JString("subscribe")) then s.channels + {ch} else s.channels - {ch},
                       lastSeen := now)
  {
    match Lookup(command, "action")
    case Some(JString(action)) =>
      if action == "subscribe" then
        match Lookup(command, "channel")
        case Some(JString(ch)) =>
          var m := CM.SubscribeClient(g.clients, connId, ch, now);
          (if m.Ok? then g.(clients := m.value) else g, Some(Subscribed(ch)))
        case _ => (g, None)
      else if action == "unsubscribe" then
        match Lookup(command, "channel")
        case Some(JString(ch)) =>
          var m := CM.UnsubscribeClient(g.clients, connId, ch, now);
          (if m.Ok? then g.(clients := m.value) else g, None)
        case _ => (g, None)
      else if action == "ping" then (g, Some(Pong))
      else (g, None)
    case _ => (g, None)
  }

  /**
   * One message read by `readWebSocketMessages` for the session whose record
   * is registered as `connId` with queue `queue`: the read stamps that
   * record's `LastSeen` (see `Touch`), and a text message is then handled as
   * a command, which looks the session up by `connId` alone; other message
   * types are only read.
   */
  function ReadWebSocketMessage(g: Gateway, connId: string, queue: nat, isText: bool, command: JsonObject, now: int)
    : (r: (Gateway, Option<WsReply>))
    requires Valid(g)
    ensures Valid(r.0)
    ensures r.0.videoQueue == g.videoQueue && r.0.stats == g.stats && r.0.services == g.services
    ensures r.0.clients.clients.Keys == g.clients.clients.Keys
    ensures connId in g.clients.clients && g.clients.clients[connId].queue == queue ==>
              r.0.clients.clients[connId].lastSeen == now
    ensures !isText && (connId !in g.clients.clients || g.clients.clients[connId].queue != queue) ==> r == (g, None)
    ensures forall k :: k in g.clients.clients && k != connId ==> r.0.clients.clients[k] == g.clients.clients[k]
    ensures !isText ==> r == (g.(clients := CM.Touch(g.clients, connId, queue, now)), None)
    ensures isText ==> r == HandleWebSocketCommand(g.(clients := CM.Touch(g.clients, connId, queue, now)), connId, command, now)
  {
    var g1 := g.(clients := CM.Touch(g.clients, connId, queue, now));
    if isText then HandleWebSocketCommand(g1, connId, command, now) else (g1, None)
  }

  /**
   * A session that only pings stays registered: a ping read at `now`
   * refreshes it, so a cleanup at the same time with any non-negative
   * timeout keeps it.
   */
  method PingKeepsSessionAlive(g: Gateway, connId: string, order: seq<string>, now: int, timeout: int)
    returns (m: CM.Manager, reply: Option<WsReply>)
    requires Valid(g) && connId in g.clients.clients && timeout >= 0
    requires Enumerates(order, g.clients.clients.Keys)
    ensures reply == Some(Pong)
    ensures connId in m.clients && m.clients[connId].lastSeen == now
  {
    var command: JsonObject := Some(map["action" := JString("ping")]);
    assert Lookup(command, "action") == Some(JString("ping"));
    var r := ReadWebSocketMessage(g, connId, g.clients.clients[connId].queue, true, command, now);
    reply := r.1;
    m := CM.CleanupInactiveClients(r.0.clients, order, now, timeout);
  }

  /** A subscribe command from a registered session puts the session on the channel, and it then shows up for it. */
  lemma SubscribeCommandRegisters(g: Gateway, connId: string, ch: string, now: int)
    requires Valid(g) && connId in g.clients.clients
    ensures var command: JsonObject := Some(map["action" := JString("subscribe"), "channel" := JString(ch)]);
            var r := HandleWebSocketCommand(g, connId, command, now);
            && r.1 == Some(Subscribed(ch))
            && ch in r.0.clients.clients[connId].channels
  {
    var command: JsonObject := Some(map["action" := JString("subscribe"), "channel" := JString(ch)]);
    assert Lookup(command, "action") == Some(JString("subscribe"));
    assert Lookup(command, "channel") == Some(JString(ch));
  }
}

=== FILE: gateway_types.dfy ===
/**
 * The records the gateway stack passes around: a video frame as the HTTP
 * handler decodes it and the per-connection client data
 * (`internal/types/types.go`, `internal/gateway/client_manager.go`).
 */
module GatewayTypes {
  import opened Wrappers

  datatype ClientData = ClientData(
    userId: string,
    sessionId: string,
    device: string,
    location: string,
    authenticated: bool,
    roles: seq<string>,
    metadata: map<string, string>)

  /** A frame; `frameData` holds one char per byte and `clientData` may be nil. */
  datatype Frame = Frame(
    frameId: string,
    frameData: string,
    timestamp: int,
    cameraId: string,
    clientId: string,
    width: int,
    height: int,
    format: string,
    metadata: map<string, string>,
    clientData: Option<ClientData>)

  /** The client data a frame authenticates with, if any. */
  predicate Authenticated(f: Frame) {
    f.clientData.Some? && f.clientData.value.authenticated
  }
}

=== FILE: json_value.dfy ===
/**
 * Decoded JSON values as the handlers see them through `interface{}`, and
 * the typed lookups with defaults (`getStringFromMap`, `getIntFromMap`,
 * `getInt64FromMap`). A JSON number decodes to a float64; it is represented
 * here by the integer the Go conversion truncates it to.
 */
module Json {
  import opened Wrappers

  datatype JsonValue =
    | JString(s: string)
    | JFloat(truncated: int)
    | JInt(i: int)
    | JInt64(i: int)
    | JBool(b: bool)
    | JNull
    | JOther

  /** A decoded object; `None` is a nil map. */
  type JsonObject = Option<map<string, JsonValue>>

  /** The value stored under `key`, if the map exists and has it. */
  function Lookup(m: JsonObject, key: string): (v: Option<JsonValue>)
    ensures v.Some? <==> m.Some? && key in m.value
    ensures v.Some? ==> v.value == m.value[key]
  {
    if m.Some? && key in m.value then Some(m.value[key]) else None
  }

  /** `getStringFromMap`: the string under `key`, or the default for a nil map, a missing key or a non-string. */
  function GetString(m: JsonObject, key: string, default: string): (s: string)
    ensures Lookup(m, key).Some? && Lookup(m, key).value.JString? ==> s == Lookup(m, key).value.s
    ensures !(Lookup(m, key).Some? && Lookup(m, key).value.JString?) ==> s == default
  {
    match Lookup(m, key)
    case Some(JString(v)) => v
    case _ => default
  }

  /** `getIntFromMap`: a number (truncated) or an `int`, otherwise the default; an `int64` is not accepted. */
  function GetInt(m: JsonObject, key: string, default: int): (i: int)
    ensures Lookup(m, key) == None ==> i == default
    ensures Lookup(m, key).Some? ==>
              i == (match Lookup(m, key).value
                    case JFloat(t) => t
                    case JInt(v) => v
                    case _ => default)
  {
    match Lookup(m, key)
    case Some(JFloat(t)) => t
    case Some(JInt(v)) => v
    case _ => default
  }

  /** `getInt64FromMap`: as `GetInt`, and an `int64` is accepted too. */
  function GetInt64(m: JsonObject, key: string, default: int): (i: int)
    ensures Lookup(m, key) == None ==> i == default
    ensures Lookup(m, key).Some? ==>
              i == (match Lookup(m, key).value
                    case JFloat(t) => t
                    case JInt64(v) => v
                    case JInt(v) => v
                    case _ => default)
  {
    match Lookup(m, key)
    case Some(JFloat(t)) => t
    case Some(JInt64(v)) => v
    case Some(JInt(v)) => v
    case _ => default
  }

  /** The two integer lookups differ on exactly one kind of value: an `int64`. */
  lemma IntLookupsAgreeExceptInt64(m: JsonObject, key: string, default: int)
    ensures GetInt(m, key, default) != GetInt64(m, key, default) ==>
              Lookup(m, key).Some? && Lookup(m, key).value.JInt64?
  {
  }

  /** Go's `int32(x)` conversion: the value modulo 2^32, read as signed. */
  function WrapInt32(x: int): (r: int)
    ensures -0x8000_0000 <= r < 0x8000_0000
    ensures (r - x) % 0x1_0000_0000 == 0
    ensures -0x8000_0000 <= x < 0x8000_0000 ==> r == x
  {
    var u := x % 0x1_0000_0000;
    if u >= 0x8000_0000 then u - 0x1_0000_0000 else u
  }

  /** A width above the int32 range wraps around: 2^31 becomes -2^31. */
  lemma WrapExample()
    ensures WrapInt32(0x8000_0000) == -0x8000_0000
    ensures WrapInt32(1920) == 1920
  {
  }
}

=== FILE: service_registry.dfy ===
/**
 * The gateway's downstream service registry (`ServiceRegistry`): endpoints
 * per role built from the configured URLs, selection of healthy endpoints
 * for a frame, per-endpoint request statistics, and the health flag as
 * dispatch results and probes move it. HTTP exchanges are outcome inputs.
 */
module ServiceRegistry {
  import opened Wrappers
  import Text
  import opened GatewayTypes

  datatype Role = VideoProcessing | Analytics | Storage | Notification

  /** The key a role is stored under in the source's map. */
  function RoleKey(r: Role): string {
    match r
    case VideoProcessing => "video_processing"
    case Analytics => "analytics"
    case Storage => "storage"
    case Notification => "notification"
  }

  /** The prefix of the endpoint ids of a role. */
  function IdPrefix(r: Role): (p: string)
    ensures |p| > 0
  {
    match r
    case VideoProcessing => "video"
    case Analytics => "analytics"
    case Storage => "storage"
    case Notification => "notification"
  }

  /** Counters of one endpoint; durations are integers in the source's unit. */
  datatype ServiceStats = ServiceStats(totalRequests: int, successCount: int, errorCount: int, lastResponse: int, averageTime: int)

  datatype Endpoint = Endpoint(id: string, url: string, kind: string, priority: int, healthy: bool, lastCheck: int, stats: ServiceStats)

  datatype Registry = Registry(video: seq<Endpoint>, analytics: seq<Endpoint>, storage: seq<Endpoint>, notification: seq<Endpoint>)

  /** The per-role URL lists of the configuration. */
  datatype ServiceUrls = ServiceUrls(video: seq<string>, analytics: seq<string>, storage: seq<string>, notification: seq<string>)

  function Endpoints(reg: Registry, r: Role): seq<Endpoint> {
    match r
    case VideoProcessing => reg.video
    case Analytics => reg.analytics
    case Storage => reg.storage
    case Notification => reg.notification
  }

  function WithEndpoints(reg: Registry, r: Role, eps: seq<Endpoint>): (reg': Registry)
    ensures Endpoints(reg', r) == eps
    ensures forall r' :: r' != r ==> Endpoints(reg', r') == Endpoints(reg, r')
  {
    match r
    case VideoProcessing => reg.(video := eps)
    case Analytics => reg.(analytics := eps)
    case Storage => reg.(storage := eps)
    case Notification => reg.(notification := eps)
  }

  function Urls(cfg: ServiceUrls, r: Role): seq<string> {
    match r
    case VideoProcessing => cfg.video
    case Analytics => cfg.analytics
    case Storage => cfg.storage
    case Notification => cfg.notification
  }

  /** An endpoint named by its role and position, standing for the source's endpoint pointer. */
  datatype EndpointRef = EndpointRef(role: Role, index: nat)

  predicate ValidRef(reg: Registry, e: EndpointRef) {
    e.index < |Endpoints(reg, e.role)|
  }

  function At(reg: Registry, e: EndpointRef): Endpoint
    requires ValidRef(reg, e)
  {
    Endpoints(reg, e.role)[e.index]
  }

  // ---------------------------------------------------------------------------
  // Initialisation

  const ZeroStats := ServiceStats(0, 0, 0, 0, 0)

  /** `<prefix>_<i>`: the id of the i-th endpoint of a role. */
  function EndpointId(r: Role, i: nat): string {
    IdPrefix(r) + "_" + Text.NatToDecimal(i)
  }

  /** The endpoints of one role: the i-th URL gets id `<prefix>_<i>`, priority i, and starts healthy. */
  function InitRole(r: Role, urls: seq<string>, now: int): (eps: seq<Endpoint>)
    ensures |eps| == |urls|
    ensures forall i :: 0 <= i < |urls| ==>
              eps[i] == Endpoint(EndpointId(r, i), urls[i], "http", i, true, now, ZeroStats)
  {
    seq(|urls|, i requires 0 <= i < |urls| => Endpoint(EndpointId(r, i), urls[i], "http", i, true, now, ZeroStats))
  }

  /** `initializeServices`: every role's endpoints from its configured URLs, in configured order. */
  function InitializeServices(cfg: ServiceUrls, now: int): (reg: Registry)
    ensures forall r :: Endpoints(reg, r) == InitRole(r, Urls(cfg, r), now)
  {
    Registry(InitRole(VideoProcessing, cfg.video, now), InitRole(Analytics, cfg.analytics, now),
             InitRole(Storage, cfg.storage, now), InitRole(Notification, cfg.notification, now))
  }

  /** Distinct positions, or distinct roles, give distinct ids. */
  lemma EndpointIdsDistinct(r1: Role, i: nat, r2: Role, j: nat)
    requires r1 != r2 || i != j
    ensures EndpointId(r1, i) != EndpointId(r2, j)
  {
    var a, b := EndpointId(r1, i), EndpointId(r2, j);
    if r1 != r2 {
      assert a[0] != b[0];
    } else if a == b {
      var n := |IdPrefix(r1)| + 1;
      assert a[n..] == Text.NatToDecimal(i);
      assert b[n..] == Text.NatToDecimal(j);
      Text.NatToDecimalInjective(i, j);
    }
  }

  /** A freshly initialised registry holds no two endpoints with the same id. */
  lemma InitializedIdsUnique(cfg: ServiceUrls, now: int, e1: EndpointRef, e2: EndpointRef)
    requires ValidRef(InitializeServices(cfg, now), e1) && ValidRef(InitializeServices(cfg, now), e2)
    requires e1 != e2
    ensures At(InitializeServices(cfg, now), e1).id != At(InitializeServices(cfg, now), e2).id
  {
    EndpointIdsDistinct(e1.role, e1.index, e2.role, e2.index);
  }

  // ---------------------------------------------------------------------------
  // Selection

  /** Positions of the healthy endpoints among `eps`, in configured order. */
  function HealthyIndices(eps: seq<Endpoint>): (ix: seq<nat>)
    ensures forall k :: 0 <= k < |ix| ==> ix[k] < |eps| && eps[ix[k]].healthy
    ensures forall i :: 0 <= i < |eps| && eps[i].healthy ==> i in ix
    ensures forall k, l :: 0 <= k < l < |ix| ==> ix[k] < ix[l]
    decreases |eps|
  {
    if |eps| == 0 then []
    else
      var rest := HealthyIndices(eps[..|eps| - 1]);
      if eps[|eps| - 1].healthy then rest + [|eps| - 1] else rest
  }

  function RefsOf(r: Role, ix: seq<nat>): (refs: seq<EndpointRef>)
    ensures |refs| == |ix|
    ensures forall k :: 0 <= k < |ix| ==> refs[k] == EndpointRef(r, ix[k])
  {
    seq(|ix|, k requires 0 <= k < |ix| => EndpointRef(r, ix[k]))
  }

  /** `getHealthyServices`: the healthy endpoints of a role, in configured order. */
  function GetHealthyServices(reg: Registry, r: Role): (refs: seq<EndpointRef>)
    ensures forall e :: e in refs <==> e.role == r && ValidRef(reg, e) && At(reg, e).healthy
    ensures forall k, l :: 0 <= k < l < |refs| ==> refs[k].index < refs[l].index
  {
    var refs := RefsOf(r, HealthyIndices(Endpoints(reg, r)));
    assert forall e: EndpointRef :: e.role == r && ValidRef(reg, e) && At(reg, e).healthy ==> e in refs by {
      forall e: EndpointRef | e.role == r && ValidRef(reg, e) && At(reg, e).healthy
        ensures e in refs
      {
        var ix := HealthyIndices(Endpoints(reg, r));
        var k :| 0 <= k < |ix| && ix[k] == e.index;
        assert refs[k] == e;
      }
    }
    refs
  }

  /**
   * `GetServicesForFrame`: the healthy video-processing endpoints, then the
   * healthy analytics endpoints only for an authenticated frame, then the
   * healthy storage endpoints. Notification endpoints are never chosen.
   */
  function GetServicesForFrame(reg: Registry, f: Frame): (refs: seq<EndpointRef>)
    ensures forall e :: e in refs <==>
              && ValidRef(reg, e) && At(reg, e).healthy
              && (e.role == VideoProcessing || e.role == Storage || (e.role == Analytics && Authenticated(f)))
    ensures refs == GetHealthyServices(reg, VideoProcessing)
                    + (if Authenticated(f) then GetHealthyServices(reg, Analytics) else [])
                    + GetHealthyServices(reg, Storage)
  {
    GetHealthyServices(reg, VideoProcessing)
      + (if Authenticated(f) then GetHealthyServices(reg, Analytics) else [])
      + GetHealthyServices(reg, Storage)
  }

  // ---------------------------------------------------------------------------
  // Statistics

  /** Go's integer division, which truncates toward zero. */
  function Quot(a: int, b: int): (q: int)
    requires b > 0
    ensures a >= 0 ==> q == a / b
    ensures a < 0 ==> q == -((-a) / b)
  {
    if a >= 0 then a / b else -((-a) / b)
  }

  predicate InInt64(x: int) {
    -0x8000_0000_0000_0000 <= x < 0x8000_0000_0000_0000
  }

  /** Go's int64 arithmetic (`time.Duration`): the value in int64 range congruent to `x` mod 2^64. */
  function WrapInt64(x: int): (r: int)
    ensures InInt64(r)
    ensures (r - x) % 0x1_0000_0000_0000_0000 == 0
    ensures InInt64(x) ==> r == x
  {
    var u := x % 0x1_0000_0000_0000_0000;
    if u >= 0x8000_0000_0000_0000 then u - 0x1_0000_0000_0000_0000 else u
  }

  /**
   * `updateServiceStats`: one more request, counted as a success or an
   * error, and the running average recomputed whenever any success has been
   * recorded, on failures too. The running total `average * (successes - 1)
   * + latency` is a `time.Duration` product and wraps at 2^63.
   */
  function UpdateServiceStats(s: ServiceStats, success: bool, rt: int): (s': ServiceStats)
    ensures s'.totalRequests == s.totalRequests + 1
    ensures success ==> s'.successCount == s.successCount + 1 && s'.errorCount == s.errorCount
    ensures !success ==> s'.errorCount == s.errorCount + 1 && s'.successCount == s.successCount
    ensures s'.lastResponse == rt
    ensures s'.successCount <= 0 ==> s'.averageTime == s.averageTime
    ensures s'.successCount > 0 ==>
              s'.averageTime == Quot(WrapInt64(s.averageTime * (s'.successCount - 1) + rt), s'.successCount)
    ensures s'.successCount > 0 && InInt64(s.averageTime * (s'.successCount - 1) + rt) ==>
              s'.averageTime == Quot(s.averageTime * (s'.successCount - 1) + rt, s'.successCount)
  {
    var counted := if success then s.(successCount := s.successCount + 1) else s.(errorCount := s.errorCount + 1);
    var s1 := counted.(totalRequests := s.totalRequests + 1, lastResponse := rt);
    if s1.successCount > 0 then
      s1.(averageTime := Quot(WrapInt64(s1.averageTime * (s1.successCount - 1) + rt), s1.successCount))
    else s1
  }

  /**
   * The running total overflows long before the counters do: with a
   * 10-second average (failures can push it there) and 10^9 successes, one
   * more 10-second success wraps the total and the average turns negative.
   */
  lemma AverageWrapsNegative()
    ensures var s := ServiceStats(1_000_000_000, 1_000_000_000, 0, 10_000_000_000, 10_000_000_000);
            UpdateServiceStats(s, true, 10_000_000_000).averageTime == -8_446_744_055
  {
    assert 10_000_000_000 * 1_000_000_000 + 10_000_000_000 == 10_000_000_010_000_000_000;
    assert WrapInt64(10_000_000_010_000_000_000) == -8_446_744_063_709_551_616;
  }

  predicate CountersAgree(s: ServiceStats) {
    s.totalRequests == s.successCount + s.errorCount
  }

  /** Every update keeps the total equal to successes plus errors. */
  lemma UpdateKeepsCounters(s: ServiceStats, success: bool, rt: int)
    requires CountersAgree(s)
    ensures CountersAgree(UpdateServiceStats(s, success, rt))
  {
  }

  /**
   * The average is meant to be over successful calls, yet a failure
   * replaces it: after one 10-unit success, a failed 1000-unit call sets
   * the average to 1000.
   */
  lemma FailureMovesAverage()
    ensures UpdateServiceStats(ServiceStats(1, 1, 0, 10, 10), false, 1000).averageTime == 1000
  {
  }

  // ---------------------------------------------------------------------------
  // Dispatch and probes

  /** The ways a dispatch can end, as seen by the registry. */
  datatype DispatchOutcome =
    | MarshalFailed(err: string)
    | RequestBuildFailed(err: string)
    | TransportError(err: string, elapsed: int)
    | Response(status: int, elapsed: int)

  predicate Is2xx(status: int) {
    200 <= status < 300
  }

  function UpdateAt(reg: Registry, e: EndpointRef, ep: Endpoint): (reg': Registry)
    requires ValidRef(reg, e)
    ensures ValidRef(reg', e) && At(reg', e) == ep
    ensures forall r :: |Endpoints(reg', r)| == |Endpoints(reg, r)|
    ensures forall e' :: ValidRef(reg, e') && e' != e ==> ValidRef(reg', e') && At(reg', e') == At(reg, e')
  {
    WithEndpoints(reg, e.role, Endpoints(reg, e.role)[e.index := ep])
  }

  /**
   * One dispatch's effect on its endpoint and the error it returns: a
   * marshal or request-build failure records an error with zero time and
   * leaves the health flag alone; a transport error or non-2xx status
   * records an error and marks the endpoint unhealthy; a 2xx status records
   * a success and marks it healthy.
   */
  function Dispatched(ep: Endpoint, outcome: DispatchOutcome, now: int): (r: (Endpoint, Option<string>))
    ensures r.1.None? <==> outcome.Response? && Is2xx(outcome.status)
    ensures r.0.healthy == (match outcome
                            case MarshalFailed(_) => ep.healthy
                            case RequestBuildFailed(_) => ep.healthy
                            case TransportError(_, _) => false
                            case Response(status, _) => Is2xx(status))
    ensures r.0.stats == UpdateServiceStats(ep.stats, r.1.None?,
                           if outcome.Response? || outcome.TransportError? then outcome.elapsed else 0)
    ensures r.0 == ep.(healthy := r.0.healthy, stats := r.0.stats, lastCheck := now)
  {
    match outcome
    case MarshalFailed(err) =>
      (ep.(stats := UpdateServiceStats(ep.stats, false, 0), lastCheck := now),
       Some("failed to marshal frame: " + err))
    case RequestBuildFailed(err) =>
      (ep.(stats := UpdateServiceStats(ep.stats, false, 0), lastCheck := now),
       Some("failed to create request: " + err))
    case TransportError(err, elapsed) =>
      (ep.(stats := UpdateServiceStats(ep.stats, false, elapsed), lastCheck := now, healthy := false),
       Some("failed to send to service " + ep.url + ": " + err))
    case Response(status, elapsed) =>
      if Is2xx(status) then
        (ep.(stats := UpdateServiceStats(ep.stats, true, elapsed), lastCheck := now, healthy := true), None)
      else
        (ep.(stats := UpdateServiceStats(ep.stats, false, elapsed), lastCheck := now, healthy := false),
         Some("service " + ep.url + " returned error status: " + Text.IntToDecimal(status)))
  }

  /** `SendToService` given the outcome of the exchange: only the dispatched endpoint changes. */
  function SendToService(reg: Registry, e: EndpointRef, outcome: DispatchOutcome, now: int): (r: (Registry, Option<string>))
    requires ValidRef(reg, e)
    ensures ValidRef(r.0, e)
    ensures forall rl :: |Endpoints(r.0, rl)| == |Endpoints(reg, rl)|
    ensures forall e' :: ValidRef(reg, e') && e' != e ==> ValidRef(r.0, e') && At(r.0, e') == At(reg, e')
    ensures (At(r.0, e), r.1) == Dispatched(At(reg, e), outcome, now)
  {
    var (ep, err) := Dispatched(At(reg, e), outcome, now);
    (UpdateAt(reg, e, ep), err)
  }

  /** The ways a health probe can end. */
  datatype ProbeOutcome = ProbeBuildFailed | ProbeTransportError | ProbeStatus(status: int)

  /** `checkEndpointHealth`: healthy only for status exactly 200. */
  predicate ProbeHealthy(p: ProbeOutcome) {
    p == ProbeStatus(200)
  }

  function ProbeRole(r: Role, eps: seq<Endpoint>, probe: EndpointRef -> ProbeOutcome, now: int): (eps': seq<Endpoint>)
    ensures |eps'| == |eps|
    ensures forall i :: 0 <= i < |eps| ==>
              eps'[i] == eps[i].(healthy := ProbeHealthy(probe(EndpointRef(r, i))), lastCheck := now)
  {
    seq(|eps|, i requires 0 <= i < |eps| => eps[i].(healthy := ProbeHealthy(probe(EndpointRef(r, i))), lastCheck := now))
  }

  /**
   * `CheckHealth`: every endpoint's flag becomes its probe's verdict and its
   * last check is stamped; counters are not touched.
   */
  function CheckHealth(reg: Registry, probe: EndpointRef -> ProbeOutcome, now: int): (reg': Registry)
    ensures forall r :: |Endpoints(reg', r)| == |Endpoints(reg, r)|
    ensures forall e :: ValidRef(reg, e) ==>
              && At(reg', e).healthy == ProbeHealthy(probe(e))
              && At(reg', e).lastCheck == now
              && At(reg', e) == At(reg, e).(healthy := At(reg', e).healthy, lastCheck := now)
  {
    Registry(ProbeRole(VideoProcessing, reg.video, probe, now), ProbeRole(Analytics, reg.analytics, probe, now),
             ProbeRole(Storage, reg.storage, probe, now), ProbeRole(Notification, reg.notification, probe, now))
  }

  /**
   * The two health rules disagree on a 2xx answer other than 200: a 204
   * reply to a dispatch marks the endpoint healthy, while a 204 reply to a
   * probe marks it unhealthy.
   */
  lemma HealthRulesDiffer(reg: Registry, e: EndpointRef, now: int)
    requires ValidRef(reg, e)
    ensures At(SendToService(reg, e, Response(204, 1), now).0, e).healthy
    ensures !At(CheckHealth(reg, _ => ProbeStatus(204), now), e).healthy
  {
  }

  /** After a probe round, the endpoints selected for any frame are exactly those whose probe answered 200, by role. */
  lemma SelectionAfterProbe(reg: Registry, probe: EndpointRef -> ProbeOutcome, now: int, f: Frame, e: EndpointRef)
    ensures e in GetServicesForFrame(CheckHealth(reg, probe, now), f) <==>
              && ValidRef(reg, e) && ProbeHealthy(probe(e))
              && (e.role == VideoProcessing || e.role == Storage || (e.role == Analytics && Authenticated(f)))
  {
  }
}

=== FILE: stream_handler.dfy ===
/**
 * The HTTP handler in front of the stream service (`VideoStreamHandler`):
 * request defaulting for stream start, the JSON and multipart frame paths,
 * stop, and the all-statistics totals. Requests arrive already decoded;
 * `unix` and `nanos` are the clock readings the handler makes.
 */
module StreamHandler {
  import opened Wrappers
  import opened Enumeration
  import Text
  import opened Json
  import opened Api
  import opened StreamRepository
  import opened UserClient
  import SS = StreamService

  /**
   * The status code of a reply and the fields the modelled properties talk
   * about; `streamId` is the top-level `stream_id` field, empty for replies
   * that carry none.
   */
  datatype HttpReply = HttpReply(code: int, status: string, streamId: string)

  // ---------------------------------------------------------------------------
  // Stream start

  /**
   * The defaults `StartStream` fills in: a client id from the clock, the
   * user id from the (possibly defaulted) client id, a camera name, and a
   * file name from the client id and the clock.
   */
  function StartStreamDefaults(req: SS.StartStreamRequest, unix: int): (r: SS.StartStreamRequest)
    ensures r.clientId == (if req.clientId == "" then "client_" + Text.IntToDecimal(unix) else req.clientId)
    ensures r.userId == (if req.userId == "" then r.clientId else req.userId)
    ensures r.cameraName == (if req.cameraName == "" then "default_camera" else req.cameraName)
    ensures r.filename == (if req.filename == "" then "stream_" + r.clientId + "_" + Text.IntToDecimal(unix) + ".mp4" else req.filename)
    ensures r.clientId != "" && r.userId != "" && r.cameraName != "" && r.filename != ""
  {
    var clientId := if req.clientId == "" then "client_" + Text.IntToDecimal(unix) else req.clientId;
    var userId := if req.userId == "" then clientId else req.userId;
    var cameraName := if req.cameraName == "" then "default_camera" else req.cameraName;
    var filename := if req.filename == "" then "stream_" + clientId + "_" + Text.IntToDecimal(unix) + ".mp4" else req.filename;
    SS.StartStreamRequest(clientId, userId, cameraName, filename)
  }

  /** Defaulting is idempotent: a request it produced is left as it is. */
  lemma StartStreamDefaultsIdempotent(req: SS.StartStreamRequest, t1: int, t2: int)
    ensures StartStreamDefaults(StartStreamDefaults(req, t1), t2) == StartStreamDefaults(req, t1)
  {
  }

  /**
   * `StartStream` over HTTP: an undecodable body is a 400; the defaulted
   * request goes to the service; a service error is a 500, and so is a
   * panic, which the router's recovery middleware turns into one.
   */
  function HandleStartStream(svc: SS.Service, us: UserService, body: Option<SS.StartStreamRequest>, unix: int, nanos: int, now: int)
    : (r: (HttpReply, SS.Service))
    ensures body.None? ==> r == (HttpReply(400, "", ""), svc)
    ensures body.Some? ==>
              var o := SS.StartStream(svc, us, StartStreamDefaults(body.value, unix), nanos, now);
              && r.1 == o.svc
              && (r.0.code == 200 <==> o.result.Started?)
              && (o.result.Started? ==> r.0.streamId == o.result.response.streamId && r.0.status == "ok")
              && (!o.result.Started? ==> r.0.code == 500)
  {
    match body
    case None => (HttpReply(400, "", ""), svc)
    case Some(req) =>
      var o := SS.StartStream(svc, us, StartStreamDefaults(req, unix), nanos, now);
      match o.result
      case Started(resp) => (HttpReply(200, "ok", resp.streamId), o.svc)
      case StartFailed(_) => (HttpReply(500, "", ""), o.svc)
      case StartPanicked => (HttpReply(500, "", ""), o.svc)
  }

  // ---------------------------------------------------------------------------
  // Frames

  /** The decoded body of a JSON frame request; `frame` is nil when absent. */
  datatype JsonFrameRequest = JsonFrameRequest(streamId: string, clientId: string, userName: string, frame: JsonObject)

  /** The stream id, client id and user name a frame request ends up with. */
  datatype Routing = Routing(streamId: string, clientId: string, userName: string)

  /**
   * Ids for a frame: only when the stream id is empty is the client id
   * defaulted to `<prefix>_<unix>` (if empty too) and the stream id built as
   * `stream_<client>_<nanos>`; a given stream id leaves the client id as sent.
   */
  function FrameIds(streamId: string, clientId: string, prefix: string, unix: int, nanos: int): (r: (string, string))
    ensures streamId != "" ==> r == (streamId, clientId)
    ensures streamId == "" ==>
              && r.1 == (if clientId == "" then prefix + "_" + Text.IntToDecimal(unix) else clientId)
              && r.0 == "stream_" + r.1 + "_" + Text.IntToDecimal(nanos)
    ensures r.0 != ""
  {
    if streamId != "" then (streamId, clientId)
    else
      var c := if clientId == "" then prefix + "_" + Text.IntToDecimal(unix) else clientId;
      ("stream_" + c + "_" + Text.IntToDecimal(nanos), c)
  }

  /** `handleJSONFrame` defaulting: ids as `FrameIds` with prefix "json", then the user name from the client id. */
  function JsonRouting(req: JsonFrameRequest, unix: int, nanos: int): (r: Routing)
    ensures (r.streamId, r.clientId) == FrameIds(req.streamId, req.clientId, "json", unix, nanos)
    ensures r.userName == (if req.userName == "" then r.clientId else req.userName)
  {
    var (s, c) := FrameIds(req.streamId, req.clientId, "json", unix, nanos);
    Routing(s, c, if req.userName == "" then c else req.userName)
  }

  /**
   * The frame `handleJSONFrame` builds: a camera id, size and format from
   * the request's frame object with defaults "json_camera", 1920, 1080 and
   * "jpeg", the sizes narrowed to int32.
   */
  function JsonVideoFrame(m: JsonObject, data: string, clientId: string, unix: int, nanos: int): (f: VideoFrame)
    ensures f.frameId == "frame_" + Text.IntToDecimal(nanos) && f.frameData == data && f.clientId == clientId
    ensures f.timestamp == GetInt64(m, "timestamp", unix)
    ensures f.cameraId == GetString(m, "camera_id", "json_camera")
    ensures f.width == WrapInt32(GetInt(m, "width", 1920)) && f.height == WrapInt32(GetInt(m, "height", 1080))
    ensures f.format == GetString(m, "format", "jpeg")
    ensures m.None? ==> f.cameraId == "json_camera" && f.width == 1920 && f.height == 1080 && f.format == "jpeg" && f.timestamp == unix
  {
    VideoFrame("frame_" + Text.IntToDecimal(nanos), data, GetInt64(m, "timestamp", unix), clientId,
               GetString(m, "camera_id", "json_camera"),
               WrapInt32(GetInt(m, "width", 1920)), WrapInt32(GetInt(m, "height", 1080)),
               GetString(m, "format", "jpeg"))
  }

  /**
   * `handleJSONFrame`: an undecodable body or a `frame_data` that is not a
   * string is a 400 with no service call; otherwise the frame goes to
   * `SendFrameInternal` and its status is relayed with code 200.
   */
  function HandleJsonFrame(svc: SS.Service, us: UserService, body: Option<JsonFrameRequest>, unix: int, nanos: int, now: int)
    : (r: (HttpReply, SS.Service, seq<SS.UserCall>))
    ensures body.None? ==> r == (HttpReply(400, "", ""), svc, [])
    ensures body.Some? && !(Lookup(body.value.frame, "frame_data").Some? && Lookup(body.value.frame, "frame_data").value.JString?) ==>
              r == (HttpReply(400, "", ""), svc, [])
    ensures body.Some? && Lookup(body.value.frame, "frame_data").Some? && Lookup(body.value.frame, "frame_data").value.JString? ==>
              var ids := JsonRouting(body.value, unix, nanos);
              var f := JsonVideoFrame(body.value.frame, Lookup(body.value.frame, "frame_data").value.s, ids.clientId, unix, nanos);
              var o := SS.SendFrameInternal(svc, us, ids.streamId, ids.clientId, ids.userName, Some(f), now);
              r == (HttpReply(200, o.response.status, ids.streamId), o.svc, o.calls)
  {
    match body
    case None => (HttpReply(400, "", ""), svc, [])
    case Some(req) =>
      match Lookup(req.frame, "frame_data")
      case Some(JString(data)) =>
        var ids := JsonRouting(req, unix, nanos);
        var f := JsonVideoFrame(req.frame, data, ids.clientId, unix, nanos);
        var o := SS.SendFrameInternal(svc, us, ids.streamId, ids.clientId, ids.userName, Some(f), now);
        (HttpReply(200, o.response.status, ids.streamId), o.svc, o.calls)
      case _ => (HttpReply(400, "", ""), svc, [])
  }

  /** How reading the multipart `frame` file went. */
  datatype FilePart = FileMissing | ReadFailed(err: string) | FileRead(data: string, contentType: string)

  /** `handleMultipartFrame` defaulting: ids as `FrameIds` with prefix "multipart", the user name from the metadata or "multipart_client". */
  function MultipartRouting(meta: JsonObject, unix: int, nanos: int): (r: Routing)
    ensures (r.streamId, r.clientId) == FrameIds(GetString(meta, "stream_id", ""), GetString(meta, "client_id", ""), "multipart", unix, nanos)
    ensures r.userName == GetString(meta, "user_name", "multipart_client")
  {
    var (s, c) := FrameIds(GetString(meta, "stream_id", ""), GetString(meta, "client_id", ""), "multipart", unix, nanos);
    Routing(s, c, GetString(meta, "user_name", "multipart_client"))
  }

  /**
   * `handleMultipartFrame`: no file part is a 400, an unreadable one a 500;
   * otherwise the frame, on camera "multipart_stream" with the part's content
   * type as format, goes to `SendFrameInternal`. `meta` is the parsed
   * `metadata` field, nil when absent or unparsable.
   */
  function HandleMultipartFrame(svc: SS.Service, us: UserService, file: FilePart, meta: JsonObject, unix: int, nanos: int, now: int)
    : (r: (HttpReply, SS.Service, seq<SS.UserCall>))
    ensures file.FileMissing? ==> r == (HttpReply(400, "", ""), svc, [])
    ensures file.ReadFailed? ==> r == (HttpReply(500, "", ""), svc, [])
    ensures file.FileRead? ==>
              var ids := MultipartRouting(meta, unix, nanos);
              var f := VideoFrame("frame_" + Text.IntToDecimal(nanos), file.data, unix, ids.clientId, "multipart_stream",
                                  WrapInt32(GetInt(meta, "width", 1920)), WrapInt32(GetInt(meta, "height", 1080)), file.contentType);
              var o := SS.SendFrameInternal(svc, us, ids.streamId, ids.clientId, ids.userName, Some(f), now);
              r == (HttpReply(200, o.response.status, ids.streamId), o.svc, o.calls)
  {
    match file
    case FileMissing => (HttpReply(400, "", ""), svc, [])
    case ReadFailed(_) => (HttpReply(500, "", ""), svc, [])
    case FileRead(data, contentType) =>
      var ids := MultipartRouting(meta, unix, nanos);
      var f := VideoFrame("frame_" + Text.IntToDecimal(nanos), data, unix, ids.clientId, "multipart_stream",
                          WrapInt32(GetInt(meta, "width", 1920)), WrapInt32(GetInt(meta, "height", 1080)), contentType);
      var o := SS.SendFrameInternal(svc, us, ids.streamId, ids.clientId, ids.userName, Some(f), now);
      (HttpReply(200, o.response.status, ids.streamId), o.svc, o.calls)
  }

  /**
   * A frame request: its content type, and what each reading of its body
   * gives (binding it as JSON, or taking the "frame" part and the metadata
   * fields of a multipart form). Only the reading the content type selects
   * is ever made.
   */
  datatype FrameRequest = FrameRequest(contentType: string, jsonBody: Option<JsonFrameRequest>, file: FilePart, meta: JsonObject)

  /** `SendFrame`: a content type containing "multipart/form-data" selects the multipart path. */
  predicate IsMultipart(contentType: string) {
    Text.Contains(contentType, "multipart/form-data")
  }

  /**
   * `SendFrame`: a content type containing "multipart/form-data" is handled
   * as a multipart upload, anything else as a JSON frame; only the chosen
   * reading of the body influences the result.
   */
  function HandleSendFrame(svc: SS.Service, us: UserService, req: FrameRequest, unix: int, nanos: int, now: int)
    : (r: (HttpReply, SS.Service, seq<SS.UserCall>))
    ensures IsMultipart(req.contentType) ==> r == HandleMultipartFrame(svc, us, req.file, req.meta, unix, nanos, now)
    ensures !IsMultipart(req.contentType) ==> r == HandleJsonFrame(svc, us, req.jsonBody, unix, nanos, now)
  {
    if IsMultipart(req.contentType) then HandleMultipartFrame(svc, us, req.file, req.meta, unix, nanos, now)
    else HandleJsonFrame(svc, us, req.jsonBody, unix, nanos, now)
  }

  /** The reading the content type does not select never matters: two requests that agree on the chosen one are answered alike. */
  lemma OnlyChosenReadingMatters(svc: SS.Service, us: UserService, a: FrameRequest, b: FrameRequest, unix: int, nanos: int, now: int)
    requires a.contentType == b.contentType
    requires IsMultipart(a.contentType) ==> a.file == b.file && a.meta == b.meta
    requires !IsMultipart(a.contentType) ==> a.jsonBody == b.jsonBody
    ensures HandleSendFrame(svc, us, a, unix, nanos, now) == HandleSendFrame(svc, us, b, unix, nanos, now)
  {
  }

  /** A content type with parameters after the media type still selects the multipart path. */
  lemma MultipartWithBoundary(boundary: string)
    ensures IsMultipart("multipart/form-data; boundary=" + boundary)
  {
    Text.ContainsInMiddle([], "multipart/form-data", "; boundary=" + boundary);
    assert [] + "multipart/form-data" + ("; boundary=" + boundary) == "multipart/form-data; boundary=" + boundary;
  }

  // ---------------------------------------------------------------------------
  // Stop and totals

  datatype StopBody = StopBody(streamId: string, clientId: string, filename: string, endTime: int, fileSize: int)

  /** `StopStream` over HTTP: a zero end time is replaced by the clock; the service answer is relayed with code 200. */
  function HandleStopStream(svc: SS.Service, body: Option<StopBody>, unix: int, now: int): (r: (HttpReply, SS.Service))
    ensures body.None? ==> r == (HttpReply(400, "", ""), svc)
    ensures body.Some? ==>
              var b := body.value;
              var req := SS.StopStreamRequest(b.streamId, b.clientId, b.filename, if b.endTime == 0 then unix else b.endTime, b.fileSize);
              r == (HttpReply(200, "ok", ""), SS.StopStream(svc, req, now).1)
  {
    match body
    case None => (HttpReply(400, "", ""), svc)
    case Some(b) =>
      var req := SS.StopStreamRequest(b.streamId, b.clientId, b.filename, if b.endTime == 0 then unix else b.endTime, b.fileSize);
      var (resp, svc') := SS.StopStream(svc, req, now);
      (HttpReply(200, resp.status, ""), svc')
  }

  datatype AllStats = AllStats(totalStreams: nat, totalFrames: int, totalBytes: int, rows: seq<StreamStats>)

  /**
   * `GetAllStats`: the rows in the map order `order`, their count, and the
   * sums of their frame and byte counters.
   */
  function GetAllStats(svc: SS.Service, order: seq<string>): (a: AllStats)
    requires Enumerates(order, svc.repo.stats.Keys)
    ensures a.totalStreams == |svc.repo.stats|
    ensures a.rows == StatsInOrder(svc.repo, order)
    ensures a.totalFrames == SumOver(svc.repo.stats, order, FramesOf)
    ensures a.totalBytes == SumOver(svc.repo.stats, order, BytesOf)
  {
    var rows := StatsInOrder(svc.repo, order);
    TotalOfStatsInOrder(svc.repo, order, FramesOf);
    TotalOfStatsInOrder(svc.repo, order, BytesOf);
    EnumerationLength(order, svc.repo.stats.Keys);
    AllStats(|rows|, TotalOf(rows, FramesOf), TotalOf(rows, BytesOf), rows)
  }

  /** The handler's totals agree with the service's, and neither depends on the iteration order. */
  method TotalsAgree(svc: SS.Service, o1: seq<string>, o2: seq<string>, now: int) returns (handler: AllStats, service: SS.TotalStats)
    requires Enumerates(o1, svc.repo.stats.Keys) && Enumerates(o2, svc.repo.stats.Keys)
    ensures handler.totalFrames == service.totalFrames && handler.totalBytes == service.totalBytes
    ensures handler.totalStreams == service.activeStreams
  {
    handler := GetAllStats(svc, o1);
    service := SS.GetTotalStats(svc, o2, now);
    SumOverOrderIndependent(svc.repo.stats, o1, o2, FramesOf);
    SumOverOrderIndependent(svc.repo.stats, o1, o2, BytesOf);
  }
}

=== FILE: stream_repository.dfy ===
/**
 * The controller's in-memory stream registry (`StreamRepository`): one map
 * from stream id to stream and one from stream id to its statistics row.
 */
module StreamRepository {
  import opened Wrappers
  import opened Enumeration

  /** A frame as the controller receives it. `frameData` holds one char per byte. */
  datatype VideoFrame = VideoFrame(
    frameId: string,
    frameData: string,
    timestamp: int,
    clientId: string,
    cameraId: string,
    width: int,
    height: int,
    format: string)

  datatype ActiveStream = ActiveStream(
    streamId: string,
    clientId: string,
    userName: string,
    cameraName: string,
    isRecording: bool,
    isStreaming: bool,
    metadata: map<string, string>)

  /**
   * Average frames per second as the exact ratio frames / seconds from which
   * the source computes its float32 value; the rounding is not modelled.
   */
  datatype FpsRatio = FpsRatio(frames: int, seconds: int)

  datatype StreamStats = StreamStats(
    streamId: string,
    clientId: string,
    startTime: int,
    duration: int,
    framesReceived: int,
    bytesReceived: int,
    averageFps: FpsRatio,
    width: int,
    height: int,
    codec: string,
    isRecording: bool,
    isStreaming: bool)

  datatype Repository = Repository(streams: map<string, ActiveStream>, stats: map<string, StreamStats>)

  /** Result of `UpdateStats`: the new repository and the row it returns (nil when absent). */
  datatype Updated = Updated(repo: Repository, row: Option<StreamStats>)

  const DefaultWidth := 1920
  const DefaultHeight := 1080
  const DefaultCodec := "H.264"

  function Empty(): (r: Repository)
    ensures Valid(r) && |r.streams| == 0
  {
    Repository(map[], map[])
  }

  /** Every stream has a statistics row and every row a stream. */
  predicate Valid(r: Repository) {
    r.streams.Keys == r.stats.Keys
  }

  /** The row `SaveStream` creates for a stream it has not seen before. */
  predicate IsFreshRow(row: StreamStats, id: string, s: ActiveStream, now: int) {
    && row.streamId == id
    && row.clientId == s.clientId
    && row.startTime == now
    && row.duration == 0
    && row.framesReceived == 0
    && row.bytesReceived == 0
    && row.averageFps == FpsRatio(0, 1)
    && row.width == DefaultWidth
    && row.height == DefaultHeight
    && row.codec == DefaultCodec
    && row.isRecording == s.isRecording
    && row.isStreaming == s.isStreaming
  }

  function FreshRow(id: string, s: ActiveStream, now: int): (row: StreamStats)
    ensures IsFreshRow(row, id, s, now)
  {
    StreamStats(id, s.clientId, now, 0, 0, 0, FpsRatio(0, 1),
                DefaultWidth, DefaultHeight, DefaultCodec, s.isRecording, s.isStreaming)
  }

  /**
   * Stores `s` under `id`, replacing any earlier stream, and creates a
   * statistics row only when none exists, so saving again never resets counters.
   */
  function SaveStream(r: Repository, id: string, s: ActiveStream, now: int): (r': Repository)
    ensures r'.streams.Keys == r.streams.Keys + {id}
    ensures r'.streams[id] == s
    ensures forall k :: k in r.streams && k != id ==> r'.streams[k] == r.streams[k]
    ensures r'.stats.Keys == r.stats.Keys + {id}
    ensures forall k :: k in r.stats ==> r'.stats[k] == r.stats[k]
    ensures id !in r.stats ==> IsFreshRow(r'.stats[id], id, s, now)
    ensures Valid(r) ==> Valid(r')
  {
    var stats := if id in r.stats then r.stats else r.stats[id := FreshRow(id, s, now)];
    Repository(r.streams[id := s], stats)
  }

  /** One frame's effect on a row; `frame` is `None` for a nil frame. */
  function Advance(row: StreamStats, frame: Option<VideoFrame>, now: int): (row': StreamStats)
    ensures row'.framesReceived == row.framesReceived + 1
    ensures row'.streamId == row.streamId && row'.clientId == row.clientId
    ensures row'.startTime == row.startTime && row'.codec == row.codec
    ensures row'.isRecording == row.isRecording && row'.isStreaming == row.isStreaming
    ensures frame.None? ==> row' == row.(framesReceived := row.framesReceived + 1)
    ensures frame.Some? ==> row'.bytesReceived == row.bytesReceived + |frame.value.frameData|
    ensures frame.Some? ==> row'.width == (if frame.value.width > 0 then frame.value.width else row.width)
    ensures frame.Some? ==> row'.height == (if frame.value.height > 0 then frame.value.height else row.height)
    ensures frame.Some? ==> row'.duration == now - row.startTime
    ensures frame.Some? && now - row.startTime > 0 ==> row'.averageFps == FpsRatio(row'.framesReceived, now - row.startTime)
    ensures frame.Some? && now - row.startTime <= 0 ==> row'.averageFps == row.averageFps
  {
    var counted := row.(framesReceived := row.framesReceived + 1);
    match frame
    case None => counted
    case Some(f) =>
      var elapsed := now - row.startTime;
      counted.(
        bytesReceived := row.bytesReceived + |f.frameData|,
        width := if f.width > 0 then f.width else row.width,
        height := if f.height > 0 then f.height else row.height,
        averageFps := if elapsed > 0 then FpsRatio(counted.framesReceived, elapsed) else row.averageFps,
        duration := elapsed)
  }

  /**
   * Counts one frame against the row of `id`. An id without a row yields nil
   * and changes nothing; otherwise only that row changes, and it is returned.
   */
  function UpdateStats(r: Repository, id: string, frame: Option<VideoFrame>, now: int): (u: Updated)
    ensures id !in r.stats ==> u == Updated(r, None)
    ensures u.repo.streams == r.streams
    ensures u.repo.stats.Keys == r.stats.Keys
    ensures id in r.stats ==> u.row == Some(u.repo.stats[id])
    ensures id in r.stats ==> u.repo.stats[id] == Advance(r.stats[id], frame, now)
    ensures forall k :: k in r.stats && k != id ==> u.repo.stats[k] == r.stats[k]
    ensures Valid(r) ==> Valid(u.repo)
  {
    if id !in r.stats then Updated(r, None)
    else
      var row := Advance(r.stats[id], frame, now);
      Updated(r.(stats := r.stats[id := row]), Some(row))
  }

  function GetStream(r: Repository, id: string): (s: Option<ActiveStream>)
    ensures s.Some? <==> id in r.streams
    ensures s.Some? ==> s.value == r.streams[id]
  {
    if id in r.streams then Some(r.streams[id]) else None
  }

  function GetStats(r: Repository, id: string): (row: Option<StreamStats>)
    ensures row.Some? <==> id in r.stats
    ensures row.Some? ==> row.value == r.stats[id]
  {
    if id in r.stats then Some(r.stats[id]) else None
  }

  /** Deletes the stream and its row; an absent id leaves the repository as it was. */
  function RemoveStream(r: Repository, id: string): (r': Repository)
    ensures id !in r'.streams && id !in r'.stats
    ensures r'.streams.Keys == r.streams.Keys - {id}
    ensures r'.stats.Keys == r.stats.Keys - {id}
    ensures forall k :: k in r'.streams ==> r'.streams[k] == r.streams[k]
    ensures forall k :: k in r'.stats ==> r'.stats[k] == r.stats[k]
    ensures id !in r.streams && id !in r.stats ==> r' == r
    ensures Valid(r) ==> Valid(r')
  {
    Repository(r.streams - {id}, r.stats - {id})
  }

  predicate IsActive(s: ActiveStream) {
    s.isRecording || s.isStreaming
  }

  /**
   * `GetAllActiveStreams`: the streams whose recording or streaming flag is
   * set, visited in the map order `order`; `ids` are their keys.
   */
  method GetAllActiveStreams(r: Repository, order: seq<string>) returns (ids: seq<string>, streams: seq<ActiveStream>)
    requires Enumerates(order, r.streams.Keys)
    ensures |streams| == |ids|
    ensures forall i :: 0 <= i < |ids| ==> ids[i] in r.streams && streams[i] == r.streams[ids[i]]
    ensures forall k :: k in ids <==> k in r.streams && IsActive(r.streams[k])
    ensures forall i :: 0 <= i < |streams| ==> IsActive(streams[i])
    ensures NoDup(ids)
    ensures |ids| <= |order|
  {
    ids, streams := [], [];
    var i := 0;
    while i < |order|
      invariant 0 <= i <= |order|
      invariant |streams| == |ids|
      invariant forall j :: 0 <= j < |ids| ==> ids[j] in r.streams && streams[j] == r.streams[ids[j]]
      invariant forall k :: k in ids <==> k in order[..i] && IsActive(r.streams[k])
      invariant forall j :: 0 <= j < |streams| ==> IsActive(streams[j])
      invariant NoDup(ids)
      invariant |ids| <= i
    {
      var k := order[i];
      assert k !in order[..i];
      var s := r.streams[k];
      if IsActive(s) {
        ids, streams := ids + [k], streams + [s];
      }
      assert order[..i + 1] == order[..i] + [k];
      i := i + 1;
    }
    assert order[..i] == order;
  }

  /** `GetAllStats` in the map order `order`. */
  function StatsInOrder(r: Repository, order: seq<string>): (rows: seq<StreamStats>)
    requires forall k :: k in order ==> k in r.stats
    ensures |rows| == |order|
    ensures forall i :: 0 <= i < |order| ==> rows[i] == r.stats[order[i]]
  {
    seq(|order|, i requires 0 <= i < |order| => r.stats[order[i]])
  }

  function FramesOf(row: StreamStats): int { row.framesReceived }

  function BytesOf(row: StreamStats): int { row.bytesReceived }

  /** Sum of a field over the rows, as the source's totalling loops add it up. */
  function TotalOf(rows: seq<StreamStats>, f: StreamStats -> int): int
    decreases |rows|
  {
    if |rows| == 0 then 0 else f(rows[0]) + TotalOf(rows[1..], f)
  }

  lemma {:induction false} TotalOfStatsInOrder(r: Repository, order: seq<string>, f: StreamStats -> int)
    requires forall k :: k in order ==> k in r.stats
    ensures TotalOf(StatsInOrder(r, order), f) == SumOver(r.stats, order, f)
    decreases |order|
  {
    if |order| > 0 {
      assert StatsInOrder(r, order)[1..] == StatsInOrder(r, order[1..]);
      TotalOfStatsInOrder(r, order[1..], f);
    }
  }

  /** Totals over all rows do not depend on the order the map was walked in. */
  lemma TotalsIndependentOfOrder(r: Repository, o1: seq<string>, o2: seq<string>, f: StreamStats -> int)
    requires Enumerates(o1, r.stats.Keys) && Enumerates(o2, r.stats.Keys)
    ensures TotalOf(StatsInOrder(r, o1), f) == TotalOf(StatsInOrder(r, o2), f)
  {
    TotalOfStatsInOrder(r, o1, f);
    TotalOfStatsInOrder(r, o2, f);
    SumOverOrderIndependent(r.stats, o1, o2, f);
  }

  /** Feeds frames one by one to `UpdateStats`, frame `i` at time `times[i]`. */
  function UpdateAll(r: Repository, id: string, frames: seq<Option<VideoFrame>>, times: seq<int>): Repository
    requires |frames| == |times|
    decreases |frames|
  {
    if |frames| == 0 then r else UpdateAll(UpdateStats(r, id, frames[0], times[0]).repo, id, frames[1..], times[1..])
  }

  /** Payload bytes carried by a run of frames; a nil frame carries none. */
  function PayloadBytes(frames: seq<Option<VideoFrame>>): nat
    decreases |frames|
  {
    if |frames| == 0 then 0
    else (if frames[0].Some? then |frames[0].value.frameData| else 0) + PayloadBytes(frames[1..])
  }

  /**
   * Counters only move forward: after n frames the row has counted exactly n
   * more frames and exactly the payload bytes of the non-nil ones.
   */
  lemma {:induction false} CountersAfterFrames(r: Repository, id: string, frames: seq<Option<VideoFrame>>, times: seq<int>)
    requires |frames| == |times|
    requires id in r.stats
    ensures id in UpdateAll(r, id, frames, times).stats
    ensures UpdateAll(r, id, frames, times).stats[id].framesReceived == r.stats[id].framesReceived + |frames|
    ensures UpdateAll(r, id, frames, times).stats[id].bytesReceived == r.stats[id].bytesReceived + PayloadBytes(frames)
    ensures UpdateAll(r, id, frames, times).streams == r.streams
    decreases |frames|
  {
    if |frames| > 0 {
      CountersAfterFrames(UpdateStats(r, id, frames[0], times[0]).repo, id, frames[1..], times[1..]);
    }
  }

  /** Saving, counting frames and removing keep the two maps keyed alike. */
  lemma {:induction false} UpdateAllKeepsValid(r: Repository, id: string, frames: seq<Option<VideoFrame>>, times: seq<int>)
    requires |frames| == |times|
    requires Valid(r)
    ensures Valid(UpdateAll(r, id, frames, times))
    decreases |frames|
  {
    if |frames| > 0 {
      UpdateAllKeepsValid(UpdateStats(r, id, frames[0], times[0]).repo, id, frames[1..], times[1..]);
    }
  }

  /** Saving then reading a stream gives it back; removing then reading gives nothing. */
  lemma SaveGetRemove(r: Repository, id: string, s: ActiveStream, now: int)
    ensures GetStream(SaveStream(r, id, s, now), id) == Some(s)
    ensures GetStats(SaveStream(r, id, s, now), id).Some?
    ensures GetStream(RemoveStream(SaveStream(r, id, s, now), id), id) == None
    ensures GetStats(RemoveStream(SaveStream(r, id, s, now), id), id) == None
  {
  }

  /** Removing twice is the same as removing once. */
  lemma RemoveIdempotent(r: Repository, id: string)
    ensures RemoveStream(RemoveStream(r, id), id) == RemoveStream(r, id)
  {
  }
}

=== FILE: stream_service.dfy ===
/**
 * The controller's stream service (`VideoStreamServiceImpl`): stream start,
 * frame routing with stream auto-creation, stop, and statistics queries, on
 * top of the stream repository and a per-client cache of video targets
 * resolved through the user service.
 */
module StreamService {
  import opened Wrappers
  import opened Enumeration
  import Text
  import opened UserClient
  import opened StreamRepository
  import opened Api

  /** Where a client's frames go, as resolved from its streaming configuration. */
  datatype VideoTarget = VideoTarget(serverUrl: string, port: int, apiKey: string, endpoint: string)

  datatype Service = Service(repo: Repository, targets: map<string, VideoTarget>)

  /** A request sent to the user service, recorded so that "no call was made" can be stated. */
  datatype UserCall = GetUserCall(clientId: string) | GetConfigCall(userId: string)

  function NewService(): (s: Service)
    ensures Valid(s.repo) && s.targets == map[]
    ensures s.repo.streams == map[] && s.repo.stats == map[]
  {
    Service(StreamRepository.Empty(), map[])
  }

  // ---------------------------------------------------------------------------
  // Target cache

  datatype TargetLookup = TargetLookup(target: Result<VideoTarget, string>, targets: map<string, VideoTarget>, calls: seq<UserCall>)

  function TargetFromConfig(c: StreamingConfig): (t: VideoTarget)
    ensures t.serverUrl == c.serverUrl && t.port == c.serverPort && t.apiKey == c.apiKey && t.endpoint == c.streamEndpoint
  {
    VideoTarget(c.serverUrl, c.serverPort, c.apiKey, c.streamEndpoint)
  }

  /** The `"%s:%d"` address stored under the `video_server` metadata key. */
  function ServerAddress(t: VideoTarget): string {
    t.serverUrl + ":" + Text.IntToDecimal(t.port)
  }

  /**
   * `getVideoTarget`: a cached target is returned without asking the user
   * service; otherwise the configuration is fetched with the client id as
   * user id and cached only when the fetch succeeds.
   */
  function GetVideoTarget(targets: map<string, VideoTarget>, us: UserService, clientId: string): (t: TargetLookup)
    ensures clientId in targets ==> t == TargetLookup(Ok(targets[clientId]), targets, [])
    ensures clientId !in targets ==> t.calls == [GetConfigCall(clientId)]
    ensures clientId !in targets ==> (t.target.Ok? <==> us.getConfig(clientId).Ok?)
    ensures t.target.Err? ==> t.targets == targets
    ensures t.target.Ok? ==> t.targets.Keys == targets.Keys + {clientId} && t.targets[clientId] == t.target.value
    ensures t.target.Ok? && clientId !in targets ==> t.target.value == TargetFromConfig(us.getConfig(clientId).value)
    ensures forall k :: k in targets ==> k in t.targets && t.targets[k] == targets[k]
  {
    if clientId in targets then TargetLookup(Ok(targets[clientId]), targets, [])
    else
      match us.getConfig(clientId)
      case Err(e) =>
        TargetLookup(Err("failed to get streaming config for client " + clientId + ": " + e), targets, [GetConfigCall(clientId)])
      case Ok(c) =>
        var target := TargetFromConfig(c);
        TargetLookup(Ok(target), targets[clientId := target], [GetConfigCall(clientId)])
  }

  lemma SecondLookupIsCached(targets: map<string, VideoTarget>, us: UserService, clientId: string)
    requires GetVideoTarget(targets, us, clientId).target.Ok?
    ensures var first := GetVideoTarget(targets, us, clientId);
            GetVideoTarget(first.targets, us, clientId) == TargetLookup(first.target, first.targets, [])
  {
  }

  // ---------------------------------------------------------------------------
  // StartStream

  datatype StartStreamRequest = StartStreamRequest(clientId: string, userId: string, cameraName: string, filename: string)

  datatype StartStreamResponse = StartStreamResponse(streamId: string, status: string, message: string, metadata: map<string, string>)

  /**
   * How a start ended: a response, a returned error, or a nil-pointer panic
   * because the user record came without a streaming block.
   */
  datatype StartResult = Started(response: StartStreamResponse) | StartFailed(error: string) | StartPanicked

  datatype StartOutcome = StartOutcome(result: StartResult, svc: Service, calls: seq<UserCall>)

  /** `stream_<client>_<nanos>`: the id of a stream started at `nanos`. */
  function NewStreamId(clientId: string, nanos: int): string {
    "stream_" + clientId + "_" + Text.IntToDecimal(nanos)
  }

  function StartedStream(streamId: string, clientId: string, cameraName: string, u: User, cfg: StreamingConfig, t: VideoTarget): ActiveStream {
    ActiveStream(streamId, clientId, u.username, cameraName, true, true,
      map["video_server" := ServerAddress(t),
          "video_endpoint" := t.endpoint,
          "api_key" := t.apiKey,
          "max_bitrate" := Text.IntToDecimal(cfg.maxBitrate),
          "max_resolution" := Text.IntToDecimal(cfg.maxResolution),
          "user_id" := u.id,
          "username" := u.username])
  }

  /**
   * `StartStream`: looks the user up, resolves the target, and stores a new
   * recording and streaming stream. A failed lookup returns an error and
   * stores nothing.
   */
  function StartStream(svc: Service, us: UserService, req: StartStreamRequest, nanos: int, now: int): (o: StartOutcome)
    ensures |o.calls| >= 1 && o.calls[0] == GetUserCall(req.clientId)
    ensures us.getUser(req.clientId).Err? ==> o.result.StartFailed? && o.svc == svc && o.calls == [GetUserCall(req.clientId)]
    ensures o.result.StartFailed? || o.result.StartPanicked? ==> o.svc.repo == svc.repo
    ensures o.result.Started? <==>
              && us.getUser(req.clientId).Ok?
              && GetVideoTarget(svc.targets, us, req.clientId).target.Ok?
              && us.getUser(req.clientId).value.streamingConfig.Some?
    ensures o.result.Started? ==>
              var id := NewStreamId(req.clientId, nanos);
              && o.result.response.streamId == id
              && o.result.response.status == "started"
              && o.svc.repo.streams.Keys == svc.repo.streams.Keys + {id}
              && o.svc.repo.streams[id].clientId == req.clientId
              && o.svc.repo.streams[id].cameraName == req.cameraName
              && o.svc.repo.streams[id].isRecording && o.svc.repo.streams[id].isStreaming
              && req.clientId in o.svc.targets
              && "video_server" in o.svc.repo.streams[id].metadata
              && o.svc.repo.streams[id].metadata["video_server"] == ServerAddress(o.svc.targets[req.clientId])
              && "video_server" in o.result.response.metadata
              && o.result.response.metadata["video_server"] == ServerAddress(o.svc.targets[req.clientId])
    ensures o.result.Started? ==>
              var id := NewStreamId(req.clientId, nanos);
              && (forall k :: k in svc.repo.streams && k != id ==> o.svc.repo.streams[k] == svc.repo.streams[k])
              && o.svc.repo.stats.Keys == svc.repo.stats.Keys + {id}
              && (forall k :: k in svc.repo.stats ==> o.svc.repo.stats[k] == svc.repo.stats[k])
              && (id !in svc.repo.stats ==> IsFreshRow(o.svc.repo.stats[id], id, o.svc.repo.streams[id], now))
    ensures Valid(svc.repo) ==> Valid(o.svc.repo)
  {
    match us.getUser(req.clientId)
    case Err(e) => StartOutcome(StartFailed("user not found or unauthorized: " + e), svc, [GetUserCall(req.clientId)])
    case Ok(u) =>
      var lookup := GetVideoTarget(svc.targets, us, req.clientId);
      var calls := [GetUserCall(req.clientId)] + lookup.calls;
      match lookup.target
      case Err(e) => StartOutcome(StartFailed("failed to get video service target: " + e), svc, calls)
      case Ok(t) =>
        var cached := svc.(targets := lookup.targets);
        match u.streamingConfig
        case None => StartOutcome(StartPanicked, cached, calls)
        case Some(cfg) =>
          var id := NewStreamId(req.clientId, nanos);
          var stream := StartedStream(id, req.clientId, req.cameraName, u, cfg, t);
          var response := StartStreamResponse(id, "started",
            "Stream " + id + " started for user " + u.username,
            map["video_server" := ServerAddress(t), "user" := u.username,
                "endpoint" := t.endpoint, "user_id" := u.id]);
          StartOutcome(Started(response), cached.(repo := SaveStream(svc.repo, id, stream, now)), calls)
  }

  /**
   * Stream ids are only as unique as the clock: a second start for the same
   * client in the same nanosecond overwrites the first stream and keeps its
   * statistics row, and the stream count does not grow.
   */
  lemma StartCollisionOverwrites(svc: Service, us: UserService, req1: StartStreamRequest, req2: StartStreamRequest,
                                 nanos: int, t1: int, t2: int)
    requires req1.clientId == req2.clientId
    requires StartStream(svc, us, req1, nanos, t1).result.Started?
    ensures var o1 := StartStream(svc, us, req1, nanos, t1);
            var o2 := StartStream(o1.svc, us, req2, nanos, t2);
            var id := NewStreamId(req1.clientId, nanos);
            && o2.result.Started?
            && o2.calls == [GetUserCall(req1.clientId)]
            && o2.svc.repo.streams.Keys == o1.svc.repo.streams.Keys
            && o2.svc.repo.streams[id].cameraName == req2.cameraName
            && o2.svc.repo.stats[id] == o1.svc.repo.stats[id]
  {
    var o1 := StartStream(svc, us, req1, nanos, t1);
    assert req1.clientId in o1.svc.targets;
  }

  // ---------------------------------------------------------------------------
  // SendFrameInternal

  datatype SendOutcome = SendOutcome(response: ApiResponse, svc: Service, calls: seq<UserCall>)

  /** The camera name an auto-created stream gets. */
  const AutoCreatedCamera := "auto_created"

  function AutoCreatedStream(streamId: string, clientId: string, u: User, t: VideoTarget): ActiveStream {
    ActiveStream(streamId, clientId, u.username, AutoCreatedCamera, true, true,
      map["video_server" := ServerAddress(t),
          "video_endpoint" := t.endpoint,
          "api_key" := t.apiKey,
          "user_id" := u.id,
          "username" := u.username])
  }

  function ErrorResponse(message: string): (r: ApiResponse)
    ensures r.status == "error"
  {
    ApiResponse("error", message, 0, map[])
  }

  /** Steps 3 to 5 of `SendFrameInternal`, once the stream is known. */
  function RouteFrame(svc: Service, stream: ActiveStream, streamId: string, clientId: string, frame: VideoFrame, now: int): (r: (ApiResponse, Service))
    ensures "video_server" !in stream.metadata ==> r.0.status == "error" && r.1 == svc
    ensures "video_server" in stream.metadata ==> r.0.status == "ok" && r.1 == svc.(repo := UpdateStats(svc.repo, streamId, Some(frame), now).repo)
    ensures "video_server" in stream.metadata ==>
              && "video_server" in r.0.metadata && r.0.metadata["video_server"] == stream.metadata["video_server"]
              && "stream_id" in r.0.metadata && r.0.metadata["stream_id"] == streamId
              && "frames_received" in r.0.metadata
              && (streamId in svc.repo.stats ==>
                    r.0.metadata["frames_received"] == Text.IntToDecimal(svc.repo.stats[streamId].framesReceived + 1))
              && (streamId !in svc.repo.stats ==> r.0.metadata["frames_received"] == "0")
  {
    if "video_server" !in stream.metadata then (ErrorResponse("Video server not found in stream metadata"), svc)
    else
      var videoServer := stream.metadata["video_server"];
      var updated := UpdateStats(svc.repo, streamId, Some(frame), now);
      var row := updated.row;
      var response := ApiResponse("ok", "Frame routed to " + videoServer, now,
        map["stream_id" := streamId,
            "client_id" := clientId,
            "video_server" := videoServer,
            "frames_received" := Text.IntToDecimal(if row.Some? then row.value.framesReceived else 0),
            "bytes_received" := Text.IntToDecimal(if row.Some? then row.value.bytesReceived else 0),
            "source" := "api_gateway",
            "target" := "video_service",
            "routed" := "true",
            "username" := stream.userName,
            "user_id" := if "user_id" in stream.metadata then stream.metadata["user_id"] else ""]);
      (response, svc.(repo := updated.repo))
  }

  /**
   * `SendFrameInternal`. A nil frame is refused. An unknown stream id is
   * auto-created after the user and target lookups succeed (a failed lookup
   * is reported as status "error" with no Go error). The frame is then
   * counted once against the stream, unless the stream lacks a
   * `video_server` entry. `userName` is accepted and ignored, as in the source.
   */
  function SendFrameInternal(svc: Service, us: UserService, streamId: string, clientId: string, userName: string,
                             frame: Option<VideoFrame>, now: int): (o: SendOutcome)
    ensures frame.None? ==> o.response.status == "error" && o.svc == svc && o.calls == []
    ensures streamId in svc.repo.streams ==> o.calls == [] && o.svc.targets == svc.targets && o.svc.repo.streams == svc.repo.streams
    ensures frame.Some? && streamId !in svc.repo.streams && us.getUser(clientId).Err? ==>
              o.response.status == "error" && o.svc == svc && o.calls == [GetUserCall(clientId)]
    ensures (frame.Some? && streamId !in svc.repo.streams && us.getUser(clientId).Ok? &&
             GetVideoTarget(svc.targets, us, clientId).target.Err?) ==> o.response.status == "error" && o.svc == svc
    ensures frame.Some? && streamId !in svc.repo.streams && us.getUser(clientId).Ok? &&
            GetVideoTarget(svc.targets, us, clientId).target.Ok? ==>
              && o.svc.repo.streams.Keys == svc.repo.streams.Keys + {streamId}
              && o.svc.repo.streams[streamId].cameraName == AutoCreatedCamera
              && o.svc.repo.streams[streamId].clientId == clientId
              && o.svc.repo.streams[streamId].isRecording && o.svc.repo.streams[streamId].isStreaming
              && o.response.status == "ok"
    ensures o.response.status == "ok" ==> frame.Some? && streamId in o.svc.repo.streams
    ensures o.response.status == "ok" ==>
              && "video_server" in o.response.metadata
              && "video_server" in o.svc.repo.streams[streamId].metadata
              && o.response.metadata["video_server"] == o.svc.repo.streams[streamId].metadata["video_server"]
    ensures o.response.status != "ok" ==> o.response.status == "error" && o.svc.repo.stats == svc.repo.stats
    ensures Valid(svc.repo) ==> Valid(o.svc.repo)
    ensures Valid(svc.repo) && o.response.status == "ok" ==>
              var base := if streamId in svc.repo.stats then svc.repo.stats[streamId].framesReceived else 0;
              o.svc.repo.stats[streamId].framesReceived == base + 1
    ensures Valid(svc.repo) && o.response.status == "ok" ==>
              var baseBytes := if streamId in svc.repo.stats then svc.repo.stats[streamId].bytesReceived else 0;
              && o.svc.repo.stats[streamId].bytesReceived == baseBytes + |frame.value.frameData|
              && (streamId in svc.repo.stats ==> o.svc.repo.stats[streamId] == Advance(svc.repo.stats[streamId], frame, now))
              && o.svc.repo.stats.Keys == svc.repo.stats.Keys + {streamId}
              && (forall k :: k in svc.repo.stats && k != streamId ==> o.svc.repo.stats[k] == svc.repo.stats[k])
              && (forall k :: k in svc.repo.streams && k != streamId ==> o.svc.repo.streams[k] == svc.repo.streams[k])
  {
    match frame
    case None => SendOutcome(ErrorResponse("Frame is nil"), svc, [])
    case Some(f) =>
      match GetStream(svc.repo, streamId)
      case Some(stream) =>
        var (response, svc') := RouteFrame(svc, stream, streamId, clientId, f, now);
        SendOutcome(response, svc', [])
      case None =>
        match us.getUser(clientId)
        case Err(e) => SendOutcome(ErrorResponse("User validation failed: " + e), svc, [GetUserCall(clientId)])
        case Ok(u) =>
          var lookup := GetVideoTarget(svc.targets, us, clientId);
          var calls := [GetUserCall(clientId)] + lookup.calls;
          match lookup.target
          case Err(e) => SendOutcome(ErrorResponse("Failed to get video service target: " + e), svc, calls)
          case Ok(t) =>
            var stream := AutoCreatedStream(streamId, clientId, u, t);
            var created := Service(SaveStream(svc.repo, streamId, stream, now), lookup.targets);
            var (response, svc') := RouteFrame(created, stream, streamId, clientId, f, now);
            SendOutcome(response, svc', calls)
  }

  /**
   * Auto-creation happens once: after a frame created a stream, a second
   * frame for the same id asks the user service nothing, creates no other
   * stream, and brings the frame count to two.
   */
  lemma AutoCreateThenReuse(svc: Service, us: UserService, streamId: string, clientId: string, userName: string,
                            f1: VideoFrame, f2: VideoFrame, t1: int, t2: int)
    requires Valid(svc.repo)
    requires streamId !in svc.repo.streams
    requires us.getUser(clientId).Ok? && GetVideoTarget(svc.targets, us, clientId).target.Ok?
    ensures var o1 := SendFrameInternal(svc, us, streamId, clientId, userName, Some(f1), t1);
            var o2 := SendFrameInternal(o1.svc, us, streamId, clientId, userName, Some(f2), t2);
            && o1.response.status == "ok"
            && o1.svc.repo.streams.Keys == svc.repo.streams.Keys + {streamId}
            && o1.svc.repo.stats[streamId].framesReceived == 1
            && o2.response.status == "ok"
            && o2.calls == []
            && o2.svc.repo.streams == o1.svc.repo.streams
            && o2.svc.repo.stats[streamId].framesReceived == 2
            && o2.svc.repo.stats[streamId].bytesReceived == |f1.frameData| + |f2.frameData|
  {
    assert streamId !in svc.repo.stats;
    var o1 := SendFrameInternal(svc, us, streamId, clientId, userName, Some(f1), t1);
    assert o1.svc.repo.stats[streamId].framesReceived == 1;
    assert o1.svc.repo.stats[streamId].bytesReceived == |f1.frameData|;
    assert streamId in o1.svc.repo.streams && Valid(o1.svc.repo);
    var stream := o1.svc.repo.streams[streamId];
    assert "video_server" in stream.metadata;
    var o2 := SendFrameInternal(o1.svc, us, streamId, clientId, userName, Some(f2), t2);
    assert o2.svc.repo == UpdateStats(o1.svc.repo, streamId, Some(f2), t2).repo;
  }

  // ---------------------------------------------------------------------------
  // StopStream and queries

  datatype StopStreamRequest = StopStreamRequest(streamId: string, clientId: string, filename: string, endTime: int, fileSize: int)

  /**
   * `StopStream`: removes the stream and its statistics and forgets the
   * cached target of the request's client; the answer is "ok" even for an
   * unknown stream.
   */
  function StopStream(svc: Service, req: StopStreamRequest, now: int): (r: (ApiResponse, Service))
    ensures r.0.status == "ok"
    ensures r.1.repo == RemoveStream(svc.repo, req.streamId)
    ensures req.streamId !in r.1.repo.streams && req.streamId !in r.1.repo.stats
    ensures r.1.targets.Keys == svc.targets.Keys - {req.clientId}
    ensures forall k :: k in r.1.targets ==> r.1.targets[k] == svc.targets[k]
    ensures Valid(svc.repo) ==> Valid(r.1.repo)
  {
    var response := ApiResponse("ok", "Stream " + req.streamId + " stopped", now,
      map["stream_id" := req.streamId,
          "client_id" := req.clientId,
          "end_time" := Text.IntToDecimal(req.endTime),
          "file_size" := Text.IntToDecimal(req.fileSize),
          "filename" := req.filename]);
    (response, Service(RemoveStream(svc.repo, req.streamId), svc.targets - {req.clientId}))
  }

  /** Stopping twice leaves the same state as stopping once, and both answer "ok". */
  lemma StopStreamIdempotent(svc: Service, req: StopStreamRequest, t1: int, t2: int)
    ensures var once := StopStream(svc, req, t1).1;
            StopStream(once, req, t2).1 == once && StopStream(once, req, t2).0.status == "ok"
  {
  }

  /** `GetStreamStats`: the row of the stream, or a not-found error. */
  function GetStreamStats(svc: Service, streamId: string): (r: Result<StreamStats, string>)
    ensures r.Ok? <==> streamId in svc.repo.stats
    ensures r.Ok? ==> r.value == svc.repo.stats[streamId]
    ensures r.Err? ==> r.error == "stream " + streamId + " not found"
  {
    if streamId in svc.repo.stats then Ok(svc.repo.stats[streamId]) else Err("stream " + streamId + " not found")
  }

  /** `GetStreamsByClient`: the streams owned by `clientId`, in the map order `order`. */
  method GetStreamsByClient(svc: Service, clientId: string, order: seq<string>) returns (ids: seq<string>)
    requires Enumerates(order, svc.repo.streams.Keys)
    ensures forall k :: k in ids <==> k in svc.repo.streams && svc.repo.streams[k].clientId == clientId
    ensures NoDup(ids)
    ensures |ids| <= |order|
  {
    ids := [];
    var i := 0;
    while i < |order|
      invariant 0 <= i <= |order|
      invariant forall k :: k in ids <==> k in order[..i] && svc.repo.streams[k].clientId == clientId
      invariant NoDup(ids)
      invariant |ids| <= i
    {
      var k := order[i];
      assert k !in order[..i];
      if svc.repo.streams[k].clientId == clientId {
        ids := ids + [k];
      }
      assert order[..i + 1] == order[..i] + [k];
      i := i + 1;
    }
    assert order[..i] == order;
  }

  /** The ids of the streams that are recording or streaming. */
  function ActiveStreamIds(r: Repository): set<string> {
    set k | k in r.streams && IsActive(r.streams[k])
  }

  /** `GetActiveStreamsCount`: the length of the active-stream list, which is the number of active streams. */
  method GetActiveStreamsCount(svc: Service, order: seq<string>) returns (n: nat)
    requires Enumerates(order, svc.repo.streams.Keys)
    ensures n == |ActiveStreamIds(svc.repo)|
    ensures n <= |svc.repo.streams|
  {
    var ids, streams := GetAllActiveStreams(svc.repo, order);
    EnumerationLength(ids, ActiveStreamIds(svc.repo));
    EnumerationLength(order, svc.repo.streams.Keys);
    n := |ids|;
  }

  datatype TotalStats = TotalStats(activeStreams: nat, totalFrames: int, totalBytes: int, timestamp: int)

  /**
   * `GetTotalStats`: the number of statistics rows and the sums of their
   * frame and byte counters, walking the rows in the map order `order`.
   */
  method GetTotalStats(svc: Service, order: seq<string>, now: int) returns (t: TotalStats)
    requires Enumerates(order, svc.repo.stats.Keys)
    ensures t.activeStreams == |svc.repo.stats|
    ensures t.totalFrames == SumOver(svc.repo.stats, order, FramesOf)
    ensures t.totalBytes == SumOver(svc.repo.stats, order, BytesOf)
    ensures t.timestamp == now
  {
    var frames, bytes := 0, 0;
    var i := |order|;
    while i > 0
      invariant 0 <= i <= |order|
      invariant frames == SumOver(svc.repo.stats, order[i..], FramesOf)
      invariant bytes == SumOver(svc.repo.stats, order[i..], BytesOf)
    {
      i := i - 1;
      var row := svc.repo.stats[order[i]];
      assert order[i..][1..] == order[i + 1..];
      frames, bytes := frames + row.framesReceived, bytes + row.bytesReceived;
    }
    EnumerationLength(order, svc.repo.stats.Keys);
    t := TotalStats(|order|, frames, bytes, now);
  }
}

=== FILE: text.dfy ===
/**
 * String helpers the gateway relies on: Go's `%d` rendering of integers,
 * `strings.Split` on a single separator character, and `strings.Contains`.
 * Go strings are byte strings; here a `string` holds one `char` per byte.
 */
module Text {

  predicate IsDigit(c: char) {
    '0' <= c <= '9'
  }

  predicate AllDigits(s: string) {
    forall i :: 0 <= i < |s| ==> IsDigit(s[i])
  }

  function DigitChar(d: nat): (c: char)
    requires d < 10
    ensures IsDigit(c)
    ensures c as int - '0' as int == d
  {
    (d + '0' as int) as char
  }

  function DigitValue(c: char): (d: nat)
    requires IsDigit(c)
    ensures d < 10
  {
    c as int - '0' as int
  }

  /** Decimal digits of `n`, most significant first, without leading zeros. */
  function NatToDecimal(n: nat): (s: string)
    ensures 1 <= |s|
    ensures AllDigits(s)
    ensures |s| > 1 ==> s[0] != '0'
    decreases n
  {
    if n < 10 then [DigitChar(n)] else NatToDecimal(n / 10) + [DigitChar(n % 10)]
  }

  /** The number a string of decimal digits denotes: the inverse of `NatToDecimal`. */
  function DecimalValue(s: string): nat
    requires AllDigits(s)
    decreases |s|
  {
    if |s| == 0 then 0 else 10 * DecimalValue(s[..|s| - 1]) + DigitValue(s[|s| - 1])
  }

  lemma {:induction false} DecimalRoundTrip(n: nat)
    ensures DecimalValue(NatToDecimal(n)) == n
    decreases n
  {
    if n >= 10 {
      var s := NatToDecimal(n);
      assert s[..|s| - 1] == NatToDecimal(n / 10);
      DecimalRoundTrip(n / 10);
    }
  }

  /** Distinct numbers print differently, so ids built from them never collide. */
  lemma NatToDecimalInjective(m: nat, n: nat)
    requires NatToDecimal(m) == NatToDecimal(n)
    ensures m == n
  {
    DecimalRoundTrip(m);
    DecimalRoundTrip(n);
  }

  /** Go's `fmt.Sprintf("%d", i)` for a signed integer. */
  function IntToDecimal(i: int): (s: string)
    ensures 1 <= |s|
    ensures i >= 0 <==> IsDigit(s[0])
    ensures i < 0 <==> s[0] == '-'
  {
    if i >= 0 then NatToDecimal(i) else "-" + NatToDecimal(-i)
  }

  lemma IntToDecimalInjective(a: int, b: int)
    requires IntToDecimal(a) == IntToDecimal(b)
    ensures a == b
  {
    if a >= 0 {
      NatToDecimalInjective(a, b);
    } else {
      assert NatToDecimal(-a) == IntToDecimal(a)[1..] == IntToDecimal(b)[1..] == NatToDecimal(-b);
      NatToDecimalInjective(-a, -b);
    }
  }

  /** Number of occurrences of `c` in `s`. */
  function Occurrences(s: string, c: char): nat
    decreases |s|
  {
    if |s| == 0 then 0 else (if s[0] == c then 1 else 0) + Occurrences(s[1..], c)
  }

  /** Index of the first `c` in `s`. */
  function IndexOf(s: string, c: char): (i: nat)
    requires c in s
    ensures i < |s| && s[i] == c && c !in s[..i]
    decreases |s|
  {
    if s[0] == c then 0 else 1 + IndexOf(s[1..], c)
  }

  /** Go's `strings.Split(s, string(sep))`: the pieces between separators, empty ones included. */
  function Split(s: string, sep: char): (parts: seq<string>)
    ensures 1 <= |parts|
    ensures forall i :: 0 <= i < |parts| ==> sep !in parts[i]
    decreases |s|
  {
    if sep !in s then [s]
    else
      var i := IndexOf(s, sep);
      [s[..i]] + Split(s[i + 1..], sep)
  }

  /** Go's `strings.Join(parts, string(sep))`. */
  function Join(parts: seq<string>, sep: char): string
    requires 1 <= |parts|
    decreases |parts|
  {
    if |parts| == 1 then parts[0] else parts[0] + [sep] + Join(parts[1..], sep)
  }

  lemma {:induction false} JoinSplit(s: string, sep: char)
    ensures Join(Split(s, sep), sep) == s
    decreases |s|
  {
    if sep in s {
      var i := IndexOf(s, sep);
      JoinSplit(s[i + 1..], sep);
      assert Split(s, sep)[1..] == Split(s[i + 1..], sep);
      assert s == s[..i] + [sep] + s[i + 1..];
    }
  }

  /** Splitting a join of separator-free pieces gives the pieces back. */
  lemma {:induction false} SplitJoin(parts: seq<string>, sep: char)
    requires 1 <= |parts|
    requires forall i :: 0 <= i < |parts| ==> sep !in parts[i]
    ensures Split(Join(parts, sep), sep) == parts
    decreases |parts|
  {
    if |parts| > 1 {
      var rest := Join(parts[1..], sep);
      var s := parts[0] + [sep] + rest;
      assert Join(parts, sep) == s;
      assert sep !in parts[0];
      assert s[|parts[0]|] == sep;
      assert sep in s;
      assert IndexOf(s, sep) == |parts[0]| by {
        IndexOfPrefix(parts[0], sep, [sep] + rest);
        assert s == parts[0] + ([sep] + rest);
      }
      assert s[|parts[0]| + 1..] == rest;
      assert s[..|parts[0]|] == parts[0];
      assert Split(s, sep) == [parts[0]] + Split(rest, sep);
      SplitJoin(parts[1..], sep);
      assert parts == [parts[0]] + parts[1..];
    }
  }

  lemma {:induction false} IndexOfPrefix(a: string, c: char, b: string)
    requires c !in a && c in b
    ensures c in a + b
    ensures IndexOf(a + b, c) == |a| + IndexOf(b, c)
    decreases |a|
  {
    assert b[IndexOf(b, c)] == (a + b)[|a| + IndexOf(b, c)];
    if |a| > 0 {
      assert (a + b)[1..] == a[1..] + b;
      IndexOfPrefix(a[1..], c, b);
    }
  }

  lemma {:induction false} SplitCount(s: string, sep: char)
    ensures |Split(s, sep)| == Occurrences(s, sep) + 1
    decreases |s|
  {
    if sep !in s {
      NoOccurrences(s, sep);
    } else {
      var i := IndexOf(s, sep);
      SplitCount(s[i + 1..], sep);
      OccurrencesAppend(s[..i], s[i..], sep);
      assert s == s[..i] + s[i..];
      NoOccurrences(s[..i], sep);
      assert s[i..][1..] == s[i + 1..];
    }
  }

  lemma {:induction false} NoOccurrences(s: string, c: char)
    requires c !in s
    ensures Occurrences(s, c) == 0
    decreases |s|
  {
    if |s| > 0 {
      assert c !in s[1..];
      NoOccurrences(s[1..], c);
    }
  }

  lemma {:induction false} OccurrencesAppend(a: string, b: string, c: char)
    ensures Occurrences(a + b, c) == Occurrences(a, c) + Occurrences(b, c)
    decreases |a|
  {
    if |a| > 0 {
      assert (a + b)[1..] == a[1..] + b;
      OccurrencesAppend(a[1..], b, c);
    } else {
      assert a + b == b;
    }
  }

  predicate IsPrefix(p: string, s: string) {
    |p| <= |s| && s[..|p|] == p
  }

  /** Go's `strings.Contains(s, t)`. */
  predicate Contains(s: string, t: string)
    decreases |s|
  {
    IsPrefix(t, s) || (|s| > 0 && Contains(s[1..], t))
  }

  lemma {:induction false} ContainsInMiddle(a: string, t: string, b: string)
    ensures Contains(a + t + b, t)
    decreases |a|
  {
    if |a| == 0 {
      assert a + t + b == t + b;
      assert (t + b)[..|t|] == t;
    } else {
      assert (a + t + b)[1..] == a[1..] + t + b;
      ContainsInMiddle(a[1..], t, b);
    }
  }
}

=== FILE: user_client.dfy ===
/**
 * The gateway's client for the external user service. Remote replies are
 * inputs: the service is an oracle answering each request, and the stub
 * client the source falls back to is one deterministic such oracle.
 */
module UserClient {
  import opened Wrappers
  import Text

  datatype StreamingConfig = StreamingConfig(
    serverUrl: string,
    serverPort: int,
    apiKey: string,
    streamEndpoint: string,
    maxBitrate: int,
    maxResolution: int,
    allowedCodecs: seq<string>)

  /** A user record; a reply may lack the streaming block (a nil pointer in the source). */
  datatype User = User(
    id: string,
    username: string,
    email: string,
    status: string,
    streamingConfig: Option<StreamingConfig>)

  /**
   * The two lookups the stream service makes: the user for a client id and
   * the streaming configuration for a user id, each answered or refused.
   */
  datatype UserService = UserService(
    getUser: string -> Result<User, string>,
    getConfig: string -> Result<StreamingConfig, string>)

  // ---------------------------------------------------------------------------
  // Requests the real client sends

  datatype GetUserRequest = GetUserRequest(userId: string)

  datatype GetStreamingConfigRequest = GetStreamingConfigRequest(userId: string, clientId: string)

  datatype LoginRequest = LoginRequest(username: string, password: string, clientInfo: string)

  datatype ValidateTokenRequest = ValidateTokenRequest(token: string)

  /** How the gateway names itself to the user service. */
  const GatewayClientName := "api-gateway"

  /** The user id the health probe asks for, expecting "not found". */
  const HealthProbeUserId := "health_check"

  /** `GetUserByClientId`: the client id is sent as the user id. */
  function GetUserByClientIdRequest(clientId: string): (q: GetUserRequest)
    ensures q.userId == clientId
  {
    GetUserRequest(clientId)
  }

  /** `GetStreamingConfig`: the user id as given, and the gateway's own name as client id. */
  function GetStreamingConfigRequestFor(userId: string): (q: GetStreamingConfigRequest)
    ensures q.userId == userId && q.clientId == GatewayClientName
  {
    GetStreamingConfigRequest(userId, GatewayClientName)
  }

  function LoginRequestFor(username: string, password: string): (q: LoginRequest)
    ensures q.username == username && q.password == password && q.clientInfo == GatewayClientName
  {
    LoginRequest(username, password, GatewayClientName)
  }

  function HealthProbeRequest(): (q: GetUserRequest)
    ensures q.userId == HealthProbeUserId
  {
    GetUserRequest(HealthProbeUserId)
  }

  // ---------------------------------------------------------------------------
  // Health check

  /** The error text that proves the service is up: it answered "no such user". */
  const NotFoundText := "rpc error: code = NotFound desc = user not found"

  /**
   * `HealthCheck` of the real client, given the probe's error text (`None`
   * when the probe succeeded). Healthy iff the probe succeeded or failed with
   * exactly the not-found text; any other error is wrapped.
   */
  function HealthCheck(probeError: Option<string>): (err: Option<string>)
    ensures err.None? <==> probeError.None? || probeError.value == NotFoundText
    ensures err.Some? ==> err.value == "user-service health check failed: " + probeError.value
  {
    match probeError
    case None => None
    case Some(e) => if e == NotFoundText then None else Some("user-service health check failed: " + e)
  }

  // ---------------------------------------------------------------------------
  // Constructor

  datatype ClientKind = RealClient | StubClient

  /** `NewUserServiceClient` never fails: a failed dial falls back to the stub. */
  function NewUserServiceClient(dialSucceeded: bool): (r: Result<ClientKind, string>)
    ensures r.Ok?
    ensures r.value == RealClient <==> dialSucceeded
  {
    if dialSucceeded then Ok(RealClient) else Ok(StubClient)
  }

  // ---------------------------------------------------------------------------
  // Retry loop

  /** The wrapped failure after the retry budget is spent; `lastError` is nil when no attempt ran. */
  datatype RetryError = RetryError(maxRetries: int, lastError: Option<string>)

  /** The error text Go prints for a `RetryError` (`%!w(<nil>)` is how `%w` prints a nil error). */
  function RetryErrorText(e: RetryError): string {
    "failed to get user info after " + Text.IntToDecimal(e.maxRetries) + " attempts: "
      + e.lastError.GetOr("%!w(<nil>)")
  }

  function Max0(n: int): nat {
    if n > 0 then n else 0
  }

  /**
   * `GetUserInfoWithRetry` of the real client: up to `maxRetries` lookups,
   * `reply(i)` being the answer to attempt `i`. The first success is returned
   * at once; a delay is slept between attempts but never after the last one.
   */
  method GetUserInfoWithRetry(maxRetries: int, reply: nat -> Result<User, string>)
    returns (result: Result<User, RetryError>, attempts: nat, sleeps: nat)
    ensures attempts <= Max0(maxRetries)
    ensures sleeps == Max0(attempts - 1)
    ensures forall i :: 0 <= i < attempts - 1 ==> reply(i).Err?
    ensures result.Ok? ==> 1 <= attempts && reply(attempts - 1) == Ok(result.value)
    ensures result.Err? ==> attempts == Max0(maxRetries)
    ensures result.Err? ==> forall i :: 0 <= i < attempts ==> reply(i).Err?
    ensures result.Err? ==> result.error.maxRetries == maxRetries
    ensures result.Err? && attempts == 0 ==> result.error.lastError == None
    ensures result.Err? && attempts > 0 ==> result.error.lastError == Some(reply(attempts - 1).error)
    ensures (exists i :: 0 <= i < maxRetries && reply(i).Ok?) ==> result.Ok?
  {
    var lastErr: Option<string> := None;
    var i := 0;
    sleeps := 0;
    while i < maxRetries
      invariant 0 <= i <= Max0(maxRetries)
      invariant forall j :: 0 <= j < i ==> reply(j).Err?
      invariant sleeps == Max0(i - 1) + (if 0 < i < maxRetries then 1 else 0)
      invariant i == 0 ==> lastErr == None
      invariant i > 0 ==> lastErr == Some(reply(i - 1).error)
    {
      var r := reply(i);
      if r.Ok? {
        assert sleeps == Max0(i);
        return Ok(r.value), i + 1, sleeps;
      }
      lastErr := Some(r.error);
      if i < maxRetries - 1 {
        sleeps := sleeps + 1;
      }
      i := i + 1;
    }
    return Err(RetryError(maxRetries, lastErr)), i, sleeps;
  }

  // ---------------------------------------------------------------------------
  // The stub client

  const StubServerUrl := "video-service-1.example.com"
  const StubServerPort := 8082
  const StubStreamEndpoint := "/api/v1/video/stream"
  const StubMaxBitrate := 5000
  const StubMaxResolution := 1080

  /** The streaming configuration the stub hands out; the API key is derived from the id asked for. */
  function StubConfig(id: string): (c: StreamingConfig)
    ensures c.apiKey == "video_api_key_" + id
    ensures c.serverUrl == StubServerUrl && c.serverPort == StubServerPort
    ensures c.streamEndpoint == StubStreamEndpoint
  {
    StreamingConfig(StubServerUrl, StubServerPort, "video_api_key_" + id, StubStreamEndpoint,
                    StubMaxBitrate, StubMaxResolution, ["h264", "h265"])
  }

  /** The user the stub invents for any client id. */
  function StubUser(clientId: string): (u: User)
    ensures u.id == clientId && u.username == "user_" + clientId
    ensures u.streamingConfig == Some(StubConfig(clientId))
  {
    User(clientId, "user_" + clientId, "user_" + clientId + "@example.com", "active", Some(StubConfig(clientId)))
  }

  /** The stub as an oracle: every lookup succeeds. */
  function Stub(): (s: UserService)
    ensures forall id :: s.getUser(id) == Ok(StubUser(id))
    ensures forall id :: s.getConfig(id) == Ok(StubConfig(id))
  {
    UserService(id => Ok(StubUser(id)), id => Ok(StubConfig(id)))
  }

  datatype LoginResponse = LoginResponse(token: string, user: User)

  datatype ValidateTokenResponse = ValidateTokenResponse(valid: bool, user: User)

  function StubLogin(username: string, password: string): (r: Result<LoginResponse, string>)
    ensures r.Ok?
    ensures r.value.token == "stub_token_" + username
    ensures r.value.user == StubUser(username)
  {
    Ok(LoginResponse("stub_token_" + username, StubUser(username)))
  }

  function StubValidateToken(token: string): (r: Result<ValidateTokenResponse, string>)
    ensures r.Ok? && r.value.valid
    ensures r.value.user.id == "stub_user" && r.value.user.username == "stub_user"
  {
    Ok(ValidateTokenResponse(true, User("stub_user", "stub_user", "", "active", None)))
  }

  /** The stub's health check never reports an error. */
  function StubHealthCheck(): (err: Option<string>)
    ensures err.None?
  {
    None
  }

  /** The stub's retrying lookup is a single lookup, which always succeeds. */
  function StubGetUserInfoWithRetry(clientId: string): (r: Result<User, RetryError>)
    ensures r == Ok(StubUser(clientId))
  {
    match Stub().getUser(clientId)
    case Ok(u) => Ok(u)
    case Err(e) => Err(RetryError(1, Some(e)))
  }
}

=== FILE: wrappers.dfy ===
/** Failure-carrying datatypes shared by every module of the model. */
module Wrappers {

  /** A value that may be absent: Go's nil pointer or a missing map entry. */
  datatype Option<+T> = None | Some(value: T) {

    /** The wrapped value, or `default` when absent. */
    function GetOr(default: T): T {
      match this
      case Some(v) => v
      case None => default
    }
  }

  /** The `(value, error)` pair of a Go call, with exactly one side present. */
  datatype Result<+T, +E> = Ok(value: T) | Err(error: E) {

    function ToOption(): Option<T> {
      match this
      case Ok(v) => Some(v)
      case Err(_) => None
    }
  }
}
